=== FILE: README.md ===
# pivotifyjs — a Dafny model of the table transform pipeline

pivotifyjs turns directive text written next to an HTML table into table
transformations: computed columns, pivot-style aggregation (collapse), a summary row,
expansion of `colspan`/`rowspan`, and gradient style instructions. This project models
the pipeline's core over an abstract table, without the DOM. An `Html` value is the
header texts plus, for each body row, its data-cell texts. The model states and proves
what each step does to that table.

Modules, following the source's structure:

- `Values` holds the cell values (`Num`, `Text`, `Undefined`) and the exceptions the core
  throws (`Error`). It also holds `Host`, the JavaScript behaviour the model leaves open:
  `eval`, `String(number)`, `toFixed(2)`, the `isNaN(Number(s))` test and the colour
  library's validity test. `Host` is passed as a parameter.
- `JsObjects` models plain JavaScript objects used as dictionaries. Entries are kept in
  insertion order. Enumeration (`Object.keys`/`Object.values`) lists array-index keys
  first, in ascending order, and then the other keys in insertion order.
- `Templates` models the `${name}` reference syntax: detection (`match`) and global
  replacement (`replace` with a callback).
- `Cells` is the resolved/unresolved cell of `src/models/ExtendedCellValue.ts` and of the
  class inlined in `src/models/TableData.ts`.
- `Columns` is the `{name: index}` dictionary.
- `Tables` is `TableData`: construction, reference resolution with caching, `getCell`,
  `getValues` and rendering.
- `Handlers` covers the aggregator registry and `assertNumericArray`. `Instructions` covers
  grouping instructions by column.
- `Collapse`, `Aggregation` and `Summarization` cover the aggregation engine.
- `Computation` covers computed columns.
- `Spans` covers `colspan`/`rowspan` expansion. It has methods that follow the source's
  loops, proved equal to functional definitions.
- `Gradient` covers gradient directives: line selection, the directive pattern, parameter
  parsing, validation with defaults, and the from/to swap.
- `Wrappers`, `Seqs`, `Strings` and `Sorting` are generic helpers.

Reference cycles: once a reference reads the referenced cell's object (the third item
below), `${...}` references resolve by plain recursion. A cell that reaches itself through
references then recurses until the engine's stack overflows. The model tracks the cells
whose resolution is in progress. It reports re-entry into one of them as `StackOverflow`,
and this is also what makes resolution terminate.

Three places where the model follows intent rather than the letter of the code:

- `src/models/TableData.ts:62` passes two positional arguments to a constructor that
  takes one props object (`:12`). As written, every table cell would start with an
  undefined value.
  - The model builds table cells as `{ unresolvedValue, substitute }`, in the props
    shape of `src/models/ExtendedCellValue.ts`.
- The inline cell class in `src/models/TableData.ts:7-44` computes
  `resolvedValue || unresolvedValue`, which drops falsy resolved values such as `""`
  and `0`.
  - The model follows `src/models/ExtendedCellValue.ts:14-24`, which keeps them.
  - This matters for summary cells, which are created resolved with `""`.
- The substitute at `src/models/TableData.ts:64-67` reads `arr[idx].getValue()`. `arr` is
  the third argument of the `.map` over the row's `td` elements (`:60`), so `arr[idx]` is a
  DOM cell element, which has no `getValue`. As written, a reference to a known column
  throws a `TypeError`, and no resolution recursion happens.
  - The model reads `arr` as the row's cell objects. A reference then resolves the
    referenced cell (with caching) and reads its value.

Cells built from `{ unresolvedValue }` alone (the collapse output, `src/aggregation/collapse.ts:99-101`)
follow the class that file imports, the one in `src/models/TableData.ts:7-44`. Its default
substitute (`:15`) hands back the cell's own text. So reading such a cell evaluates its
text, references and all. A cell of `src/models/ExtendedCellValue.ts` without a substitute
would read `undefined` there instead.

`summarize` calls `createRow`, `getValues({ colIdx })` and `getHtmlTableElement`, and
`aggregate` calls `getHtmlTableElement` on the collapsed table
(`src/aggregation/aggregation.ts:51`). The `TableData` class has none of these (it renders
through `getInnerHtml`, `src/models/TableData.ts:97`), so as written both throw a
`TypeError` at those calls. The model defines them from their call sites:

- The new row is appended after the summary cells are computed, so the summary does not
  read its own row.
- Column values are read from every existing row in order.
- The table is rendered as `getInnerHtml` does, both in `summarize` and, after the
  collapse, in `Aggregation.Aggregate`.

## Model

| member | source | states |
|---|---|---|
| Handlers.SumOfAppend | src/aggregation/handlers.ts:26 | the left fold of `+` from 0 distributes over concatenation: the sum of `xs + ys` is the sum of `xs` plus the sum of `ys` |
| Handlers.AverageOf | src/aggregation/handlers.ts:30 | the average of no numbers is 0; otherwise the average times the count is the sum |
| Handlers.MinOf | src/aggregation/handlers.ts:34 | `Math.min(...xs)` is +Infinity exactly when `xs` is empty; otherwise it is an element of `xs` at most every element |
| Handlers.MaxOf | src/aggregation/handlers.ts:38 | `Math.max(...xs)` is -Infinity exactly when `xs` is empty; otherwise it is an element of `xs` at least every element |
| Handlers.AverageBetweenMinAndMax | src/aggregation/handlers.ts:30-38 | the average of a non-empty list lies between its MIN and its MAX |
| Handlers.AverageBounds | src/aggregation/handlers.ts:30 | the average of a non-empty list lies within any bounds of its elements |
| Handlers.SortReals | src/aggregation/handlers.ts:44 | the sorted copy is ascending and a permutation of the input |
| Handlers.SortCounts | src/aggregation/handlers.ts:44 | sorting does not change how many elements lie below or at any bound |
| Handlers.MedianOf | src/aggregation/handlers.ts:42-47 | the median of nothing is 0; otherwise it is an element of the input with at most ⌊n/2⌋ elements below it and more than ⌊n/2⌋ elements at or below it, i.e. the element at index ⌊n/2⌋ of the ascending copy |
| Handlers.MedianOfOneToFour | src/aggregation/handlers.ts:42-47 | the median of `[1, 2, 3, 4]` is 3, the upper middle element rather than the mean of the two middle ones |
| Handlers.Apply | src/aggregation/handlers.ts:19-50 | SUM is the sum; every handler gives a finite number on non-empty input; on empty input SUM, AVERAGE and MEDIAN give 0, MIN gives +Infinity and MAX gives -Infinity |
| Handlers.Violations | src/aggregation/handlers.ts:10-12 | the values whose `typeof` is not "number", in order; there are none exactly when every value is a number |
| Handlers.AssertNumeric | src/aggregation/handlers.ts:3-17 | throws exactly when some value is not a number, and the error lists every violating value |
| Handlers.ViolationsMember | src/aggregation/handlers.ts:10-12 | a value is listed as a violation iff it occurs in the input and is not a number |
| Handlers.NumbersMember | src/aggregation/collapse.ts:34 | a number is kept by the `typeof v === "number"` filter iff it occurs in the input |
| Handlers.NumbersAppend | src/aggregation/collapse.ts:34 | filtering distributes over concatenation |
| Instructions.GroupByColumn | src/aggregation/instructions.ts:3-13 | the result has one entry per instructed column, in first-appearance order, and no key twice |
| Instructions.GroupedList | src/aggregation/instructions.ts:6-12 | a column's list is the operators of the instructions naming it, de-duplicated, in first-appearance order |
| Instructions.GroupedColumns | src/aggregation/instructions.ts:7 | a column is a key iff some instruction names it |
| Instructions.GroupedOperators | src/aggregation/instructions.ts:7-10 | an operator is listed under a column iff some instruction pairs them; no operator is listed twice |
| Instructions.DuplicateInstructionIgnored | src/aggregation/instructions.ts:8 | repeating an instruction leaves the grouping unchanged |
| JsObjects.Set | src/aggregation/instructions.ts:7 | `o[k] = v`: afterwards `k` reads `v` and every other key reads as before |
| JsObjects.SetNames | src/aggregation/instructions.ts:7 | an existing key keeps its place in insertion order, and a new key goes last |
| JsObjects.OrderedEntries | src/aggregation/collapse.ts:81 | enumeration order is a permutation of the entries with every array-index key before every other key, array-index keys ascending |
| JsObjects.KeysAreNames | src/aggregation/collapse.ts:86 | `Object.keys` lists exactly the keys that were assigned |
| JsObjects.KeysWithoutIndicesAreNames | src/aggregation/collapse.ts:86 | without array-index keys, enumeration order is insertion order |
| JsObjects.ValueListed | src/aggregation/collapse.ts:81 | every stored value is enumerated by `Object.values`, aligned with its key |
| JsObjects.ListedValue | src/aggregation/collapse.ts:81 | every enumerated value is the one stored under its key |
| JsObjects.NumericKeyEnumeratedFirst | src/aggregation/collapse.ts:81 | a key "2024" assigned after "Name" is still enumerated before it |
| Aggregation.AggregateInstructions | src/aggregation/aggregation.ts:11-23 | the emitted instructions are grouped by operator in declaration order SUM, MIN, MAX, AVERAGE, MEDIAN |
| Aggregation.EmitMember | src/aggregation/aggregation.ts:14-20 | an instruction is emitted iff its column is among those the directive text names for its operator |
| Aggregation.GroupedInDeclarationOrder | src/aggregation/aggregation.ts:11-23 | after grouping, a column lists exactly the operators whose directive names it, once each, in declaration order |
| Aggregation.NoKeysWithoutInstructions | src/aggregation/aggregation.ts:42 | the grouping has no keys iff there are no instructions |
| Aggregation.Aggregate | src/aggregation/aggregation.ts:34-52 | no instructions leave the table unchanged (checked before the groups); instructions without groups throw; otherwise the table becomes the rendered collapse, or the collapse's error |
| Aggregation.AggregateShape | src/aggregation/aggregation.ts:50-51 | a successful aggregation is headed by the groups and then the aggregated columns, in enumeration order, and has at most as many rows as the input |
| Collapse.PivotValues | src/aggregation/collapse.ts:15-21 | one component per pivot: the row's value in that column, or "" when the table has no such column |
| Collapse.PivotIdCollision | src/aggregation/collapse.ts:23 | the distinct tuples ("a\|\|b", "c") and ("a", "b\|\|c") share the pivot id "a\|\|b\|\|c" |
| Collapse.UnknownAndShortShareId | src/aggregation/collapse.ts:17-23 | an unknown pivot column ("") and a row too short to reach the column (`undefined`) give the same id, though they print differently |
| Collapse.GroupRows | src/aggregation/collapse.ts:69-77 | the groups are keyed by the distinct pivot ids in first-appearance order |
| Collapse.GroupOf | src/aggregation/collapse.ts:72-75 | an id's group holds the pivot values of the first row with that id and the ascending indices of all rows with that id; an id no row has has no group |
| Collapse.RowInOwnGroup | src/aggregation/collapse.ts:69-77 | every row index is in the group of its own id |
| Collapse.PositionsMember | src/aggregation/collapse.ts:75 | a row index is in a group's member list iff that row has the group's id |
| Collapse.FirstEncounterOrder | src/aggregation/collapse.ts:81 | without array-index ids, groups are enumerated in order of first encounter |
| Collapse.StripZeros | src/aggregation/collapse.ts:45-47 | a trailing ".00" is removed and any other text is kept |
| Collapse.AggregatedCell | src/aggregation/collapse.ts:33-53 | the cell starts with "Label: "; without numbers it reads "Label: N/A" |
| Collapse.OtherDecimalsKept | src/aggregation/collapse.ts:44-52 | a result whose `toFixed(2)` text does not end in ".00" is shown as that text after the label |
| Collapse.NonNumberIgnored | src/aggregation/collapse.ts:34 | inserting a non-number anywhere in the values leaves the cell unchanged |
| Collapse.SameNumbersSameCell | src/aggregation/collapse.ts:34-52 | the cell depends on the values only through their numbers |
| Collapse.ZeroDecimalsDropped | src/aggregation/collapse.ts:44-52 | a result printed with two zero decimals is shown as the whole part after the label |
| Collapse.SumExample | src/aggregation/collapse.ts:33-53 | 1.5, "x", 1.5 summed print as "Sum: 3" |
| Collapse.AggregatedText | src/aggregation/collapse.ts:88-89 | with a single operator the column's cell is that operator's cell |
| Collapse.AggregatedTextSnoc | src/aggregation/collapse.ts:88-89 | with several operators the cell is the cell of all but the last, then ", ", then the last operator's part: parts in operator-list order |
| Collapse.AggregatedTextEmpty | src/aggregation/collapse.ts:88-89 | an empty operator list gives an empty cell |
| Collapse.ColumnValuesFail | src/aggregation/collapse.ts:87 | reading a column over a group fails iff some member row lacks the column |
| Collapse.AggregateCellsFail | src/aggregation/collapse.ts:86-90 | a group's aggregation fails iff one of its column lookups fails |
| Collapse.OutputRowsFail | src/aggregation/collapse.ts:81-92 | the output fails iff some group's aggregation fails |
| Collapse.CollapseTable | src/aggregation/collapse.ts:64-104 | a failure to read a row is passed on, any other failure is a missing cell; a result is indexed by groups then aggregation keys, has at most one row per input row, and every output row has one unresolved cell without a row substitute per output column; `Collapse.CollapseResolvedRows` gives the rows exactly |
| Collapse.RowRepresented | src/aggregation/collapse.ts:69-101 | every input row is represented by the output row of its group: the pivot values of that group's first row, then the aggregated cell texts |
| Collapse.CollapseResolvedRows | src/aggregation/collapse.ts:69-101 | the output has exactly one row per distinct pivot id, in the enumeration order of the ids as keys of `grouped`; row `i` holds the first pivot values of the `i`-th id's group and the aggregates over all rows with that id |
| Collapse.CollapseFirstEncounter | src/aggregation/collapse.ts:69-101 | when no pivot id is an array index, the output rows follow the first appearance of their ids among the input rows, one row per distinct id |
| Collapse.CollapseTableReadsFirst | src/aggregation/collapse.ts:64-104 | a successful collapse is the collapse of the table after every row was read |
| Collapse.CollapseNeedsCells | src/aggregation/collapse.ts:86-90 | once the rows are read, the collapse succeeds iff every row has every aggregated column |
| Collapse.GroupingWellFormed | src/aggregation/collapse.ts:69-77 | every group's pivot tuple has one value per group column, and its members are input rows |
| Summarization.SummaryPart | src/aggregation/summarization.ts:37-39 | each operator's part starts with its label and ": " |
| Summarization.SummaryText | src/aggregation/summarization.ts:36-40 | a single operator's cell is its part; with several, the cell starts with the first operator's label |
| Summarization.SummaryTextSnoc | src/aggregation/summarization.ts:36-40 | with several operators the cell is the cell of all but the last, then ", ", then the last operator's part: parts in operator-list order |
| Summarization.SumSummaryExample | src/aggregation/summarization.ts:36-40 | summing 100, 200 and 49 gives "Sum: 349", with no rounding and the label kept |
| Summarization.ColumnReadSucceeds | src/aggregation/summarization.ts:32 | reading a column fails iff some row lacks the cell or cannot resolve it |
| Summarization.SummaryCell | src/aggregation/summarization.ts:29-45 | an uninstructed column gets a resolved ""; an instructed column gets a resolved text, or the read's error, or a non-numeric error |
| Summarization.SummaryCellsSucceed | src/aggregation/summarization.ts:29-45 | the summary row is built iff every column's cell can be built |
| Summarization.Summarize | src/aggregation/summarization.ts:16-50 | missing instructed columns throw before anything else; success re-renders the header from the column dictionary (`Object.keys(columns)`: trimmed, duplicates dropped, array-index names first) and appends exactly one row with one cell per column |
| Summarization.MissingColumnsReported | src/aggregation/summarization.ts:20-25 | a column is reported missing iff an instruction names it and the table lacks it |
| Summarization.SummaryRowAppended | src/aggregation/summarization.ts:47-49 | the existing rows render as without the summary, and the summary row comes after them |
| Summarization.UninstructedColumnEmpty | src/aggregation/summarization.ts:42-44 | under a column no instruction names, the summary row holds "" |
| Summarization.InstructedColumnSummarized | src/aggregation/summarization.ts:30-41 | under an instructed column the summary row holds the operators' parts over the column's numbers |
| Summarization.NonNumericColumnThrows | src/aggregation/summarization.ts:34 | a non-number in an instructed column makes the summary throw, naming the column and every violating value |
| Cells.Resolve | src/models/ExtendedCellValue.ts:31-45 | without a reference the text is evaluated; with one, the substitute's text is evaluated, or `undefined` when there is no substitute; it never throws |
| Cells.SubstituteUnusedWithoutToken | src/models/ExtendedCellValue.ts:33-35 | the substitute is consulted only when the text holds a `${...}` reference |
| Cells.FailedEvaluationKeepsText | src/models/ExtendedCellValue.ts:37-42 | text that evaluation rejects resolves to itself |
| Cells.GetValue | src/models/TableData.ts:12-43 | a resolved cell returns its value; an unresolved one resolves; either way the cell is resolved afterwards to the returned value |
| Cells.GetValueMemoized | src/models/ExtendedCellValue.ts:50-56 | a second read returns the same value and cell, whatever the substitute would now return |
| Cells.DefaultSubstituteEvaluatesText | src/models/TableData.ts:15-31 | a cell built without a row substitute evaluates its own text, even when it holds a reference |
| Templates.HasTokenIffTokens | src/models/ExtendedCellValue.ts:33 | the detection test finds a reference iff the global replacement has one to replace |
| Templates.SubstituteCongruence | src/models/TableData.ts:64-67 | the replacement only consults the callback on the names of the references found |
| Templates.SubstituteRestores | src/models/TableData.ts:64-67 | replacing every reference by its own text gives the input back |
| Templates.SubstituteWithoutTokens | src/models/TableData.ts:64-67 | text without references is unchanged |
| Templates.SingleToken | src/models/TableData.ts:64 | the text `${name}` is one reference, named `name` |
| Columns.ColumnIndexNames | src/models/TableData.ts:52-57 | the dictionary's keys are the names in first-appearance order |
| Columns.ColumnIndexGet | src/models/TableData.ts:52-57 | a name is a key iff it occurs, and then maps to its last occurrence |
| Columns.ColumnIndexLast | src/models/TableData.ts:52-57 | a name maps to a position holding that name with no later occurrence |
| Columns.DistinctIndex | src/models/TableData.ts:52-57 | with distinct names every name maps to its own position |
| Tables.FromHtml | src/models/TableData.ts:50-71 | trimmed header names are indexed by position; one row of unresolved, linked cells of trimmed text per body row, short rows not padded |
| Tables.ResolveAt | src/models/TableData.ts:62-69 | resolving a cell only resolves cells, resolves this one to the returned value, leaves cells in progress alone, and returns a resolved cell's value as is |
| Tables.ResolveAtMeaning | src/models/TableData.ts:62-69 | an unresolved cell resolves as `resolve()` of its text, where the row substitute replaces each reference by `String` of the referenced cell's value in the row, or "" for an unknown column; a cell without the row substitute evaluates its own text |
| Tables.SubstRowResolves | src/models/TableData.ts:64-67 | every reference met is resolved in the row returned |
| Tables.SubstRowMeaning | src/models/TableData.ts:64-67 | the substituted text is the template replacement reading from the row returned |
| Tables.SelfReferenceOverflows | src/models/TableData.ts:64-66 | a cell whose text refers to its own column never resolves |
| Tables.MutualReferenceOverflows | src/models/TableData.ts:64-66 | two cells that refer to each other never resolve |
| Tables.PlainCellResolves | src/models/ExtendedCellValue.ts:31-45 | a cell without references resolves by evaluation alone, touching no other cell |
| Tables.UnlinkedCellResolves | src/models/TableData.ts:15-31 | a cell without the row substitute resolves to the evaluation of its own text, touching no other cell |
| Tables.ResolveAtSound | src/models/TableData.ts:62-69 | every cell a read resolves, the one asked for and the ones reached through references, ends up holding its text evaluated with each reference replaced by the referenced cell's value, and those cells are resolved |
| Tables.ResolveFromSound | src/models/TableData.ts:85-87 | reading a row's cells in order leaves every cell it resolved holding that meaning; the cache changes no equation |
| Tables.SoundSolves | src/models/TableData.ts:62-69 | the values of a fully read row solve the row's reference equations |
| Tables.GetValues | src/models/TableData.ts:85-87 | the row's values, one per cell in order, with that row's cells cached and every other row untouched; the values solve the row's reference equations: every cell not read before holds its text evaluated with each reference replaced by the returned value of the referenced cell ("" for an unknown column) |
| Tables.ResolveAll | src/aggregation/collapse.ts:69-70 | reading every row keeps the columns and the number of rows, resolves every cell, and each row's values solve that row's reference equations |
| Tables.Render | src/models/TableData.ts:97-101 | one header per `columns` key in enumeration order, one row per stored row and one cell per stored cell; rendering succeeds iff reading every row does, and each cell holds `String` of the value read, which solves the row's reference equations |
| Tables.RenderResolved | src/models/TableData.ts:97-101 | a fully resolved table always renders, each cell as `String` of its value |
| Tables.HeaderRoundTrip | src/models/TableData.ts:52-57 | distinct, trimmed, non-numeric header names render back in their original order |
| Tables.NumericHeaderMovesFirst | src/models/TableData.ts:97-98 | a header "Name", "2024" renders as "2024", "Name" |
| Tables.GetCell | src/models/TableData.ts:75-79 | the cell returned is the row's cell at the designated position: for a string column the position `columns` maps it to, for a numeric one the number itself; a cell is returned iff that position exists and lies within the row, otherwise `undefined` |
| Tables.GetCellUnderHeader | src/models/TableData.ts:75-79 | with distinct trimmed headers, the cell under the i-th header name is the row's i-th cell, or `undefined` when the row is shorter |
| Computation.SubstituteAllSucceeds | src/computation.ts:74-87 | substitution succeeds iff every variable's value passes the numeric test |
| Computation.FirstNonNumericVariableThrows | src/computation.ts:80-86 | the first non-numeric variable throws, naming its column and value |
| Computation.SubstituteOne | src/computation.ts:82-83 | one variable replaces every occurrence of `${column}` with its value |
| Computation.MissingCellTakesDefault | src/computation.ts:75-79 | an unknown column, or a cell the row lacks, gives the declared default |
| Computation.EmptyCellUsedAsIs | src/computation.ts:77-80 | an existing empty cell is used as is, since "" passes the numeric test |
| Computation.ComputeCell | src/computation.ts:73-97 | a substitution error is passed on; an evaluation that throws, or yields `undefined` or a value `isNaN` rejects, throws naming the substituted equation; otherwise the cell is `String` of the result |
| Computation.ComputeRowsSucceed | src/computation.ts:68-98 | an instruction's rows are computed iff every row's cell is |
| Computation.ApplyInstructionCells | src/computation.ts:62-98 | one instruction appends its name to the header and exactly its computed cell to every row |
| Computation.AppendComputedColumns | src/computation.ts:49-100 | the header gains the computed names in instruction order, and every row one cell per instruction at its end |
| Computation.ComputedColumnVisible | src/computation.ts:50-60 | the header index is rebuilt, so a computed column maps to its new position, where every row holds the computed cell |
| Computation.LaterInstructionReadsComputedCell | src/computation.ts:50-79 | a later instruction's variable naming a computed column reads that column's cell |
| Spans.Span | src/utils/html/tables.ts:17-18 | a missing `colspan` or `rowspan` counts as 1 |
| Spans.FirstFree | src/utils/html/tables.ts:16 | the first unoccupied column at or after the cursor: every column skipped is occupied |
| Spans.PlaceRectAt | src/utils/html/tables.ts:20-27 | a cell is written to exactly the positions (rowIdx+r, colIdx+c) with r < rowspan and c < colspan, overwriting, and every other position is kept |
| Spans.FilledMember | src/utils/html/tables.ts:35-40 | a rebuilt row holds a copy of a cell iff the cell fills a position of the matrix row |
| Spans.SkipOccupied | src/utils/html/tables.ts:16 | the `while` loop stops at the first free column |
| Spans.LayCell | src/utils/html/tables.ts:20-27 | the nested `for` loops write the rectangle the cell spans |
| Spans.LayRow | src/utils/html/tables.ts:13-29 | a row's cells are laid at successive free positions, the cursor advancing by `colspan` |
| Spans.RebuildRow | src/utils/html/tables.ts:35-40 | the rebuilt row is one copy per filled position in column order |
| Spans.ExpandRows | src/utils/html/tables.ts:7-42 | the source's loops compute `Expand` |
| Spans.Expand | src/utils/html/tables.ts:7-42 | expansion fails iff the matrix has more rows than the table; otherwise each row becomes the filled positions of its matrix row |
| Spans.ExpandFailsIffOverflow | src/utils/html/tables.ts:24 | expansion fails iff some cell spanning at least one column has a rowspan past the last row |
| Spans.ExpandUnitSpans | src/utils/html/tables.ts:7-42 | a table without spans greater than one is left as it is |
| Spans.SpillExpand | src/utils/html/tables.ts:20-40 | a cell spanning two rows is copied into the first column of the row below, and that row's own cell moves right |
| Gradient.ValidateTarget | src/stylization/gradient.ts:14-18 | "bg" or "background" give the background, "text" the text colour; anything else throws naming the value |
| Gradient.ValidateSort | src/stylization/gradient.ts:22-25 | only "ascending" and "descending" are accepted; anything else throws naming the value |
| Gradient.ValidateColor | src/stylization/gradient.ts:5-10 | a colour the colour library accepts is returned as is; anything else throws naming it |
| Gradient.ParsePair | src/stylization/gradient.ts:53-54 | a pair is kept only when its trimmed key and value are both non-empty |
| Gradient.ParsePairOf | src/stylization/gradient.ts:53-54 | `key:value`, with a trimmed colon-free key and value, reads as that pair |
| Gradient.CollectHasKey | src/stylization/gradient.ts:51-55 | a key is present iff some kept pair sets it |
| Gradient.CollectLastWins | src/stylization/gradient.ts:54 | a repeated key keeps the value of the last pair that sets it |
| Gradient.Param | src/stylization/gradient.ts:59-65 | a given parameter is validated and a missing one takes its default |
| Gradient.FromParamsSucceeds | src/stylization/gradient.ts:59-80 | an instruction is made iff every given parameter is valid and at least one of from and to is given |
| Gradient.FromParamsFirstError | src/stylization/gradient.ts:59-72 | errors come in target, sort, from, to order, and only then the missing-colour error |
| Gradient.FromParamsValue | src/stylization/gradient.ts:74-80 | the target is the text only when asked; missing colours are "transparent"; a descending sort swaps from and to |
| Gradient.LoneFromDefaults | src/stylization/gradient.ts:59-80 | a lone `from:<colour>` gives a background gradient from that colour to "transparent" |
| Gradient.MatchAtSound | src/stylization/gradient.ts:45 | a match at a position reads `:"column"="params"` there |
| Gradient.MatchAtComplete | src/stylization/gradient.ts:45 | the text `:"x"="y"`, with `x` and `y` non-empty and quote-free, matches there with groups `x` and `y` |
| Gradient.LineMatch | src/stylization/gradient.ts:45-46 | a line matches iff the pattern fits at some position, and the groups are those of such a position |
| Gradient.LineMatchGreedy | src/stylization/gradient.ts:45 | on a line without line terminators, the greedy `.*` takes the last position where the pattern fits |
| Gradient.EmitIsMakeAll | src/stylization/gradient.ts:43-83 | the `reduce` equals matching every line first and then making the instructions in order |
| Gradient.MakeAllIff | src/stylization/gradient.ts:74-82 | making succeeds iff every matched pair makes an instruction, and the instructions are those, one each and in order |
| Gradient.GetInstructionsMatched | src/stylization/gradient.ts:40-84 | `getInstructions` succeeds iff every directive line the pattern fits yields an instruction; the instructions come in line order and carry their columns |
| Strings.TrimIdempotent | src/models/TableData.ts:53 | trimming twice is trimming once |
| Strings.SplitCharJoin | src/stylization/gradient.ts:52 | splitting at a character and joining with it gives the text back |
| Strings.ReplaceAllIsSplitJoin | src/computation.ts:82-83 | replacing every occurrence is splitting at the pattern and joining with the replacement |
| Sorting.SortBy | src/aggregation/handlers.ts:44 | sorting by a key gives an ascending permutation |

## Left out

- `eval` is an abstract function in `Host`. So are `String(number)`, `toFixed(2)`, the `isNaN(Number(s))` test and `tinycolor(s).isValid()`. Floating-point arithmetic is modelled with `real`. NaN and infinite inputs are not modelled, and neither are results of `eval` that are booleans, `null` or objects.
- DOM plumbing is not modelled: querying and writing `innerHTML`, `cloneNode`, `processAllTables`, the `DOMContentLoaded` hooks, and the orchestration in `src/models/PivotifyJS.ts` and `src/stylization/stylization.ts`.
  - The model's input is the header and body texts. Only one header row is modelled.
  - HTML escaping of rendered text is not modelled.
- Directive parsing for computation and aggregation (`getComputeInstructions`, and the regex extraction `getAggregatedColumns` in `src/utils.ts`) is not modelled. These take typed instruction lists, or a function from operator to column list.
- Superseded variants of the same logic are not modelled: `src/utils/aggregation.ts`, `src/aggregation.ts`, `src/utils/computation.ts`, `src/utils.ts`, `src/utils.js`, `src/pivotify.js`, `src/pivotify.ts`, and `src/declarations.ts` (whose handlers equal those of `src/aggregation/handlers.ts`).
- The TODO stubs `clone` and `createSummaryRow` (`src/models/TableData.ts:89-95`) are not modelled.
- `GradientAgent.apply` (`src/stylization/gradient.ts:90-93`) is a placeholder, and the colour mixing in `src/stylization/gradient/gradient.ts` uses floating-point colour maths. Neither is modelled.
- `GradientAgent.isCompatible` (`src/stylization/gradient.ts:86-88`) is not modelled. It checks an instruction's `type` tag, and the model has only gradient instructions.
- Partial mutation before an exception is not modelled. Every operation returns either the whole new table or the error. The DOM rows that `expandColspanRowspan` already rebuilt before it throws are lost in the model.
- Spans.Expand: `colspan` and `rowspan` arrive already parsed as natural numbers. Attributes that are non-numeric, negative or fractional are not modelled: `Number(...)` giving NaN, a negative number, or a value like 1.5, for which the source loops twice and moves its cursor to a fractional column (`src/utils/html/tables.ts:17-28`).
- Spans.Expand: copies keep their `colspan`/`rowspan` attributes, as `cloneNode(true)` at `src/utils/html/tables.ts:38` keeps them. The function's doc comment (`:3`) says the attributes are removed; the model follows the code.
- Summarization.ColumnRead: each instructed column is read from the rows as they were built. The cache that reading one column leaves behind is not carried into reading the next column. Resolution never leaves its row, and the values read with or without the cache solve the same reference equations (`Tables.Solves`). The model does not prove that a cached read and a fresh read always give the same value.
- Summarization: a row too short for an instructed column reads as a missing cell and makes the summary throw. The source would read `undefined`, which the numeric assertion also rejects.
- Computation.SubstituteOne: a column name holding regular-expression metacharacters, and `$` patterns in the replacement value, are not modelled. The placeholder is matched literally and the value is inserted literally.
- JsObjects.OrderedEntries: the contract states that array-index keys come first and in ascending order. It does not state, in general, that the other keys keep insertion order; `JsObjects.KeysWithoutIndicesAreNames` states it for objects without array-index keys.
- Prototype keys such as `__proto__` and `constructor` are not modelled for plain objects. Every key is an own data property.
- The tests disagree with the code in two places, and the model follows the code:
  - `test/summarization.test.ts:38` expects 2-decimal rounding, but `summarize` prints the raw handler value.
  - `test/summarization.test.ts:61-62` expects the label to be omitted for a single operator, but `summarize` always adds the label.

=== FILE: aggregation.dfy ===
/** The aggregation entry point of src/aggregation/aggregation.ts: the instructions are
    emitted operator by operator in declaration order, grouped by column, and the table
    is replaced by its collapse, unless there is nothing to aggregate. */
module Aggregation {
  import opened Wrappers
  import opened Seqs
  import opened JsObjects
  import opened Values
  import opened Handlers
  import opened Instructions
  import opened Tables
  import opened Collapse
  import Columns

  /** An operator's position in declaration order. */
  function Rank(op: Operator): (n: nat)
    ensures n < |DeclarationOrder| && DeclarationOrder[n] == op
  {
    match op
    case Sum => 0
    case Min => 1
    case Max => 2
    case Average => 3
    case Median => 4
  }

  /** Operators listed in declaration order (repeats allowed). */
  predicate RankSorted(ops: seq<Operator>) {
    forall i, j :: 0 <= i < j < |ops| ==> Rank(ops[i]) <= Rank(ops[j])
  }

  lemma RankSortedMonotone(ops: seq<Operator>, key: Operator -> int)
    requires forall op :: key(op) == Rank(op)
    ensures RankSorted(ops) <==> MonotoneBy(ops, key)
  {
  }

  /** The instructions of one operator, one per column the text names for it. */
  function OperatorInstructions(op: Operator, columns: seq<string>): (r: seq<Instruction>)
    ensures |r| == |columns| && forall i :: 0 <= i < |r| ==> r[i] == Instruction(columns[i], op)
  {
    seq(|columns|, i requires 0 <= i < |columns| => Instruction(columns[i], op))
  }

  /** The `reduce` of `getAggregateInstructions` over the operators `ops`; `columnsOf`
      stands for the regex extraction `getAggregatedColumns(text, op)`. */
  function Emit(ops: seq<Operator>, columnsOf: Operator -> seq<string>): seq<Instruction> {
    if |ops| == 0 then []
    else
      var op := ops[|ops| - 1];
      Emit(ops[..|ops| - 1], columnsOf) + OperatorInstructions(op, columnsOf(op))
  }

  /** `getAggregateInstructions`: every operator of the enum, in declaration order. */
  function AggregateInstructions(columnsOf: Operator -> seq<string>): (r: seq<Instruction>)
    ensures RankSorted(OperatorsIn(r))
  {
    EmitOrdered(|DeclarationOrder|, columnsOf);
    assert DeclarationOrder[..|DeclarationOrder|] == DeclarationOrder;
    Emit(DeclarationOrder, columnsOf)
  }

  function OperatorsIn(instrs: seq<Instruction>): (r: seq<Operator>)
    ensures |r| == |instrs| && forall i :: 0 <= i < |r| ==> r[i] == instrs[i].operator
  {
    seq(|instrs|, i requires 0 <= i < |instrs| => instrs[i].operator)
  }

  /** Emitting the first `m` operators yields only those operators, grouped in order. */
  lemma {:induction false} EmitOrdered(m: nat, columnsOf: Operator -> seq<string>)
    requires m <= |DeclarationOrder|
    ensures var r := Emit(DeclarationOrder[..m], columnsOf);
      (forall i :: 0 <= i < |r| ==> Rank(r[i].operator) < m) && RankSorted(OperatorsIn(r))
  {
    if m > 0 {
      var ops := DeclarationOrder[..m];
      assert ops[..m - 1] == DeclarationOrder[..m - 1];
      EmitOrdered(m - 1, columnsOf);
      var op := ops[m - 1];
      assert Rank(op) == m - 1;
      var init := Emit(DeclarationOrder[..m - 1], columnsOf);
      var last := OperatorInstructions(op, columnsOf(op));
      var r := init + last;
      assert Emit(ops, columnsOf) == r;
      forall i, j | 0 <= i < j < |r|
        ensures Rank(OperatorsIn(r)[i]) <= Rank(OperatorsIn(r)[j])
      {
        if j < |init| {
          assert OperatorsIn(r)[i] == OperatorsIn(init)[i] && OperatorsIn(r)[j] == OperatorsIn(init)[j];
        } else if i >= |init| {
          assert r[i] == last[i - |init|] && r[j] == last[j - |init|];
        } else {
          assert r[i] == init[i];
          assert r[j] == last[j - |init|];
        }
      }
    }
  }

  /** An instruction is emitted exactly when its column is named for its operator. */
  lemma {:induction false} EmitMember(ops: seq<Operator>, columnsOf: Operator -> seq<string>, c: string, op: Operator)
    ensures Instruction(c, op) in Emit(ops, columnsOf) <==> op in ops && c in columnsOf(op)
  {
    if |ops| > 0 {
      var init := ops[..|ops| - 1];
      var last := ops[|ops| - 1];
      EmitMember(init, columnsOf, c, op);
      assert ops == init + [last];
      var tail := OperatorInstructions(last, columnsOf(last));
      if Instruction(c, op) in tail {
        var i :| 0 <= i < |tail| && tail[i] == Instruction(c, op);
        assert columnsOf(last)[i] == c;
      }
      if op == last && c in columnsOf(op) {
        var i :| 0 <= i < |columnsOf(op)| && columnsOf(op)[i] == c;
        assert tail[i] == Instruction(c, op);
      }
    }
  }

  /** A column's operators, read from instructions listed in declaration order, are in
      declaration order. */
  lemma {:induction false} OperatorsOfRankSorted(instrs: seq<Instruction>, c: string)
    requires RankSorted(OperatorsIn(instrs))
    ensures RankSorted(OperatorsOf(instrs, c))
  {
    if |instrs| > 0 {
      var init := instrs[..|instrs| - 1];
      var last := instrs[|instrs| - 1];
      assert forall i :: 0 <= i < |init| ==> OperatorsIn(init)[i] == OperatorsIn(instrs)[i];
      OperatorsOfRankSorted(init, c);
      var prev := OperatorsOf(init, c);
      forall j | 0 <= j < |prev|
        ensures Rank(prev[j]) <= Rank(last.operator)
      {
        OperatorsOfMembers(init, c, prev[j]);
        var i :| 0 <= i < |init| && init[i] == Instruction(c, prev[j]);
        assert OperatorsIn(instrs)[i] == prev[j];
      }
    }
  }

  /** End to end: after grouping the emitted instructions, a column lists exactly the
      operators whose directive names it, once each, in declaration order
      SUM, MIN, MAX, AVERAGE, MEDIAN. */
  lemma GroupedInDeclarationOrder(columnsOf: Operator -> seq<string>, c: string, op: Operator)
    requires Get(GroupByColumn(AggregateInstructions(columnsOf)), c).Some?
    ensures var ops := Get(GroupByColumn(AggregateInstructions(columnsOf)), c).value;
      RankSorted(ops) && NoDup(ops) && (op in ops <==> c in columnsOf(op))
  {
    var instrs := AggregateInstructions(columnsOf);
    GroupedList(instrs, c);
    GroupedOperators(instrs, c, op);
    OperatorsOfRankSorted(instrs, c);
    var key: Operator -> int := x => Rank(x);
    RankSortedMonotone(OperatorsOf(instrs, c), key);
    DedupFrontMonotone(OperatorsOf(instrs, c), key);
    RankSortedMonotone(DedupFront(OperatorsOf(instrs, c)), key);
    EmitMember(DeclarationOrder, columnsOf, c, op);
  }

  /** Instructions name some column exactly when there are any. */
  lemma NoKeysWithoutInstructions(instrs: seq<Instruction>)
    ensures |Keys(GroupByColumn(instrs))| == 0 <==> instrs == []
  {
    var cols := Instructions.Columns(instrs);
    if |cols| > 0 {
      DedupFrontMember(cols, cols[0]);
    }
  }

  /** `aggregate(table, groups, instructions)`: the table's content afterwards. Nothing
      changes when the instructions name no column; otherwise pivot groups are required,
      and the table becomes the rendering of its collapse. */
  function Aggregate(h: Host, html: Html, groups: seq<string>, instrs: seq<Instruction>): (r: Result<Html, Error>)
    ensures instrs == [] ==> r == Ok(html)
    ensures instrs != [] && groups == [] ==> r == Err(MissingPivotGroups)
    ensures instrs != [] && groups != [] ==>
      match CollapseTable(h, FromHtml(html), groups, GroupByColumn(instrs))
      case Err(e) => r == Err(e)
      case Ok(t) => r == Render(h, t)
  {
    var tableData := FromHtml(html);
    var aggregations := GroupByColumn(instrs);
    NoKeysWithoutInstructions(instrs);
    if |Keys(aggregations)| == 0 then Ok(html)
    else if |groups| == 0 then Err(MissingPivotGroups)
    else
      var collapsed :- CollapseTable(h, tableData, groups, aggregations);
      Render(h, collapsed)
  }

  /** An aggregated table is headed by the pivot columns, then the aggregated columns,
      as a plain object enumerates them, and has at most one row per input row. */
  lemma AggregateShape(h: Host, html: Html, groups: seq<string>, instrs: seq<Instruction>)
    requires instrs != [] && Aggregate(h, html, groups, instrs).Ok?
    ensures groups != []
    ensures Aggregate(h, html, groups, instrs).value.head ==
      Keys(Columns.ColumnIndex(groups + Keys(GroupByColumn(instrs))))
    ensures |Aggregate(h, html, groups, instrs).value.body| <= |html.body|
  {
  }
}

=== FILE: cells.dfy ===
/** The lazily resolved cell of src/models/ExtendedCellValue.ts. A cell is built either
    resolved, holding a final value, or unresolved, holding the raw text of a table cell
    and (for cells read from a table) a substitute that replaces `${...}` references by
    the values of other cells. `getValue` resolves an unresolved cell once and caches the
    value. */
module Cells {
  import opened Wrappers
  import opened Values
  import opened Templates

  /** `linked` says whether the cell was given the `substitute` of the row it sits in.
      A cell built from `{ unresolvedValue }` alone gets the default substitute of the
      class src/aggregation/collapse.ts imports (src/models/TableData.ts:15), which hands
      back the cell's own text. */
  datatype Cell = Resolved(value: Value) | Unresolved(raw: string, linked: bool)

  /** `() => unresolvedValue || ""`: the cell's own text (`""` stays `""`). */
  function DefaultSubstitute(raw: string): Option<string> {
    Some(raw)
  }

  /** `try { val = eval(val) } catch { }`: text that fails to evaluate stays text. */
  function Coerce(h: Host, s: string): Value {
    match h.eval(s)
    case Threw => Text(s)
    case Returned(v) => v
  }

  /** `resolve()`, given what the substitute would return. `None` is the class of
      src/models/ExtendedCellValue.ts without a substitute: `this.substitute?.()` is
      then `undefined`, and `eval(undefined)` is `undefined`.
      It never throws; the substitute is consulted only when the text holds a reference
      (`SubstituteUnusedWithoutToken`, `FailedEvaluationKeepsText`). */
  function Resolve(h: Host, raw: string, substitute: Option<string>): (v: Value)
    ensures !HasToken(raw) ==> v == Coerce(h, raw)
    ensures HasToken(raw) ==> v == (if substitute.Some? then Coerce(h, substitute.value) else Undefined)
  {
    if HasToken(raw) then
      match substitute
      case Some(text) => Coerce(h, text)
      case None => Undefined
    else Coerce(h, raw)
  }

  /** The substitute is only consulted when the raw text holds a `${...}` reference. */
  lemma SubstituteUnusedWithoutToken(h: Host, raw: string, a: Option<string>, b: Option<string>)
    requires Tokens(raw) == []
    ensures Resolve(h, raw, a) == Resolve(h, raw, b) == Coerce(h, raw)
  {
    HasTokenIffTokens(raw);
  }

  /** Text that evaluation rejects resolves to itself, as a string. */
  lemma FailedEvaluationKeepsText(h: Host, raw: string, substitute: Option<string>)
    requires Tokens(raw) == [] && h.eval(raw).Threw?
    ensures Resolve(h, raw, substitute) == Text(raw)
  {
    HasTokenIffTokens(raw);
  }

  /** `getValue()`: the value and the cell as it is afterwards. `substitute` is what the
      row's substitute would return; a cell without one falls back to its own text.
      `GetValueMemoized` and `DefaultSubstituteEvaluatesText` say what the reads mean. */
  function GetValue(c: Cell, h: Host, substitute: Option<string>): (r: (Value, Cell))
    ensures r.1 == Resolved(r.0)
    ensures c.Resolved? ==> r.0 == c.value
    ensures c.Unresolved? && c.linked ==> r.0 == Resolve(h, c.raw, substitute)
  {
    match c
    case Resolved(v) => (v, c)
    case Unresolved(raw, linked) =>
      var v := Resolve(h, raw, if linked then substitute else DefaultSubstitute(raw));
      (v, Resolved(v))
  }

  /** A cell without a row substitute evaluates its own text, references and all. */
  lemma DefaultSubstituteEvaluatesText(raw: string, h: Host, substitute: Option<string>)
    ensures GetValue(Unresolved(raw, false), h, substitute).0 == Coerce(h, raw)
  {
  }

  /** Memoisation: once a cell has been read, reading it again gives the same value and
      the same cell, whatever the substitute would now return. */
  lemma GetValueMemoized(c: Cell, h: Host, first: Option<string>, later: Option<string>)
    ensures var (v, c1) := GetValue(c, h, first);
      GetValue(c1, h, later) == (v, c1)
  {
  }
}

=== FILE: collapse.dfy ===
/** The collapse engine of src/aggregation/collapse.ts. Rows are grouped by a pivot id,
    the "||"-join of their values in the pivot columns, in the enumeration order of a
    plain object keyed by that id. Each group becomes one output row: its first row's
    pivot values, then one "Label: value, Label: value" cell per aggregated column. The
    output cells are unresolved texts built from `{ unresolvedValue }` alone, with the
    class collapse.ts imports from src/models/TableData.ts: its default substitute hands
    back the cell's own text, so reading such a cell evaluates that text. */
module Collapse {
  import opened Wrappers
  import opened Seqs
  import opened Strings
  import opened JsObjects
  import opened Values
  import opened Handlers
  import opened Cells
  import opened Columns
  import opened Tables

  const PivotSeparator: string := "||"

  /** One pivot component: the row's value in the pivot column, "" when the table has no
      such column, and `undefined` when the row is too short to reach it. */
  function PivotValue(columns: Object<nat>, values: seq<Value>, pivot: string): Value {
    match Get(columns, pivot)
    case None => Text("")
    case Some(i) => if i < |values| then values[i] else Undefined
  }

  function PivotValues(columns: Object<nat>, pivots: seq<string>, values: seq<Value>): (r: seq<Value>)
    ensures |r| == |pivots|
    ensures forall i :: 0 <= i < |r| ==> r[i] == PivotValue(columns, values, pivots[i])
  {
    seq(|pivots|, i requires 0 <= i < |pivots| => PivotValue(columns, values, pivots[i]))
  }

  /** How `join` prints each pivot value. */
  function Pieces(h: Host, vals: seq<Value>): (r: seq<string>)
    ensures |r| == |vals| && forall i :: 0 <= i < |r| ==> r[i] == JoinPiece(vals[i], h)
  {
    seq(|vals|, i requires 0 <= i < |vals| => JoinPiece(vals[i], h))
  }

  /** `distinctCellValues.join("||")`. */
  function PivotId(h: Host, vals: seq<Value>): string {
    Join(Pieces(h, vals), PivotSeparator)
  }

  /** The id is a plain join, so different tuples can share it: ("a||b", "c") and
      ("a", "b||c") both give "a||b||c" and land in one group. */
  lemma PivotIdCollision(h: Host)
    ensures [Text("a||b"), Text("c")] != [Text("a"), Text("b||c")]
    ensures PivotId(h, [Text("a||b"), Text("c")]) == "a||b||c"
    ensures PivotId(h, [Text("a"), Text("b||c")]) == "a||b||c"
  {
    var p := Pieces(h, [Text("a||b"), Text("c")]);
    var q := Pieces(h, [Text("a"), Text("b||c")]);
    assert p == ["a||b", "c"] && p[1..] == ["c"];
    assert q == ["a", "b||c"] && q[1..] == ["b||c"];
    assert Join(p, PivotSeparator) == "a||b" + "||" + "c" == "a||b||c";
    assert Join(q, PivotSeparator) == "a" + "||" + "b||c" == "a||b||c";
  }

  /** An unknown pivot column ("") and a row too short to reach the column (`undefined`)
      give the same id, yet print differently in the output row. */
  lemma UnknownAndShortShareId(h: Host)
    ensures PivotId(h, [Text("")]) == PivotId(h, [Undefined]) == ""
    ensures Str(Text(""), h) != Str(Undefined, h)
  {
    assert Pieces(h, [Text("")]) == [""];
    assert Pieces(h, [Undefined]) == [""];
  }

  /** A group: the pivot values of its first row and the indices of its rows. */
  datatype Group = Group(cellValues: seq<Value>, rowIndices: seq<nat>)

  /** The positions at which `id` occurs in `ids`, ascending. */
  function Positions(ids: seq<string>, id: string): (r: seq<nat>)
    ensures forall k :: 0 <= k < |r| ==> r[k] < |ids| && ids[r[k]] == id
    ensures forall k, l :: 0 <= k < l < |r| ==> r[k] < r[l]
  {
    if |ids| == 0 then []
    else
      var n := |ids| - 1;
      var init := Positions(ids[..n], id);
      if ids[n] == id then init + [n] else init
  }

  /** Every position holding `id` is listed. */
  lemma {:induction false} PositionsMember(ids: seq<string>, id: string, k: nat)
    ensures k in Positions(ids, id) <==> k < |ids| && ids[k] == id
  {
    if |ids| > 0 {
      var n := |ids| - 1;
      PositionsMember(ids[..n], id, k);
    }
  }

  /** Only an id that occurs has positions. */
  lemma PositionsOccur(ids: seq<string>, id: string)
    ensures Positions(ids, id) != [] ==> id in ids
  {
    var r := Positions(ids, id);
    if |r| > 0 {
      assert ids[r[0]] == id;
    }
  }

  /** The `reduce` of collapse.ts:69-77 over the rows' pivot values and ids: the first row
      with a new id creates its group, and every row appends its own index. */
  function GroupRows(pivots: seq<seq<Value>>, ids: seq<string>): (r: Object<Group>)
    requires |pivots| == |ids|
    ensures Valid(r) && Names(r) == DedupFront(ids)
  {
    if |ids| == 0 then Empty()
    else
      var n := |ids| - 1;
      var acc := GroupRows(pivots[..n], ids[..n]);
      var id := ids[n];
      var g := Get(acc, id).GetOr(Group(pivots[n], []));
      var g' := Group(g.cellValues, g.rowIndices + [n]);
      SetLastKeepsFirstAppearance(acc, ids, g');
      Set(acc, id, g')
  }

  /** The group of an id holds the pivot values of the first row with that id and the
      indices of all rows with that id, ascending; an id no row has has no group. */
  lemma {:induction false} GroupOf(pivots: seq<seq<Value>>, ids: seq<string>, id: string)
    requires |pivots| == |ids|
    ensures Get(GroupRows(pivots, ids), id) ==
      if id in ids then Some(Group(pivots[IndexOf(ids, id)], Positions(ids, id))) else None
  {
    if |ids| > 0 {
      var n := |ids| - 1;
      var init := ids[..n];
      assert ids == init + [ids[n]];
      GroupOf(pivots[..n], init, id);
      if id in init {
        IndexOfSnoc(init, ids[n], id);
      } else if id == ids[n] {
        IndexOfLast(init, id);
        PositionsOccur(init, id);
      }
    }
  }

  /** Every row belongs to exactly one group: the one of its own id. */
  lemma RowInOwnGroup(pivots: seq<seq<Value>>, ids: seq<string>, k: nat, id: string)
    requires |pivots| == |ids| && k < |ids|
    ensures Get(GroupRows(pivots, ids), id).Some? && k in Get(GroupRows(pivots, ids), id).value.rowIndices
      <==> id == ids[k]
  {
    GroupOf(pivots, ids, id);
    PositionsMember(ids, id, k);
  }

  /** Without array-index ids the groups come out in order of first encounter. */
  lemma FirstEncounterOrder(pivots: seq<seq<Value>>, ids: seq<string>)
    requires |pivots| == |ids|
    requires forall k :: 0 <= k < |ids| ==> !IsArrayIndex(ids[k])
    ensures Keys(GroupRows(pivots, ids)) == DedupFront(ids)
  {
    var o := GroupRows(pivots, ids);
    forall i | 0 <= i < |o.entries|
      ensures !IsArrayIndex(o.entries[i].0)
    {
      assert o.entries[i].0 == Names(o)[i];
      DedupFrontMember(ids, Names(o)[i]);
    }
    KeysWithoutIndicesAreNames(o);
  }

  /** The group of every row is enumerated. */
  lemma RowGroupListed(pivots: seq<seq<Value>>, ids: seq<string>, k: nat)
    requires |pivots| == |ids| && k < |ids|
    ensures var gs := JsObjects.Values(GroupRows(pivots, ids));
      exists i :: 0 <= i < |gs| && gs[i] == Group(pivots[IndexOf(ids, ids[k])], Positions(ids, ids[k]))
  {
    GroupOf(pivots, ids, ids[k]);
    ValueListed(GroupRows(pivots, ids), ids[k]);
  }

  /** Where a row sits among the enumerated groups. */
  lemma GroupIndexOfRow(pivots: seq<seq<Value>>, ids: seq<string>, k: nat) returns (i: nat, m: nat)
    requires |pivots| == |ids| && k < |ids|
    ensures i < |JsObjects.Values(GroupRows(pivots, ids))|
    ensures JsObjects.Values(GroupRows(pivots, ids))[i] == Group(pivots[IndexOf(ids, ids[k])], Positions(ids, ids[k]))
    ensures m < |Positions(ids, ids[k])| && Positions(ids, ids[k])[m] == k
  {
    var gs := JsObjects.Values(GroupRows(pivots, ids));
    RowGroupListed(pivots, ids, k);
    PositionsMember(ids, ids[k], k);
    i :| 0 <= i < |gs| && gs[i] == Group(pivots[IndexOf(ids, ids[k])], Positions(ids, ids[k]));
    m :| 0 <= m < |Positions(ids, ids[k])| && Positions(ids, ids[k])[m] == k;
  }

  /** Groups whose pivot tuples have `width` values and whose members are rows below `n`. */
  predicate WellFormed(gs: seq<Group>, n: nat, width: nat) {
    forall i :: 0 <= i < |gs| ==>
      |gs[i].cellValues| == width && forall k :: 0 <= k < |gs[i].rowIndices| ==> gs[i].rowIndices[k] < n
  }

  lemma GroupsWellFormed(pivots: seq<seq<Value>>, ids: seq<string>, width: nat)
    requires |pivots| == |ids|
    requires forall k :: 0 <= k < |pivots| ==> |pivots[k]| == width
    ensures WellFormed(JsObjects.Values(GroupRows(pivots, ids)), |ids|, width)
  {
    var o := GroupRows(pivots, ids);
    forall i | 0 <= i < |JsObjects.Values(o)|
      ensures |JsObjects.Values(o)[i].cellValues| == width
      ensures forall k :: 0 <= k < |JsObjects.Values(o)[i].rowIndices| ==> JsObjects.Values(o)[i].rowIndices[k] < |ids|
    {
      ListedGroup(pivots, ids, i);
    }
  }

  /** An enumerated group is the group of its key. */
  lemma ListedGroup(pivots: seq<seq<Value>>, ids: seq<string>, i: nat)
    requires |pivots| == |ids| && i < |JsObjects.Values(GroupRows(pivots, ids))|
    ensures var o := GroupRows(pivots, ids);
      Keys(o)[i] in ids &&
      JsObjects.Values(o)[i] == Group(pivots[IndexOf(ids, Keys(o)[i])], Positions(ids, Keys(o)[i]))
  {
    var o := GroupRows(pivots, ids);
    ListedValue(o, i);
    GroupOf(pivots, ids, Keys(o)[i]);
  }

  /** Removes a trailing ".00" (collapse.ts:45-47). */
  function StripZeros(s: string): (r: string)
    ensures EndsWith(s, ".00") ==> r + ".00" == s
    ensures !EndsWith(s, ".00") ==> r == s
  {
    if EndsWith(s, ".00") then s[..|s| - 3] else s
  }

  /** `getAggregatedCellValue`: non-numbers are dropped; without numbers the cell reads
      "Label: N/A", otherwise "Label: " and the handler's result through `toFixed(2)`
      without a trailing ".00". The handler runs on a non-empty list, so its result is
      finite and the `String(aggResult)` branch is never taken. */
  function AggregatedCell(h: Host, op: Operator, values: seq<Value>): (r: string)
    ensures StartsWith(r, Label(op) + ": ")
    ensures |Numbers(values)| == 0 ==> r == Label(op) + ": N/A"
  {
    var nums := Numbers(values);
    var prefix := Label(op) + ": ";
    assert (prefix + "N/A")[..|prefix|] == prefix;
    if |nums| == 0 then prefix + "N/A"
    else
      var s := StripZeros(h.fixed2(Apply(op, nums).x));
      assert (prefix + s)[..|prefix|] == prefix;
      prefix + s
  }

  /** A value that is not a number has no effect on an aggregated cell. */
  lemma NonNumberIgnored(h: Host, op: Operator, a: seq<Value>, v: Value, b: seq<Value>)
    requires !v.Num?
    ensures AggregatedCell(h, op, a + [v] + b) == AggregatedCell(h, op, a + b)
  {
    NumbersSkip(a, v, b);
    SameNumbersSameCell(h, op, a + [v] + b, a + b);
  }

  lemma NumbersSkip(a: seq<Value>, v: Value, b: seq<Value>)
    requires !v.Num?
    ensures Numbers(a + [v] + b) == Numbers(a + b)
  {
    assert Numbers(a + [v]) == Numbers(a) by {
      NumbersAppend(a, [v]);
      assert Numbers([v]) == [];
      assert Numbers(a) + [] == Numbers(a);
    }
    NumbersAppend(a + [v], b);
    NumbersAppend(a, b);
  }

  /** A cell depends on the values only through their numbers. */
  lemma SameNumbersSameCell(h: Host, op: Operator, xs: seq<Value>, ys: seq<Value>)
    requires Numbers(xs) == Numbers(ys)
    ensures AggregatedCell(h, op, xs) == AggregatedCell(h, op, ys)
  {
  }

  /** A result printed with two zero decimals is shown as a whole number. */
  lemma ZeroDecimalsDropped(h: Host, op: Operator, values: seq<Value>, whole: string)
    requires |Numbers(values)| > 0
    requires h.fixed2(Apply(op, Numbers(values)).x) == whole + ".00"
    ensures AggregatedCell(h, op, values) == Label(op) + ": " + whole
  {
    var s := whole + ".00";
    assert s[|s| - 3..] == ".00";
    assert s[..|s| - 3] == whole;
  }

  /** A result that `toFixed(2)` prints with other decimals is shown in full. */
  lemma OtherDecimalsKept(h: Host, op: Operator, values: seq<Value>)
    requires |Numbers(values)| > 0
    requires !EndsWith(h.fixed2(Apply(op, Numbers(values)).x), ".00")
    ensures AggregatedCell(h, op, values) == Label(op) + ": " + h.fixed2(Apply(op, Numbers(values)).x)
  {
  }

  /** Two 1.5s and a text: the text is ignored and the sum 3 prints as "Sum: 3" when
      `toFixed(2)` gives "3.00". */
  lemma SumExample(h: Host)
    requires h.fixed2(3.0) == "3.00"
    ensures AggregatedCell(h, Sum, [Num(1.5), Text("x"), Num(1.5)]) == "Sum: 3"
  {
    var vs := [Num(1.5), Text("x"), Num(1.5)];
    assert vs[1..] == [Text("x"), Num(1.5)] && vs[1..][1..] == [Num(1.5)];
    assert Numbers(vs) == [1.5, 1.5];
    assert SumOf([1.5, 1.5]) == 3.0 by {
      assert [1.5, 1.5][..1] == [1.5];
      assert [1.5][..0] == [];
    }
    ZeroDecimalsDropped(h, Sum, vs, "3");
  }

  /** One column's cell: `aggResults.join(", ")`, one entry per operator in list order. */
  function AggregatedText(h: Host, ops: seq<Operator>, values: seq<Value>): (r: string)
    ensures |ops| == 1 ==> r == AggregatedCell(h, ops[0], values)
  {
    Join(seq(|ops|, i requires 0 <= i < |ops| => AggregatedCell(h, ops[i], values)), ", ")
  }

  /** The parts follow the operator list: the last operator's part comes last, after ", ". */
  lemma AggregatedTextSnoc(h: Host, ops: seq<Operator>, values: seq<Value>)
    requires |ops| > 1
    ensures AggregatedText(h, ops, values) ==
      AggregatedText(h, ops[..|ops| - 1], values) + ", " + AggregatedCell(h, ops[|ops| - 1], values)
  {
    var n := |ops| - 1;
    var parts := seq(|ops|, i requires 0 <= i < |ops| => AggregatedCell(h, ops[i], values));
    var init := seq(n, i requires 0 <= i < n => AggregatedCell(h, ops[..n][i], values));
    assert parts[..n] == init;
    JoinSnoc(parts, ", ");
  }

  /** Without operators the cell is empty. */
  lemma AggregatedTextEmpty(h: Host, values: seq<Value>)
    ensures AggregatedText(h, [], values) == ""
  {
  }

  predicate TableResolved(t: Table) {
    forall k :: 0 <= k < |t.rows| ==> AllResolved(t.rows[k])
  }

  predicate MembersIn(t: Table, members: seq<nat>) {
    forall k :: 0 <= k < |members| ==> members[k] < |t.rows|
  }

  /** `rowIndices.map(rowIdx => getCell({rowIdx, col: column}).getValue())` once every row
      is resolved: `getCell` yields `undefined` for an unknown column or a short row, and
      calling `getValue` on that throws. */
  function ColumnValues(t: Table, members: seq<nat>, column: string): (r: Result<seq<Value>, Error>)
    requires TableResolved(t) && MembersIn(t, members)
    ensures r.Ok? ==> |r.value| == |members|
    ensures r.Ok? ==> forall k :: 0 <= k < |members| ==>
      GetCell(t, members[k], ByName(column)) == Some(Resolved(r.value[k]))
    ensures r.Err? ==> r.error == MissingCell
  {
    if |members| == 0 then Ok([])
    else
      match GetCell(t, members[0], ByName(column))
      case None => Err(MissingCell)
      case Some(c) =>
        assert c.Resolved?;
        var rest :- ColumnValues(t, members[1..], column);
        Ok([c.value] + rest)
  }

  /** The lookup fails exactly when some member row lacks the column. */
  lemma {:induction false} ColumnValuesFail(t: Table, members: seq<nat>, column: string)
    requires TableResolved(t) && MembersIn(t, members)
    ensures ColumnValues(t, members, column).Err? <==>
      exists k :: 0 <= k < |members| && GetCell(t, members[k], ByName(column)).None?
  {
    if |members| > 0 {
      ColumnValuesFail(t, members[1..], column);
      assert forall k :: 0 <= k < |members| - 1 ==> members[1..][k] == members[k + 1];
    }
  }

  /** One cell text per aggregated column, in `Object.keys(aggregations)` order; the
      column's values are read before its operators are applied, so a missing cell
      throws even for a column with an empty operator list. */
  function AggregateCells(h: Host, t: Table, aggregations: Object<seq<Operator>>, columns: seq<string>, members: seq<nat>)
    : (r: Result<seq<string>, Error>)
    requires TableResolved(t) && MembersIn(t, members)
    ensures r.Ok? ==> |r.value| == |columns|
    ensures r.Ok? ==> forall j :: 0 <= j < |columns| ==>
      ColumnValues(t, members, columns[j]).Ok? &&
      r.value[j] == AggregatedText(h, Get(aggregations, columns[j]).GetOr([]), ColumnValues(t, members, columns[j]).value)
    ensures r.Err? ==> r.error == MissingCell
  {
    if |columns| == 0 then Ok([])
    else
      var values :- ColumnValues(t, members, columns[0]);
      var rest :- AggregateCells(h, t, aggregations, columns[1..], members);
      Ok([AggregatedText(h, Get(aggregations, columns[0]).GetOr([]), values)] + rest)
  }

  /** A group's aggregation fails exactly when one of its column lookups fails. */
  lemma {:induction false} AggregateCellsFail(h: Host, t: Table, aggregations: Object<seq<Operator>>, columns: seq<string>, members: seq<nat>)
    requires TableResolved(t) && MembersIn(t, members)
    ensures AggregateCells(h, t, aggregations, columns, members).Err? <==>
      exists j :: 0 <= j < |columns| && ColumnValues(t, members, columns[j]).Err?
  {
    if |columns| > 0 {
      AggregateCellsFail(h, t, aggregations, columns[1..], members);
      assert forall j :: 0 <= j < |columns| - 1 ==> columns[1..][j] == columns[j + 1];
    }
  }

  /** `String(val)` for every value of an output row. */
  function ShowAll(h: Host, vals: seq<Value>): (r: seq<string>)
    ensures |r| == |vals| && forall i :: 0 <= i < |r| ==> r[i] == Str(vals[i], h)
  {
    seq(|vals|, i requires 0 <= i < |vals| => Str(vals[i], h))
  }

  /** `new ExtendedCellValue({ unresolvedValue })` for every text of an output row: no
      row substitute, so each cell falls back to its own text. */
  function TextCells(texts: seq<string>): (r: Row)
    ensures |r| == |texts| && forall i :: 0 <= i < |r| ==> r[i] == Unresolved(texts[i], false)
  {
    seq(|texts|, i requires 0 <= i < |texts| => Unresolved(texts[i], false))
  }

  /** The output row of a group with its aggregated cell texts. */
  function OutputRow(h: Host, g: Group, texts: seq<string>): (r: Row)
    ensures |r| == |g.cellValues| + |texts|
    ensures forall j :: 0 <= j < |r| ==> r[j].Unresolved? && !r[j].linked
  {
    TextCells(ShowAll(h, g.cellValues) + texts)
  }

  /** One output row per group, in the order of `Object.values(grouped)`. */
  function OutputRows(h: Host, t: Table, aggregations: Object<seq<Operator>>, columns: seq<string>, gs: seq<Group>)
    : (r: Result<seq<Row>, Error>)
    requires TableResolved(t)
    requires forall i :: 0 <= i < |gs| ==> MembersIn(t, gs[i].rowIndices)
    ensures r.Ok? ==> |r.value| == |gs|
    ensures r.Ok? ==> forall i :: 0 <= i < |gs| ==>
      AggregateCells(h, t, aggregations, columns, gs[i].rowIndices).Ok? &&
      r.value[i] == OutputRow(h, gs[i], AggregateCells(h, t, aggregations, columns, gs[i].rowIndices).value)
    ensures r.Err? ==> r.error == MissingCell
  {
    if |gs| == 0 then Ok([])
    else
      var texts :- AggregateCells(h, t, aggregations, columns, gs[0].rowIndices);
      var rest :- OutputRows(h, t, aggregations, columns, gs[1..]);
      Ok([OutputRow(h, gs[0], texts)] + rest)
  }

  /** The output fails exactly when some group's aggregation fails. */
  lemma {:induction false} OutputRowsFail(h: Host, t: Table, aggregations: Object<seq<Operator>>, columns: seq<string>, gs: seq<Group>)
    requires TableResolved(t)
    requires forall i :: 0 <= i < |gs| ==> MembersIn(t, gs[i].rowIndices)
    ensures OutputRows(h, t, aggregations, columns, gs).Err? <==>
      exists i :: 0 <= i < |gs| && AggregateCells(h, t, aggregations, columns, gs[i].rowIndices).Err?
  {
    if |gs| > 0 {
      OutputRowsFail(h, t, aggregations, columns, gs[1..]);
      assert forall i :: 0 <= i < |gs| - 1 ==> gs[1..][i] == gs[i + 1];
    }
  }

  /** The values of every row of a resolved table. */
  function ValueRows(t: Table): (r: seq<seq<Value>>)
    requires TableResolved(t)
    ensures |r| == |t.rows| && forall k :: 0 <= k < |r| ==> r[k] == ValuesOf(t.rows[k])
  {
    seq(|t.rows|, k requires 0 <= k < |t.rows| => ValuesOf(t.rows[k]))
  }

  /** Each row's pivot values. */
  function PivotRows(columns: Object<nat>, groups: seq<string>, rows: seq<seq<Value>>): (r: seq<seq<Value>>)
    ensures |r| == |rows|
    ensures forall k :: 0 <= k < |r| ==> r[k] == PivotValues(columns, groups, rows[k])
  {
    seq(|rows|, k requires 0 <= k < |rows| => PivotValues(columns, groups, rows[k]))
  }

  /** Each row's pivot id. */
  function PivotIds(h: Host, pivots: seq<seq<Value>>): (r: seq<string>)
    ensures |r| == |pivots| && forall k :: 0 <= k < |r| ==> r[k] == PivotId(h, pivots[k])
  {
    seq(|pivots|, k requires 0 <= k < |pivots| => PivotId(h, pivots[k]))
  }

  /** The groups of a table once every row has been read. */
  function Grouping(h: Host, done: Table, groups: seq<string>): (r: Object<Group>)
    requires TableResolved(done)
  {
    var pivots := PivotRows(done.columns, groups, ValueRows(done));
    GroupRows(pivots, PivotIds(h, pivots))
  }

  lemma GroupingWellFormed(h: Host, done: Table, groups: seq<string>)
    requires TableResolved(done)
    ensures WellFormed(JsObjects.Values(Grouping(h, done, groups)), |done.rows|, |groups|)
  {
    var pivots := PivotRows(done.columns, groups, ValueRows(done));
    GroupsWellFormed(pivots, PivotIds(h, pivots), |groups|);
  }

  /** Rows of `width` unresolved cells without a substitute. */
  predicate Shaped(rows: seq<Row>, width: nat) {
    forall k :: 0 <= k < |rows| ==>
      |rows[k]| == width && forall j :: 0 <= j < |rows[k]| ==> rows[k][j].Unresolved? && !rows[k][j].linked
  }

  lemma OutputRowsShaped(h: Host, t: Table, aggregations: Object<seq<Operator>>, columns: seq<string>, gs: seq<Group>, width: nat)
    requires TableResolved(t) && WellFormed(gs, |t.rows|, width)
    requires OutputRows(h, t, aggregations, columns, gs).Ok?
    ensures Shaped(OutputRows(h, t, aggregations, columns, gs).value, width + |columns|)
  {
  }

  /** The collapse of a table whose rows have all been read. */
  function CollapseResolved(h: Host, done: Table, groups: seq<string>, aggregations: Object<seq<Operator>>)
    : (r: Result<Table, Error>)
    requires TableResolved(done)
    ensures r.Err? ==> r.error == MissingCell
    ensures r.Ok? ==> r.value.columns == ColumnIndex(groups + Keys(aggregations))
    ensures r.Ok? ==> |r.value.rows| <= |done.rows|
    ensures r.Ok? ==> Shaped(r.value.rows, |groups| + |Keys(aggregations)|)
  {
    var grouped := Grouping(h, done, groups);
    var gs := JsObjects.Values(grouped);
    GroupingWellFormed(h, done, groups);
    var aggColumns := Keys(aggregations);
    var rows :- OutputRows(h, done, aggregations, aggColumns, gs);
    OutputRowsShaped(h, done, aggregations, aggColumns, gs, |groups|);
    assert |gs| == |Names(grouped)| <= |done.rows|;
    Ok(Table(ColumnIndex(groups + aggColumns), rows))
  }

  /** `collapseTable`: every row is read first (in order, the first failure wins); the
      groups then become the output rows, and the new column dictionary indexes the
      pivot columns followed by the aggregated ones. */
  function CollapseTable(h: Host, t: Table, groups: seq<string>, aggregations: Object<seq<Operator>>)
    : (r: Result<Table, Error>)
    ensures ResolveAll(h, t).Err? ==> r == Err(ResolveAll(h, t).error)
    ensures r.Err? && ResolveAll(h, t).Ok? ==> r.error == MissingCell
    ensures r.Ok? ==> r.value.columns == ColumnIndex(groups + Keys(aggregations))
    ensures r.Ok? ==> |r.value.rows| <= |t.rows|
    ensures r.Ok? ==> Shaped(r.value.rows, |groups| + |Keys(aggregations)|)
  {
    var done :- ResolveAll(h, t);
    CollapseResolved(h, done, groups, aggregations)
  }

  /** The group an input row belongs to, as `collapseTable` builds it. */
  function GroupOfRow(h: Host, done: Table, groups: seq<string>, k: nat): (g: Group)
    requires TableResolved(done) && k < |done.rows|
    ensures MembersIn(done, g.rowIndices)
  {
    var pivots := PivotRows(done.columns, groups, ValueRows(done));
    var ids := PivotIds(h, pivots);
    Group(pivots[IndexOf(ids, ids[k])], Positions(ids, ids[k]))
  }

  /** Each input row is represented by the output row of its group: the pivot values of
      the first row sharing its id, then the aggregates over exactly the rows sharing
      its id. */
  lemma RowRepresented(h: Host, t: Table, groups: seq<string>, aggregations: Object<seq<Operator>>, k: nat)
    requires CollapseTable(h, t, groups, aggregations).Ok? && k < |t.rows|
    ensures ResolveAll(h, t).Ok?
    ensures var done := ResolveAll(h, t).value;
      var g := GroupOfRow(h, done, groups, k);
      var rows := CollapseTable(h, t, groups, aggregations).value.rows;
      exists i :: 0 <= i < |rows| &&
        AggregateCells(h, done, aggregations, Keys(aggregations), g.rowIndices).Ok? &&
        rows[i] == OutputRow(h, g, AggregateCells(h, done, aggregations, Keys(aggregations), g.rowIndices).value)
  {
    var done := ResolveAll(h, t).value;
    assert CollapseTable(h, t, groups, aggregations) == CollapseResolved(h, done, groups, aggregations);
    RowRepresentedResolved(h, done, groups, aggregations, k);
  }

  lemma RowRepresentedResolved(h: Host, done: Table, groups: seq<string>, aggregations: Object<seq<Operator>>, k: nat)
    requires TableResolved(done) && CollapseResolved(h, done, groups, aggregations).Ok? && k < |done.rows|
    ensures var g := GroupOfRow(h, done, groups, k);
      var rows := CollapseResolved(h, done, groups, aggregations).value.rows;
      exists i :: 0 <= i < |rows| &&
        AggregateCells(h, done, aggregations, Keys(aggregations), g.rowIndices).Ok? &&
        rows[i] == OutputRow(h, g, AggregateCells(h, done, aggregations, Keys(aggregations), g.rowIndices).value)
  {
    var pivots := PivotRows(done.columns, groups, ValueRows(done));
    RowGroupListed(pivots, PivotIds(h, pivots), k);
  }

  /** Each row's pivot values, once every row has been read. */
  function PivotTuples(done: Table, groups: seq<string>): (r: seq<seq<Value>>)
    requires TableResolved(done)
    ensures |r| == |done.rows|
  {
    PivotRows(done.columns, groups, ValueRows(done))
  }

  /** Each row's pivot id, once every row has been read. */
  function RowIds(h: Host, done: Table, groups: seq<string>): (r: seq<string>)
    requires TableResolved(done)
    ensures |r| == |done.rows|
  {
    PivotIds(h, PivotTuples(done, groups))
  }

  /** The group of the pivot id `id`: the first row's pivot values, all rows with the id. */
  function GroupOfId(h: Host, done: Table, groups: seq<string>, id: string): (g: Group)
    requires TableResolved(done) && id in RowIds(h, done, groups)
    ensures MembersIn(done, g.rowIndices)
  {
    var ids := RowIds(h, done, groups);
    Group(PivotTuples(done, groups)[IndexOf(ids, id)], Positions(ids, id))
  }

  /** The output row of the group of `id`, when its aggregation succeeds. */
  predicate RowOfId(h: Host, done: Table, groups: seq<string>, aggregations: Object<seq<Operator>>, id: string, row: Row)
    requires TableResolved(done) && id in RowIds(h, done, groups)
  {
    var g := GroupOfId(h, done, groups, id);
    && AggregateCells(h, done, aggregations, Keys(aggregations), g.rowIndices).Ok?
    && row == OutputRow(h, g, AggregateCells(h, done, aggregations, Keys(aggregations), g.rowIndices).value)
  }

  /** The output has one row per distinct pivot id, in the enumeration order of the ids as
      keys of the grouping object: row `i` is the output row of the `i`-th enumerated id. */
  lemma CollapseResolvedRows(h: Host, done: Table, groups: seq<string>, aggregations: Object<seq<Operator>>)
    requires TableResolved(done) && CollapseResolved(h, done, groups, aggregations).Ok?
    ensures var ids := RowIds(h, done, groups);
      var keys := Keys(Grouping(h, done, groups));
      var rows := CollapseResolved(h, done, groups, aggregations).value.rows;
      && |rows| == |keys| == |DedupFront(ids)|
      && forall i :: 0 <= i < |rows| ==> keys[i] in ids && RowOfId(h, done, groups, aggregations, keys[i], rows[i])
  {
    var pivots := PivotTuples(done, groups);
    var ids := RowIds(h, done, groups);
    var o := Grouping(h, done, groups);
    assert o == GroupRows(pivots, ids);
    GroupingWellFormed(h, done, groups);
    var rows := CollapseResolved(h, done, groups, aggregations).value.rows;
    forall i | 0 <= i < |rows|
      ensures Keys(o)[i] in ids && RowOfId(h, done, groups, aggregations, Keys(o)[i], rows[i])
    {
      ListedGroup(pivots, ids, i);
    }
  }

  /** When no pivot id is an array index, the output rows follow the first appearance of
      their ids among the input rows: exactly one row per distinct id, in that order. */
  lemma CollapseFirstEncounter(h: Host, done: Table, groups: seq<string>, aggregations: Object<seq<Operator>>)
    requires TableResolved(done) && CollapseResolved(h, done, groups, aggregations).Ok?
    requires forall k :: 0 <= k < |done.rows| ==> !IsArrayIndex(RowIds(h, done, groups)[k])
    ensures var firsts := DedupFront(RowIds(h, done, groups));
      var rows := CollapseResolved(h, done, groups, aggregations).value.rows;
      && |rows| == |firsts|
      && forall i :: 0 <= i < |rows| ==>
           firsts[i] in RowIds(h, done, groups) && RowOfId(h, done, groups, aggregations, firsts[i], rows[i])
  {
    FirstEncounterOrder(PivotTuples(done, groups), RowIds(h, done, groups));
    CollapseResolvedRows(h, done, groups, aggregations);
  }

  /** `collapseTable` is the collapse of the table once every row has been read. */
  lemma CollapseTableReadsFirst(h: Host, t: Table, groups: seq<string>, aggregations: Object<seq<Operator>>)
    requires CollapseTable(h, t, groups, aggregations).Ok?
    ensures ResolveAll(h, t).Ok?
    ensures CollapseTable(h, t, groups, aggregations) == CollapseResolved(h, ResolveAll(h, t).value, groups, aggregations)
  {
  }

  /** Every aggregated column has a cell in every row. */
  predicate CellsPresent(t: Table, columns: seq<string>) {
    forall k, j :: 0 <= k < |t.rows| && 0 <= j < |columns| ==> GetCell(t, k, ByName(columns[j])).Some?
  }

  /** Reading the rows changes no row's length, so it changes no lookup's success. */
  lemma PresenceKept(h: Host, t: Table, columns: seq<string>)
    requires ResolveAll(h, t).Ok?
    ensures CellsPresent(ResolveAll(h, t).value, columns) <==> CellsPresent(t, columns)
  {
    var done := ResolveAll(h, t).value;
    forall k, j | 0 <= k < |t.rows| && 0 <= j < |columns|
      ensures GetCell(done, k, ByName(columns[j])).Some? <==> GetCell(t, k, ByName(columns[j])).Some?
    {
      assert Refines(t.rows[k], done.rows[k]);
    }
  }

  /** With every aggregated cell present, no group's aggregation fails. */
  lemma OutputRowsSucceed(h: Host, t: Table, aggregations: Object<seq<Operator>>, columns: seq<string>, gs: seq<Group>)
    requires TableResolved(t) && CellsPresent(t, columns)
    requires forall i :: 0 <= i < |gs| ==> MembersIn(t, gs[i].rowIndices)
    ensures OutputRows(h, t, aggregations, columns, gs).Ok?
  {
    forall i | 0 <= i < |gs|
      ensures AggregateCells(h, t, aggregations, columns, gs[i].rowIndices).Ok?
    {
      forall j | 0 <= j < |columns|
        ensures ColumnValues(t, gs[i].rowIndices, columns[j]).Ok?
      {
        ColumnValuesFail(t, gs[i].rowIndices, columns[j]);
      }
      AggregateCellsFail(h, t, aggregations, columns, gs[i].rowIndices);
    }
    OutputRowsFail(h, t, aggregations, columns, gs);
  }

  /** A member row without some column makes the whole output fail. */
  lemma OutputRowsMissing(h: Host, t: Table, aggregations: Object<seq<Operator>>, columns: seq<string>, gs: seq<Group>, i: nat, m: nat, j: nat)
    requires TableResolved(t)
    requires forall i :: 0 <= i < |gs| ==> MembersIn(t, gs[i].rowIndices)
    requires i < |gs| && m < |gs[i].rowIndices| && j < |columns| && gs[i].rowIndices[m] < |t.rows|
    requires GetCell(t, gs[i].rowIndices[m], ByName(columns[j])).None?
    ensures OutputRows(h, t, aggregations, columns, gs).Err?
  {
    ColumnValuesFail(t, gs[i].rowIndices, columns[j]);
    AggregateCellsFail(h, t, aggregations, columns, gs[i].rowIndices);
    OutputRowsFail(h, t, aggregations, columns, gs);
  }

  lemma CollapseWithCells(h: Host, done: Table, groups: seq<string>, aggregations: Object<seq<Operator>>)
    requires TableResolved(done) && CellsPresent(done, Keys(aggregations))
    ensures CollapseResolved(h, done, groups, aggregations).Ok?
  {
    GroupingWellFormed(h, done, groups);
    OutputRowsSucceed(h, done, aggregations, Keys(aggregations), JsObjects.Values(Grouping(h, done, groups)));
  }

  /** The group of a row lacking an aggregated column makes the collapse fail. */
  lemma CollapseWithoutCell(h: Host, done: Table, groups: seq<string>, aggregations: Object<seq<Operator>>, k: nat, j: nat)
    requires TableResolved(done) && k < |done.rows| && j < |Keys(aggregations)|
    requires GetCell(done, k, ByName(Keys(aggregations)[j])).None?
    ensures CollapseResolved(h, done, groups, aggregations).Err?
  {
    var pivots := PivotRows(done.columns, groups, ValueRows(done));
    var ids := PivotIds(h, pivots);
    var gs := JsObjects.Values(GroupRows(pivots, ids));
    GroupingWellFormed(h, done, groups);
    var i, m := GroupIndexOfRow(pivots, ids, k);
    OutputRowsMissing(h, done, aggregations, Keys(aggregations), gs, i, m, j);
  }

  /** Once the rows are read, the collapse fails exactly when some row lacks some
      aggregated column. */
  lemma CollapseNeedsCells(h: Host, t: Table, groups: seq<string>, aggregations: Object<seq<Operator>>)
    requires ResolveAll(h, t).Ok?
    ensures CollapseTable(h, t, groups, aggregations).Ok? <==> CellsPresent(t, Keys(aggregations))
  {
    var done := ResolveAll(h, t).value;
    var columns := Keys(aggregations);
    PresenceKept(h, t, columns);
    assert CollapseTable(h, t, groups, aggregations) == CollapseResolved(h, done, groups, aggregations);
    if CellsPresent(done, columns) {
      CollapseWithCells(h, done, groups, aggregations);
    } else {
      var k, j :| 0 <= k < |done.rows| && 0 <= j < |columns| && GetCell(done, k, ByName(columns[j])).None?;
      CollapseWithoutCell(h, done, groups, aggregations, k, j);
    }
  }
}

=== FILE: columns.dfy ===
/** The `{name: index}` dictionary that TableData.ts:52-57 builds from the header and
    collapse.ts:95-98 builds from the output columns, both by the same `reduce`. */
module Columns {
  import opened Wrappers
  import opened Seqs
  import opened JsObjects

  /** The column dictionary built by TableData.ts:52-57: each name is set to its index in
      turn, so a later occurrence overwrites an earlier one. */
  function ColumnIndex(names: seq<string>): (r: Object<nat>)
    ensures forall k :: Get(r, k).Some? ==> Get(r, k).value < |names|
  {
    if |names| == 0 then Empty()
    else Set(ColumnIndex(names[..|names| - 1]), names[|names| - 1], |names| - 1)
  }

  /** One more name sets that name to its position on the dictionary built so far. */
  lemma ColumnIndexSnoc(init: seq<string>, last: string)
    ensures ColumnIndex(init + [last]) == Set(ColumnIndex(init), last, |init|)
  {
    var names := init + [last];
    assert names[..|names| - 1] == init;
  }

  /** Two distinct names enter the dictionary in order, at positions 0 and 1. */
  lemma ColumnIndexTwo(a: string, b: string)
    requires a != b
    ensures ColumnIndex([a, b]).entries == [(a, 0), (b, 1)]
  {
    var none: seq<string> := [];
    ColumnIndexSnoc(none, a);
    ColumnIndexSnoc([a], b);
    assert none + [a] == [a] && [a] + [b] == [a, b];
    TwoKeyEntries<nat>(a, 0, b, 1);
  }

  /** The dictionary's insertion order is the names' first-appearance order. */
  lemma {:induction false} ColumnIndexNames(names: seq<string>)
    ensures Names(ColumnIndex(names)) == DedupFront(names)
  {
    if |names| > 0 {
      var init, last := names[..|names| - 1], names[|names| - 1];
      assert names == init + [last];
      ColumnIndexNames(init);
      ColumnIndexSnoc(init, last);
      SetKeepsFirstAppearance(ColumnIndex(init), init, last, |init|);
    }
  }

  /** Setting a key on a dictionary whose keys are the first appearances in `xs` gives
      the first appearances in `xs` followed by that key. */
  lemma SetKeepsFirstAppearance<V>(o: Object<V>, xs: seq<string>, k: string, v: V)
    requires Names(o) == DedupFront(xs)
    ensures Names(Set(o, k, v)) == DedupFront(xs + [k])
    ensures Valid(o) ==> Valid(Set(o, k, v))
  {
    if Valid(o) {
      SetValid(o, k, v);
    }
    SetNames(o, k, v);
    DedupFrontSnoc(xs, k);
    DedupFrontMember(xs, k);
  }

  /** The same, with the key being the last of `xs`. */
  lemma SetLastKeepsFirstAppearance<V>(o: Object<V>, xs: seq<string>, v: V)
    requires |xs| > 0 && Names(o) == DedupFront(xs[..|xs| - 1])
    ensures Names(Set(o, xs[|xs| - 1], v)) == DedupFront(xs)
    ensures Valid(o) ==> Valid(Set(o, xs[|xs| - 1], v))
  {
    var n := |xs| - 1;
    SnocSplit(xs);
    SetKeepsFirstAppearance(o, xs[..n], xs[n], v);
  }

  /** No name is entered twice. */
  lemma ColumnIndexValid(names: seq<string>)
    ensures Valid(ColumnIndex(names))
  {
    ColumnIndexNames(names);
  }

  /** A name maps to the index of its last occurrence. */
  lemma {:induction false} ColumnIndexLast(names: seq<string>, name: string, i: nat)
    requires Get(ColumnIndex(names), name) == Some(i)
    ensures i < |names| && names[i] == name
    ensures forall j :: i < j < |names| ==> names[j] != name
  {
    ColumnIndexGet(names, name);
  }

  /** A name is entered exactly when it occurs, at its last occurrence. */
  lemma {:induction false} ColumnIndexGet(names: seq<string>, name: string)
    ensures Get(ColumnIndex(names), name) ==
      if name in names then Some(LastIndexOf(names, name)) else None
  {
    if |names| > 0 {
      var n := |names| - 1;
      var init := names[..n];
      ColumnIndexGet(init, name);
      assert names == init + [names[n]];
    }
  }

  /** Every name is a key. */
  lemma ColumnIndexHasName(names: seq<string>, i: nat)
    requires i < |names|
    ensures Get(ColumnIndex(names), names[i]).Some?
  {
    ColumnIndexNames(names);
    DedupFrontMember(names, names[i]);
  }

  /** With distinct names, every name maps to its own position. */
  lemma DistinctIndex(names: seq<string>, i: nat)
    requires i < |names| && NoDup(names)
    ensures Get(ColumnIndex(names), names[i]) == Some(i)
  {
    ColumnIndexHasName(names, i);
    var k := Get(ColumnIndex(names), names[i]).value;
    ColumnIndexLast(names, names[i], k);
  }
}

=== FILE: computation.dfy ===
/** The compute engine of src/computation.ts (`appendComputedColumns`): every instruction
    appends one header and, to every body row, one cell holding the evaluation of its
    equation with the row's values substituted for the variables. Instructions run in
    order over the table the previous ones left, so later equations may read earlier
    computed columns. The first failure aborts the whole run. */
module Computation {
  import opened Wrappers
  import opened Seqs
  import opened Strings
  import opened JsObjects
  import opened Values
  import opened Columns
  import opened Tables

  /** A variable of an equation: the column it reads and the text used when the row
      has no such cell. */
  datatype Variable = Variable(column: string, default: string)

  /** One `COMPUTE:"column"="equation"` directive, already parsed. */
  datatype ComputeInstruction = ComputeInstruction(column: string, equation: string, variables: seq<Variable>)

  /** The text `${column}` that a variable's value replaces. */
  function Placeholder(column: string): (r: string)
    ensures |r| == |column| + 3 && StartsWith(r, "${")
  {
    "${" + column + "}"
  }

  /** The cell position a variable reads in a row, if the header names its column and
      the row is long enough to have that cell. */
  function CellPosition(index: Object<nat>, row: seq<string>, column: string): (r: Option<nat>)
    ensures r.Some? ==> r.value < |row|
  {
    match Get(index, column)
    case Some(i) => if i < |row| then Some(i) else None
    case None => None
  }

  /** A variable's value in one row: the trimmed cell text, or the default. */
  function VariableValue(index: Object<nat>, row: seq<string>, v: Variable): string {
    match CellPosition(index, row, v.column)
    case Some(i) => Trim(row[i])
    case None => v.default
  }

  /** The equation with the variables substituted in order, each after its numeric test. */
  function SubstituteAll(h: Host, index: Object<nat>, row: seq<string>, equation: string, vars: seq<Variable>)
    : (r: Result<string, Error>)
    ensures r.Err? ==> r.error.NonNumericVariable?
    decreases |vars|
  {
    if |vars| == 0 then Ok(equation)
    else
      var value := VariableValue(index, row, vars[0]);
      if !h.isNumeric(value) then Err(NonNumericVariable(vars[0].column, value))
      else
        SubstituteAll(h, index, row, ReplaceAll(equation, Placeholder(vars[0].column), value), vars[1..])
  }

  /** Substitution succeeds exactly when every variable's value passes the numeric test;
      the equation plays no part in it. */
  lemma {:induction false} SubstituteAllSucceeds(h: Host, index: Object<nat>, row: seq<string>, equation: string, vars: seq<Variable>)
    ensures SubstituteAll(h, index, row, equation, vars).Ok? <==>
      forall i :: 0 <= i < |vars| ==> h.isNumeric(VariableValue(index, row, vars[i]))
    decreases |vars|
  {
    if |vars| > 0 {
      var value := VariableValue(index, row, vars[0]);
      SubstituteAllSucceeds(h, index, row, ReplaceAll(equation, Placeholder(vars[0].column), value), vars[1..]);
      assert forall i :: 1 <= i < |vars| ==> vars[i] == vars[1..][i - 1];
    }
  }

  /** Substituting one variable replaces every occurrence of its placeholder: the
      equation is split at the placeholders and joined with the value. */
  lemma SubstituteOne(h: Host, index: Object<nat>, row: seq<string>, equation: string, v: Variable)
    requires h.isNumeric(VariableValue(index, row, v))
    ensures SubstituteAll(h, index, row, equation, [v]) ==
      Ok(Join(SplitOn(equation, Placeholder(v.column)), VariableValue(index, row, v)))
  {
    ReplaceAllIsSplitJoin(equation, Placeholder(v.column), VariableValue(index, row, v));
  }

  /** What `eval` made of the substituted equation is acceptable: neither `undefined` nor
      a value that `isNaN` rejects. */
  predicate Acceptable(h: Host, v: Value) {
    match v
    case Num(_) => true
    case Text(s) => h.isNumeric(s)
    case Undefined => false
  }

  /** The new cell's text for one row. What it means is stated by `SubstituteAllSucceeds`,
      `FirstNonNumericVariableThrows`, `MissingCellTakesDefault` and `ComputeRowsSucceed`. */
  function ComputeCell(h: Host, index: Object<nat>, row: seq<string>, comp: ComputeInstruction): (r: Result<string, Error>)
    ensures SubstituteAll(h, index, row, comp.equation, comp.variables).Err? ==>
      r == Err(SubstituteAll(h, index, row, comp.equation, comp.variables).error)
    ensures SubstituteAll(h, index, row, comp.equation, comp.variables).Ok? ==>
      var eq := SubstituteAll(h, index, row, comp.equation, comp.variables).value;
      match h.eval(eq)
      case Threw => r == Err(EvaluationThrew(eq))
      case Returned(v) =>
        (r.Ok? <==> Acceptable(h, v)) && (r.Ok? ==> r.value == Str(v, h)) && (r.Err? ==> r.error == InvalidComputation(eq))
  {
    var eq :- SubstituteAll(h, index, row, comp.equation, comp.variables);
    match h.eval(eq)
    case Threw => Err(EvaluationThrew(eq))
    case Returned(v) => if Acceptable(h, v) then Ok(Str(v, h)) else Err(InvalidComputation(eq))
  }

  /** The body rows of one instruction, first failing row first: each row gains exactly
      one cell at its end and keeps its other cells. */
  function ComputeRows(h: Host, index: Object<nat>, rows: seq<seq<string>>, comp: ComputeInstruction)
    : (r: Result<seq<seq<string>>, Error>)
    ensures r.Ok? ==> |r.value| == |rows|
    ensures r.Ok? ==> forall k :: 0 <= k < |rows| ==>
      ComputeCell(h, index, rows[k], comp).Ok? && r.value[k] == rows[k] + [ComputeCell(h, index, rows[k], comp).value]
  {
    if |rows| == 0 then Ok([])
    else
      var cell :- ComputeCell(h, index, rows[0], comp);
      var rest :- ComputeRows(h, index, rows[1..], comp);
      Ok([rows[0] + [cell]] + rest)
  }

  /** The rows are computed exactly when every row's cell is. */
  lemma {:induction false} ComputeRowsSucceed(h: Host, index: Object<nat>, rows: seq<seq<string>>, comp: ComputeInstruction)
    ensures ComputeRows(h, index, rows, comp).Ok? <==> forall k :: 0 <= k < |rows| ==> ComputeCell(h, index, rows[k], comp).Ok?
  {
    if |rows| > 0 {
      ComputeRowsSucceed(h, index, rows[1..], comp);
      assert forall k :: 1 <= k < |rows| ==> rows[k] == rows[1..][k - 1];
    }
  }

  /** The header index an instruction reads: rebuilt from the current, trimmed header. */
  function HeaderIndex(html: Html): Object<nat> {
    ColumnIndex(TrimAll(html.head))
  }

  /** One instruction: the header gains the computed column's name at its end, and
      every row one cell at its end. */
  function ApplyInstruction(h: Host, html: Html, comp: ComputeInstruction): (r: Result<Html, Error>)
    ensures r.Ok? ==> r.value.head == html.head + [comp.column] && Extends(html, r.value, 1)
  {
    var rows :- ComputeRows(h, HeaderIndex(html), html.body, comp);
    Ok(Html(html.head + [comp.column], rows))
  }

  /** An instruction succeeds exactly when every row's cell is computed, and each row's
      new cell is that row's computed cell. */
  lemma ApplyInstructionCells(h: Host, html: Html, comp: ComputeInstruction)
    ensures ApplyInstruction(h, html, comp).Ok? <==>
      forall k :: 0 <= k < |html.body| ==> ComputeCell(h, HeaderIndex(html), html.body[k], comp).Ok?
    ensures ApplyInstruction(h, html, comp).Ok? ==> forall k :: 0 <= k < |html.body| ==>
      ApplyInstruction(h, html, comp).value.body[k] ==
        html.body[k] + [ComputeCell(h, HeaderIndex(html), html.body[k], comp).value]
  {
    ComputeRowsSucceed(h, HeaderIndex(html), html.body, comp);
  }

  /** `after` has the rows of `before`, each with `n` more cells at its end. */
  predicate Extends(before: Html, after: Html, n: nat) {
    && |after.body| == |before.body|
    && forall k :: 0 <= k < |before.body| ==>
         |after.body[k]| == |before.body[k]| + n && after.body[k][..|before.body[k]|] == before.body[k]
  }

  lemma ExtendsTransitive(a: Html, b: Html, c: Html, n: nat, m: nat)
    requires Extends(a, b, n) && Extends(b, c, m)
    ensures Extends(a, c, n + m)
  {
    forall k | 0 <= k < |a.body|
      ensures c.body[k][..|a.body[k]|] == a.body[k]
    {
      assert c.body[k][..|b.body[k]|][..|a.body[k]|] == c.body[k][..|a.body[k]|];
    }
  }

  /** The computed columns' names in instruction order. */
  function ComputedNames(comps: seq<ComputeInstruction>): (r: seq<string>)
    ensures |r| == |comps|
  {
    if |comps| == 0 then [] else [comps[0].column] + ComputedNames(comps[1..])
  }

  lemma NamesAppended(head: seq<string>, next: seq<string>, last: seq<string>, comps: seq<ComputeInstruction>)
    requires |comps| > 0
    requires next == head + [comps[0].column] && last == next + ComputedNames(comps[1..])
    ensures last == head + ComputedNames(comps)
  {
    ComputedNamesCons(comps);
    ConcatAssoc(head, [comps[0].column], ComputedNames(comps[1..]));
  }

  lemma ComputedNamesCons(comps: seq<ComputeInstruction>)
    requires |comps| > 0
    ensures ComputedNames(comps) == [comps[0].column] + ComputedNames(comps[1..])
  {
  }

  /** `appendComputedColumns(table, instructions)`: the table's content afterwards. */
  function AppendComputedColumns(h: Host, html: Html, comps: seq<ComputeInstruction>): (r: Result<Html, Error>)
    ensures r.Ok? ==> r.value.head == html.head + ComputedNames(comps)
    ensures r.Ok? ==> Extends(html, r.value, |comps|)
    decreases |comps|
  {
    if |comps| == 0 then Ok(html)
    else
      var next :- ApplyInstruction(h, html, comps[0]);
      var r := AppendComputedColumns(h, next, comps[1..]);
      if r.Ok? then
        NamesAppended(html.head, next.head, r.value.head, comps);
        ExtendsTransitive(html, next, r.value, 1, |comps| - 1);
        r
      else r
  }

  /** A computed column is visible to the next instruction: its (trimmed) name maps to
      the new last header position, and every row holds the computed cell there. */
  lemma ComputedColumnVisible(h: Host, html: Html, comp: ComputeInstruction, k: nat)
    requires ApplyInstruction(h, html, comp).Ok? && k < |html.body|
    requires |html.body[k]| == |html.head|
    ensures var next := ApplyInstruction(h, html, comp).value;
      && Get(HeaderIndex(next), Trim(comp.column)) == Some(|html.head|)
      && CellPosition(HeaderIndex(next), next.body[k], Trim(comp.column)) == Some(|html.head|)
      && next.body[k][|html.head|] == ComputeCell(h, HeaderIndex(html), html.body[k], comp).value
  {
    ApplyInstructionCells(h, html, comp);
    LastHeaderIndexed(html.head, comp.column);
  }

  /** A name appended to the header is indexed at the new last position. */
  lemma LastHeaderIndexed(head: seq<string>, name: string)
    ensures Get(ColumnIndex(TrimAll(head + [name])), Trim(name)) == Some(|head|)
  {
    assert TrimAll(head + [name]) == TrimAll(head) + [Trim(name)];
    ColumnIndexSnoc(TrimAll(head), Trim(name));
  }

  /** A variable naming a later instruction's input reads the earlier computed cell. */
  lemma LaterInstructionReadsComputedCell(h: Host, html: Html, comp: ComputeInstruction, k: nat, d: string)
    requires ApplyInstruction(h, html, comp).Ok? && k < |html.body|
    requires |html.body[k]| == |html.head|
    ensures var next := ApplyInstruction(h, html, comp).value;
      VariableValue(HeaderIndex(next), next.body[k], Variable(Trim(comp.column), d)) ==
        Trim(ComputeCell(h, HeaderIndex(html), html.body[k], comp).value)
  {
    ComputedColumnVisible(h, html, comp, k);
  }

  /** A variable whose column is unknown, or whose cell the row lacks, takes its default. */
  lemma MissingCellTakesDefault(index: Object<nat>, row: seq<string>, v: Variable)
    requires Get(index, v.column).None? || |row| <= Get(index, v.column).value
    ensures VariableValue(index, row, v) == v.default
  {

  }

  /** An existing cell is read even when it is empty: "" passes the numeric test, so the
      default is not used and substitution goes on. */
  lemma EmptyCellUsedAsIs(h: Host, index: Object<nat>, row: seq<string>, v: Variable, i: nat)
    requires EmptyIsNumeric(h)
    requires Get(index, v.column) == Some(i) && i < |row| && Trim(row[i]) == ""
    ensures VariableValue(index, row, v) == "" && h.isNumeric(VariableValue(index, row, v))
  {
  }

  /** The first variable that fails the numeric test, after numeric ones, aborts the
      instruction, naming its column and value. */
  lemma {:induction false} FirstNonNumericVariableThrows(h: Host, index: Object<nat>, row: seq<string>, equation: string, vars: seq<Variable>, i: nat)
    requires i < |vars| && !h.isNumeric(VariableValue(index, row, vars[i]))
    requires forall j :: 0 <= j < i ==> h.isNumeric(VariableValue(index, row, vars[j]))
    ensures SubstituteAll(h, index, row, equation, vars) ==
      Err(NonNumericVariable(vars[i].column, VariableValue(index, row, vars[i])))
    decreases i
  {
    if i > 0 {
      var value := VariableValue(index, row, vars[0]);
      assert forall j :: 0 <= j < i - 1 ==> vars[1..][j] == vars[j + 1];
      FirstNonNumericVariableThrows(h, index, row, ReplaceAll(equation, Placeholder(vars[0].column), value), vars[1..], i - 1);
    }
  }
}

=== FILE: gradient.dfy ===
/** Gradient style directives (`GradientAgent.getInstructions`, src/stylization/gradient.ts):
    each line of the form `PIVOTIFYJS_STYLE_GRADIENT:"<column>"="<k>:<v>;..."` becomes one
    instruction after its parameters are validated and defaulted. */
module Gradient {
  import opened Wrappers
  import opened Seqs
  import opened Strings
  import opened Values

  datatype Target = Background | TextColor
  datatype SortOrder = Ascending | Descending

  /** The emitted `{ type: "gradient", target, column, from, to }`. */
  datatype GradientInstruction = GradientInstruction(target: Target, column: string, from: string, to: string)

  const Keyword: string := "PIVOTIFYJS_STYLE_GRADIENT"
  const DefaultColor: string := "transparent"

  // ---------------------------------------------------------------------------
  // Parameter validators (PARAM_SANITIZERS)

  /** `target`: "bg" and "background" mean the background, "text" the text colour. */
  function ValidateTarget(v: string): (r: Result<Target, Error>)
    ensures r == Ok(Background) <==> v == "bg" || v == "background"
    ensures r == Ok(TextColor) <==> v == "text"
    ensures r.Err? ==> r.error == InvalidTarget(v)
  {
    if v == "bg" || v == "background" then Ok(Background)
    else if v == "text" then Ok(TextColor)
    else Err(InvalidTarget(v))
  }

  /** `sort`: only "ascending" and "descending". */
  function ValidateSort(v: string): (r: Result<SortOrder, Error>)
    ensures r == Ok(Ascending) <==> v == "ascending"
    ensures r == Ok(Descending) <==> v == "descending"
    ensures r.Err? ==> r.error == InvalidSort(v)
  {
    if v == "ascending" then Ok(Ascending)
    else if v == "descending" then Ok(Descending)
    else Err(InvalidSort(v))
  }

  /** `validateColor`: the value itself, when the colour library accepts it. */
  function ValidateColor(h: Host, v: string): (r: Result<string, Error>)
    ensures r.Ok? <==> h.isColor(v)
    ensures r.Ok? ==> r.value == v
    ensures r.Err? ==> r.error == InvalidColor(v)
  {
    if h.isColor(v) then Ok(v) else Err(InvalidColor(v))
  }

  // ---------------------------------------------------------------------------
  // Key/value parsing

  /** Piece `i`, trimmed; a missing piece is `undefined`, as falsy as "". */
  function Piece(pieces: seq<string>, i: nat): (r: string)
    ensures IsTrimmed(r)
    ensures i < |pieces| ==> r == Trim(pieces[i])
  {
    if i < |pieces| then
      TrimIsSlice(pieces[i]);
      Trim(pieces[i])
    else ""
  }

  /** One `key:value` pair: the first two `:`-separated pieces, trimmed; a pair whose key
      or value is empty (or missing) is dropped. */
  function ParsePair(pair: string): (r: Option<(string, string)>)
    ensures r.Some? ==> r.value.0 != "" && r.value.1 != "" && IsTrimmed(r.value.0) && IsTrimmed(r.value.1)
  {
    var pieces := SplitChar(pair, ':');
    var key := Piece(pieces, 0);
    var value := Piece(pieces, 1);
    if key != "" && value != "" then Some((key, value)) else None
  }

  type Pair = Option<(string, string)>

  /** The `params` record after the parsed pairs are stored in order; a later pair
      overwrites an earlier one with the same key. */
  function Collect(pairs: seq<Pair>): (params: map<string, string>)
  {
    if |pairs| == 0 then map[]
    else
      var params := Collect(pairs[..|pairs| - 1]);
      match pairs[|pairs| - 1]
      case Some((k, v)) => params[k := v]
      case None => params
  }

  /** Every `;`-separated pair, parsed. */
  function ParsedPairs(paramsStr: string): (r: seq<Pair>)
    ensures |r| == |SplitChar(paramsStr, ';')|
    ensures forall i :: 0 <= i < |r| ==> r[i] == ParsePair(SplitChar(paramsStr, ';')[i])
  {
    var pieces := SplitChar(paramsStr, ';');
    seq(|pieces|, i requires 0 <= i < |pieces| => ParsePair(pieces[i]))
  }

  function ParseParams(paramsStr: string): (params: map<string, string>)
  {
    Collect(ParsedPairs(paramsStr))
  }

  /** The pair at `i` sets key `k`. */
  predicate SetsKey(pairs: seq<Pair>, i: int, k: string)
    requires 0 <= i < |pairs|
  {
    pairs[i].Some? && pairs[i].value.0 == k
  }

  /** A key is present exactly when some pair sets it. */
  lemma {:induction false} CollectHasKey(pairs: seq<Pair>, k: string)
    ensures k in Collect(pairs) <==> exists i :: 0 <= i < |pairs| && SetsKey(pairs, i, k)
  {
    if |pairs| > 0 {
      var n := |pairs| - 1;
      var init := pairs[..n];
      CollectHasKey(init, k);
      assert k in Collect(pairs) <==> SetsKey(pairs, n, k) || k in Collect(init);
      if exists i :: 0 <= i < |init| && SetsKey(init, i, k) {
        var i :| 0 <= i < |init| && SetsKey(init, i, k);
        assert SetsKey(pairs, i, k);
      }
      if exists i :: 0 <= i < |pairs| && SetsKey(pairs, i, k) {
        var i :| 0 <= i < |pairs| && SetsKey(pairs, i, k);
        if i < n {
          assert SetsKey(init, i, k);
        }
      }
    }
  }

  /** The last pair setting a key decides its value. */
  lemma {:induction false} CollectLastWins(pairs: seq<Pair>, i: nat, k: string)
    requires i < |pairs| && SetsKey(pairs, i, k)
    requires forall j :: i < j < |pairs| ==> !SetsKey(pairs, j, k)
    ensures k in Collect(pairs) && Collect(pairs)[k] == pairs[i].value.1
  {
    var init := pairs[..|pairs| - 1];
    if i < |pairs| - 1 {
      assert SetsKey(init, i, k);
      forall j | i < j < |init| ensures !SetsKey(init, j, k) {
        assert !SetsKey(pairs, j, k);
      }
      CollectLastWins(init, i, k);
      assert !SetsKey(pairs, |pairs| - 1, k);
    }
  }

  // ---------------------------------------------------------------------------
  // Sanitizing

  /** The four parameters after validation, in `PARAM_SANITIZERS` order. */
  datatype Sanitized = Sanitized(target: Target, sort: SortOrder, from: string, to: string)

  /** Validate `key` when given, else take the default. `FromParamsSucceeds`,
      `FromParamsFirstError` and `FromParamsValue` state what the four calls give. */
  function Param<T>(params: map<string, string>, key: string, validate: string -> Result<T, Error>, default: T): (r: Result<T, Error>)
    ensures key !in params ==> r == Ok(default)
    ensures key in params ==> r == validate(params[key])
  {
    if key in params then validate(params[key]) else Ok(default)
  }

  /** `sanitizedParams`: target, sort, from, to, validated in that order; the first
      invalid one throws. */
  function Sanitize(h: Host, params: map<string, string>): (r: Result<Sanitized, Error>)
  {
    var target :- Param(params, "target", ValidateTarget, Background);
    var sort :- Param(params, "sort", ValidateSort, Ascending);
    var from :- Param(params, "from", v => ValidateColor(h, v), DefaultColor);
    var to :- Param(params, "to", v => ValidateColor(h, v), DefaultColor);
    Ok(Sanitized(target, sort, from, to))
  }

  /** One directive's instruction from its `params` record: sanitize, require a colour
      the user gave, and swap the colours for a descending sort. */
  function FromParams(h: Host, column: string, params: map<string, string>): (r: Result<GradientInstruction, Error>)
    ensures r.Ok? ==> r.value.column == column
  {
    var s :- Sanitize(h, params);
    if "from" !in params && "to" !in params then Err(MissingGradientColor)
    else
      var ascending := s.sort == Ascending;
      Ok(GradientInstruction(s.target, column, if ascending then s.from else s.to, if ascending then s.to else s.from))
  }

  function MakeInstruction(h: Host, column: string, paramsStr: string): (r: Result<GradientInstruction, Error>)
    ensures r.Ok? ==> r.value.column == column
  {
    FromParams(h, column, ParseParams(paramsStr))
  }

  // ---------------------------------------------------------------------------
  // What an instruction promises, stated on the `params` record

  /** A given parameter passes its validator. */
  predicate TargetOk(p: map<string, string>) { "target" in p ==> ValidateTarget(p["target"]).Ok? }
  predicate SortOk(p: map<string, string>) { "sort" in p ==> ValidateSort(p["sort"]).Ok? }
  predicate ColorOk(h: Host, p: map<string, string>, key: string) { key in p ==> h.isColor(p[key]) }

  /** The colour given for `key`, or the default. */
  function ColorOr(p: map<string, string>, key: string): string {
    if key in p then p[key] else DefaultColor
  }

  /** Every given parameter passes its validator. */
  predicate AllValid(h: Host, p: map<string, string>) {
    TargetOk(p) && SortOk(p) && ColorOk(h, p, "from") && ColorOk(h, p, "to")
  }

  predicate Descends(p: map<string, string>) { "sort" in p && p["sort"] == "descending" }

  /** An instruction is made exactly when every given parameter is valid and at least
      one colour is given. */
  lemma FromParamsSucceeds(h: Host, column: string, p: map<string, string>)
    ensures FromParams(h, column, p).Ok? <==> AllValid(h, p) && ("from" in p || "to" in p)
  {
  }

  /** Errors come in `PARAM_SANITIZERS` order (target, sort, from, to), and only then the
      missing-colour check. */
  lemma FromParamsFirstError(h: Host, column: string, p: map<string, string>)
    ensures !TargetOk(p) ==> FromParams(h, column, p) == Err(InvalidTarget(p["target"]))
    ensures TargetOk(p) && !SortOk(p) ==> FromParams(h, column, p) == Err(InvalidSort(p["sort"]))
    ensures TargetOk(p) && SortOk(p) && !ColorOk(h, p, "from") ==>
      FromParams(h, column, p) == Err(InvalidColor(p["from"]))
    ensures TargetOk(p) && SortOk(p) && ColorOk(h, p, "from") && !ColorOk(h, p, "to") ==>
      FromParams(h, column, p) == Err(InvalidColor(p["to"]))
    ensures AllValid(h, p) && "from" !in p && "to" !in p ==> FromParams(h, column, p) == Err(MissingGradientColor)
  {
  }

  /** A made instruction targets the text only when asked to, takes the default colour
      for the one not given, and runs from the "to" colour to the "from" colour when the
      sort descends. */
  lemma FromParamsValue(h: Host, column: string, p: map<string, string>)
    requires FromParams(h, column, p).Ok?
    ensures var g := FromParams(h, column, p).value;
      && (g.target == TextColor <==> "target" in p && p["target"] == "text")
      && g.from == (if Descends(p) then ColorOr(p, "to") else ColorOr(p, "from"))
      && g.to == (if Descends(p) then ColorOr(p, "from") else ColorOr(p, "to"))
  {
  }

  // ---------------------------------------------------------------------------
  // The directive pattern /.*:"([^"]+)"="([^"]+)"/

  /** The end of the run of non-quote characters that starts at `i`. */
  function QuoteFreeEnd(s: string, i: nat): (j: nat)
    requires i <= |s|
    ensures i <= j <= |s| && (j == |s| || s[j] == '"')
    ensures forall k :: i <= k < j ==> s[k] != '"'
    decreases |s| - i
  {
    if i < |s| && s[i] != '"' then QuoteFreeEnd(s, i + 1) else i
  }

  /** The pattern after `.*`, tried at position `p`: both groups, when it matches there.
      Each `[^"]+` must stop at a quote, so it takes the whole quote-free run. */
  function MatchAt(s: string, p: nat): (m: Option<(string, string)>)
    ensures m.Some? ==> m.value.0 != "" && m.value.1 != "" && '"' !in m.value.0 && '"' !in m.value.1
  {
    if p + 2 <= |s| && s[p] == ':' && s[p + 1] == '"' then
      var e1 := QuoteFreeEnd(s, p + 2);
      if e1 > p + 2 && e1 + 3 <= |s| && s[e1] == '"' && s[e1 + 1] == '=' && s[e1 + 2] == '"' then
        var e2 := QuoteFreeEnd(s, e1 + 3);
        if e2 > e1 + 3 && e2 < |s| then Some((s[p + 2..e1], s[e1 + 3..e2])) else None
      else None
    else None
  }

  /** The text at `p` that the pattern reads as the groups `x` and `y`. */
  function Directive(x: string, y: string): string {
    ":\"" + x + "\"=\"" + y + "\""
  }

  lemma DirectiveParts(x: string, y: string)
    ensures var d := Directive(x, y);
      && |d| == |x| + |y| + 6
      && d[0] == ':' && d[1] == '"' && d[2..2 + |x|] == x
      && d[2 + |x|] == '"' && d[3 + |x|] == '=' && d[4 + |x|] == '"'
      && d[5 + |x|..5 + |x| + |y|] == y && d[5 + |x| + |y|] == '"'
  {
  }

  /** A match at `p` reads `:"x"="y"` there. */
  lemma MatchAtSound(s: string, p: nat)
    requires MatchAt(s, p).Some?
    ensures var (x, y) := MatchAt(s, p).value;
      p + |Directive(x, y)| <= |s| && s[p..p + |Directive(x, y)|] == Directive(x, y)
  {
    var e1 := QuoteFreeEnd(s, p + 2);
    var e2 := QuoteFreeEnd(s, e1 + 3);
    var x := s[p + 2..e1];
    var y := s[e1 + 3..e2];
    assert MatchAt(s, p).value == (x, y);
    assert s[p..e2 + 1] == s[p..p + 2] + s[p + 2..e1] + s[e1..e1 + 3] + s[e1 + 3..e2] + s[e2..e2 + 1];
    assert s[p..p + 2] == ":\"" && s[e1..e1 + 3] == "\"=\"" && s[e2..e2 + 1] == "\"";
  }

  /** The characters of `:"x"="y"` at `p`, read off the text. */
  lemma DirectiveAt(s: string, p: nat, x: string, y: string)
    requires p + |Directive(x, y)| <= |s| && s[p..p + |Directive(x, y)|] == Directive(x, y)
    ensures var e1 := p + 2 + |x|; var e2 := e1 + 3 + |y|;
      && e2 < |s| && s[p] == ':' && s[p + 1] == '"' && s[p + 2..e1] == x
      && s[e1] == '"' && s[e1 + 1] == '=' && s[e1 + 2] == '"' && s[e1 + 3..e2] == y && s[e2] == '"'
  {
    var d := Directive(x, y);
    DirectiveParts(x, y);
    assert forall k :: 0 <= k < |d| ==> s[p + k] == d[k];
    SliceOfSlice(s, p, p + |d|, 2, 2 + |x|);
    SliceOfSlice(s, p, p + |d|, 5 + |x|, 5 + |x| + |y|);
  }

  /** The text `:"x"="y"` at `p`, with `x` and `y` non-empty and quote-free, is a match
      with exactly those groups. */
  lemma MatchAtComplete(s: string, p: nat, x: string, y: string)
    requires x != "" && y != "" && '"' !in x && '"' !in y
    requires p + |Directive(x, y)| <= |s| && s[p..p + |Directive(x, y)|] == Directive(x, y)
    ensures MatchAt(s, p) == Some((x, y))
  {
    var e1 := p + 2 + |x|;
    var e2 := e1 + 3 + |y|;
    DirectiveAt(s, p, x, y);
    QuoteRun(s, p + 2, e1, x);
    QuoteRun(s, e1 + 3, e2, y);
  }

  lemma QuoteRun(s: string, i: nat, j: nat, x: string)
    requires i <= j < |s| && s[j] == '"' && s[i..j] == x && '"' !in x
    ensures QuoteFreeEnd(s, i) == j
  {
    assert forall k :: i <= k < j ==> s[k] == x[k - i];
    QuoteFreeEndAt(s, i, j);
  }

  lemma SliceOfSlice(s: string, i: nat, j: nat, a: nat, b: nat)
    requires i <= j <= |s| && a <= b <= j - i
    ensures s[i..j][a..b] == s[i + a..i + b]
  {
    assert forall k :: 0 <= k < b - a ==> s[i..j][a..b][k] == s[i + a + k];
  }

  lemma QuoteFreeEndAt(s: string, i: nat, j: nat)
    requires i <= j < |s| && s[j] == '"' && forall k :: i <= k < j ==> s[k] != '"'
    ensures QuoteFreeEnd(s, i) == j
    decreases j - i
  {
    if i < j {
      QuoteFreeEndAt(s, i + 1, j);
    }
  }

  /** The first line terminator at or after `i`, or the end: `.` stops there. */
  function NextTerminator(s: string, i: nat): (j: nat)
    requires i <= |s|
    ensures i <= j <= |s| && (j == |s| || IsLineTerminator(s[j]))
    ensures forall k :: i <= k < j ==> !IsLineTerminator(s[k])
    decreases |s| - i
  {
    if i < |s| && !IsLineTerminator(s[i]) then NextTerminator(s, i + 1) else i
  }

  /** The greedy `.*`: the last position in `lo .. hi - 1` where the rest matches. */
  function LastMatchIn(s: string, lo: nat, hi: nat): (p: Option<nat>)
    ensures p.Some? ==> lo <= p.value < hi && MatchAt(s, p.value).Some?
    ensures p.Some? ==> forall q :: p.value < q < hi ==> MatchAt(s, q).None?
    ensures p.None? ==> forall q :: lo <= q < hi ==> MatchAt(s, q).None?
    decreases hi
  {
    if hi <= lo then None
    else if MatchAt(s, hi - 1).Some? then Some(hi - 1)
    else LastMatchIn(s, lo, hi - 1)
  }

  /** Trying start positions from `i` on: a start inside a terminator-free stretch sees
      the candidates up to the next terminator, and the first stretch with any candidate
      gives the match. */
  function Search(s: string, i: nat): (p: Option<nat>)
    requires i <= |s|
    ensures p.Some? ==> i <= p.value < |s| && MatchAt(s, p.value).Some?
    ensures p.None? ==> forall q :: i <= q < |s| ==> MatchAt(s, q).None?
    decreases |s| - i
  {
    var e := NextTerminator(s, i);
    match LastMatchIn(s, i, e)
    case Some(p) => Some(p)
    case None =>
      if e == |s| then None
      else
        assert MatchAt(s, e).None?;
        Search(s, e + 1)
  }

  /** `line.match(/.*:"([^"]+)"="([^"]+)"/)`: the column and the parameter text. */
  function LineMatch(line: string): (m: Option<(string, string)>)
    ensures m.Some? <==> exists p :: 0 <= p < |line| && MatchAt(line, p).Some?
    ensures m.Some? ==> exists p :: 0 <= p < |line| && MatchAt(line, p) == m
  {
    match Search(line, 0)
    case Some(p) => MatchAt(line, p)
    case None => None
  }

  predicate NoMatchAfter(line: string, p: nat) {
    forall q :: p < q < |line| ==> MatchAt(line, q).None?
  }

  /** On a line without terminators, the match is at the last position where the
      pattern fits: a later `:"x"="y"` wins over an earlier one. */
  lemma LineMatchGreedy(line: string)
    requires forall k :: 0 <= k < |line| ==> !IsLineTerminator(line[k])
    requires LineMatch(line).Some?
    ensures exists p :: 0 <= p < |line| && MatchAt(line, p) == LineMatch(line) && NoMatchAfter(line, p)
  {
    assert NextTerminator(line, 0) == |line|;
    var p := Search(line, 0).value;
    assert MatchAt(line, p) == LineMatch(line);
  }

  // ---------------------------------------------------------------------------
  // getInstructions

  /** A line whose trimmed text starts with `PIVOTIFYJS_STYLE_GRADIENT:`. */
  predicate IsDirectiveLine(line: string) {
    StartsWith(Trim(line), Keyword + ":")
  }

  /** The directive lines of the text, split at `<br>` and newlines, in order. */
  function DirectiveLines(text: string): (r: seq<string>)
  {
    Filter(SplitLines(text), line => IsDirectiveLine(line))
  }

  /** The `reduce` over the directive lines: a line the pattern does not fit is skipped,
      and the first instruction that throws aborts the whole call. */
  function Emit(h: Host, lines: seq<string>): (r: Result<seq<GradientInstruction>, Error>)
    ensures r.Ok? ==> |r.value| <= |lines|
  {
    if |lines| == 0 then Ok([])
    else
      var acc :- Emit(h, lines[..|lines| - 1]);
      match LineMatch(lines[|lines| - 1])
      case None => Ok(acc)
      case Some((column, paramsStr)) =>
        var g :- MakeInstruction(h, column, paramsStr);
        Ok(acc + [g])
  }

  /** `GradientAgent.getInstructions(text)`. */
  function GetInstructions(h: Host, text: string): (r: Result<seq<GradientInstruction>, Error>)
  {
    Emit(h, DirectiveLines(text))
  }

  /** The `(column, parameters)` of the lines the pattern fits, in order. */
  function Matched(lines: seq<string>): (r: seq<(string, string)>)
    ensures |r| <= |lines|
  {
    if |lines| == 0 then []
    else
      var init := Matched(lines[..|lines| - 1]);
      match LineMatch(lines[|lines| - 1])
      case None => init
      case Some(m) => init + [m]
  }

  /** Making the instructions of the matched lines in order; the first failure wins. */
  function MakeAll(make: ((string, string)) -> Result<GradientInstruction, Error>, ms: seq<(string, string)>): (r: Result<seq<GradientInstruction>, Error>)
  {
    if |ms| == 0 then Ok([])
    else
      var acc :- MakeAll(make, ms[..|ms| - 1]);
      var g :- make(ms[|ms| - 1]);
      Ok(acc + [g])
  }

  /** Matching and making interleaved, as the `reduce` does, is matching first and then
      making. */
  lemma {:induction false} EmitIsMakeAll(h: Host, lines: seq<string>, make: ((string, string)) -> Result<GradientInstruction, Error>)
    requires forall m :: make(m) == MakeInstruction(h, m.0, m.1)
    ensures Emit(h, lines) == MakeAll(make, Matched(lines))
  {
    if |lines| > 0 {
      var init := lines[..|lines| - 1];
      EmitIsMakeAll(h, init, make);
      var ms0 := Matched(init);
      match LineMatch(lines[|lines| - 1])
      case None =>
      case Some(m) =>
        assert (ms0 + [m])[..|ms0|] == ms0;
    }
  }

  /** Each pair can be made. */
  predicate AllMake(make: ((string, string)) -> Result<GradientInstruction, Error>, ms: seq<(string, string)>) {
    forall i :: 0 <= i < |ms| ==> make(ms[i]).Ok?
  }

  /** The made instructions are those of the pairs, one each and in order, and making
      succeeds exactly when every pair can be made. */
  lemma {:induction false} MakeAllIff(make: ((string, string)) -> Result<GradientInstruction, Error>, ms: seq<(string, string)>)
    ensures MakeAll(make, ms).Ok? <==> AllMake(make, ms)
    ensures MakeAll(make, ms).Ok? ==>
      |MakeAll(make, ms).value| == |ms| && forall i :: 0 <= i < |ms| ==> MakeAll(make, ms).value[i] == make(ms[i]).value
  {
    if |ms| > 0 {
      var init := ms[..|ms| - 1];
      MakeAllIff(make, init);
      if AllMake(make, ms) {
        assert AllMake(make, init) by {
          forall i | 0 <= i < |init| ensures make(init[i]).Ok? {
            assert init[i] == ms[i];
          }
        }
      }
    }
  }

  /** `getInstructions` succeeds exactly when every directive the pattern fits yields an
      instruction, and then returns those instructions in line order, each naming the
      column its quotes give. */
  lemma GetInstructionsMatched(h: Host, text: string)
    ensures var ms := Matched(DirectiveLines(text));
      GetInstructions(h, text).Ok? <==> forall i :: 0 <= i < |ms| ==> MakeInstruction(h, ms[i].0, ms[i].1).Ok?
    ensures var ms := Matched(DirectiveLines(text));
      GetInstructions(h, text).Ok? ==> |GetInstructions(h, text).value| == |ms| && forall i :: 0 <= i < |ms| ==>
        GetInstructions(h, text).value[i] == MakeInstruction(h, ms[i].0, ms[i].1).value &&
        GetInstructions(h, text).value[i].column == ms[i].0
  {
    var make: ((string, string)) -> Result<GradientInstruction, Error> := (m: (string, string)) => MakeInstruction(h, m.0, m.1);
    var ms := Matched(DirectiveLines(text));
    EmitIsMakeAll(h, DirectiveLines(text), make);
    MakeAllIff(make, ms);
  }

  /** `key:value` with a trimmed, colon-free key and value reads as that pair. */
  lemma ParsePairOf(k: string, v: string)
    requires k != "" && v != "" && IsTrimmed(k) && IsTrimmed(v) && ':' !in k && ':' !in v
    ensures ParsePair(k + ":" + v) == Some((k, v))
  {
    assert SplitChar(k + ":" + v, ':') == [k, v] by {
      SplitCharNone(v, ':');
      SplitCharFirst(k, v, ':');
    }
    TrimmedIsFixpoint(k);
    TrimmedIsFixpoint(v);
  }

  /** Parameter text without `;` is a single pair. */
  lemma ParseSinglePair(pair: string, k: string, v: string)
    requires ';' !in pair && ParsePair(pair) == Some((k, v))
    ensures ParseParams(pair) == map[k := v]
  {
    SplitCharNone(pair, ';');
    assert ParsedPairs(pair) == [Some((k, v))];
    assert [Some((k, v))][..0] == [];
    assert Collect([Some((k, v))]) == Collect([])[k := v];
  }

  /** A lone `from:<colour>`: the target and the "to" colour take their defaults
      (background, transparent). */
  lemma LoneFromDefaults(h: Host, column: string, c: string)
    requires c != "" && IsTrimmed(c) && ':' !in c && ';' !in c && h.isColor(c)
    ensures MakeInstruction(h, column, "from:" + c) == Ok(GradientInstruction(Background, column, c, DefaultColor))
  {
    LoneFromParams(c);
    assert FromParams(h, column, map["from" := c]) == Ok(GradientInstruction(Background, column, c, DefaultColor));
  }

  lemma LoneFromParams(c: string)
    requires c != "" && IsTrimmed(c) && ':' !in c && ';' !in c
    ensures ParseParams("from:" + c) == map["from" := c]
  {
    assert IsTrimmed("from");
    ParsePairOf("from", c);
    assert "from" + ":" + c == "from:" + c;
    ParseSinglePair("from:" + c, "from", c);
  }
}

=== FILE: handlers.dfy ===
/** The aggregator registry: one reduction and one display label per operator, and the
    guard that rejects non-numeric input (src/aggregation/handlers.ts). */
module Handlers {
  import opened Wrappers
  import opened Values
  import opened Sorting

  /** Declared in this order; `Object.values` of the enum enumerates it in this order. */
  datatype Operator = Sum | Min | Max | Average | Median

  const DeclarationOrder: seq<Operator> := [Sum, Min, Max, Average, Median]

  function Label(op: Operator): string {
    match op
    case Sum => "Sum"
    case Min => "Min"
    case Max => "Max"
    case Average => "Avg"
    case Median => "Median"
  }

  /** A handler result: `Math.min()` and `Math.max()` of nothing are the infinities. */
  datatype Number = Finite(x: real) | PosInfinity | NegInfinity

  /** `values.reduce((a, b) => a + b, 0)`: a left fold starting from 0. */
  function SumOf(xs: seq<real>): real {
    if |xs| == 0 then 0.0 else SumOf(xs[..|xs| - 1]) + xs[|xs| - 1]
  }

  lemma {:induction false} SumOfAppend(xs: seq<real>, ys: seq<real>)
    ensures SumOf(xs + ys) == SumOf(xs) + SumOf(ys)
    decreases |ys|
  {
    if |ys| > 0 {
      assert (xs + ys)[..|xs + ys| - 1] == xs + ys[..|ys| - 1];
      SumOfAppend(xs, ys[..|ys| - 1]);
    } else {
      assert xs + ys == xs;
    }
  }

  /** The sum also folds from the right: the first element plus the sum of the rest. */
  lemma SumOfCons(xs: seq<real>)
    requires |xs| > 0
    ensures SumOf(xs) == xs[0] + SumOf(xs[1..])
  {
    SumOfAppend([xs[0]], xs[1..]);
    assert [xs[0]] + xs[1..] == xs;
    assert [xs[0]][..0] == [];
  }

  function AverageOf(xs: seq<real>): (r: real)
    ensures |xs| == 0 ==> r == 0.0
    ensures |xs| > 0 ==> r * (|xs| as real) == SumOf(xs)
  {
    if |xs| > 0 then SumOf(xs) / (|xs| as real) else 0.0
  }

  function Least(xs: seq<real>): (r: real)
    requires |xs| > 0
    ensures r in xs
    ensures forall i :: 0 <= i < |xs| ==> r <= xs[i]
  {
    if |xs| == 1 then xs[0]
    else
      var m := Least(xs[1..]);
      if xs[0] <= m then xs[0] else m
  }

  function Greatest(xs: seq<real>): (r: real)
    requires |xs| > 0
    ensures r in xs
    ensures forall i :: 0 <= i < |xs| ==> xs[i] <= r
  {
    if |xs| == 1 then xs[0]
    else
      var m := Greatest(xs[1..]);
      if xs[0] >= m then xs[0] else m
  }

  /** `Math.min(...values)`. */
  function MinOf(xs: seq<real>): (r: Number)
    ensures |xs| == 0 <==> r == PosInfinity
    ensures r.Finite? ==> r.x in xs && forall i :: 0 <= i < |xs| ==> r.x <= xs[i]
    ensures !r.NegInfinity?
  {
    if |xs| == 0 then PosInfinity else Finite(Least(xs))
  }

  /** `Math.max(...values)`. */
  function MaxOf(xs: seq<real>): (r: Number)
    ensures |xs| == 0 <==> r == NegInfinity
    ensures r.Finite? ==> r.x in xs && forall i :: 0 <= i < |xs| ==> xs[i] <= r.x
    ensures !r.PosInfinity?
  {
    if |xs| == 0 then NegInfinity else Finite(Greatest(xs))
  }

  /** Bounds of a sum by its least and greatest element. */
  lemma {:induction false} SumBounds(xs: seq<real>, lo: real, hi: real)
    requires forall i :: 0 <= i < |xs| ==> lo <= xs[i] <= hi
    ensures (|xs| as real) * lo <= SumOf(xs) <= (|xs| as real) * hi
    decreases |xs|
  {
    if |xs| > 0 {
      var init := xs[..|xs| - 1];
      SumBounds(init, lo, hi);
      var n := |init| as real;
      assert SumOf(xs) == SumOf(init) + xs[|xs| - 1];
      assert (|xs| as real) * lo == n * lo + lo;
      assert (|xs| as real) * hi == n * hi + hi;
    }
  }

  lemma DivideBounds(sum: real, n: real, lo: real, hi: real)
    requires n > 0.0 && n * lo <= sum <= n * hi
    ensures lo <= sum / n <= hi
  {
    var a := sum / n;
    assert a * n == sum;
    assert (a - lo) * n == sum - n * lo;
    assert (hi - a) * n == n * hi - sum;
  }

  /** The average of a non-empty list lies within any bounds of its elements. */
  lemma AverageBounds(xs: seq<real>, lo: real, hi: real)
    requires |xs| > 0
    requires forall i :: 0 <= i < |xs| ==> lo <= xs[i] <= hi
    ensures lo <= AverageOf(xs) <= hi
  {
    SumBounds(xs, lo, hi);
    DivideBounds(SumOf(xs), |xs| as real, lo, hi);
  }

  /** The average of a non-empty list lies between its minimum and its maximum. */
  lemma AverageBetweenMinAndMax(xs: seq<real>)
    requires |xs| > 0
    ensures MinOf(xs).x <= AverageOf(xs) <= MaxOf(xs).x
  {
    AverageBounds(xs, Least(xs), Greatest(xs));
  }

  /** Number of elements strictly below `r`. */
  function CountBelow(xs: seq<real>, r: real): nat {
    if |xs| == 0 then 0 else (if xs[0] < r then 1 else 0) + CountBelow(xs[1..], r)
  }

  /** Number of elements at most `r`. */
  function CountAtMost(xs: seq<real>, r: real): nat {
    if |xs| == 0 then 0 else (if xs[0] <= r then 1 else 0) + CountAtMost(xs[1..], r)
  }

  /** A number is its own sort key. */
  function Id(x: real): real {
    x
  }

  predicate Ascending(xs: seq<real>) {
    SortedBy(xs, Id)
  }

  /** `[...values].sort((a, b) => a - b)`: an ascending copy; the input is not touched. */
  function SortReals(xs: seq<real>): (r: seq<real>)
    ensures Ascending(r)
    ensures multiset(r) == multiset(xs)
  {
    SortBy(xs, Id)
  }

  lemma {:induction false} InsertCounts(x: real, xs: seq<real>, r: real)
    requires Ascending(xs)
    ensures CountBelow(InsertBy(x, xs, Id), r) == CountBelow(xs, r) + (if x < r then 1 else 0)
    ensures CountAtMost(InsertBy(x, xs, Id), r) == CountAtMost(xs, r) + (if x <= r then 1 else 0)
  {
    var ins := InsertBy(x, xs, Id);
    if |xs| == 0 {
    } else if x <= xs[0] {
      assert ins == [x] + xs;
      assert ins[1..] == xs;
    } else {
      var rest := InsertBy(x, xs[1..], Id);
      InsertCounts(x, xs[1..], r);
      assert ins == [xs[0]] + rest;
      assert ins[1..] == rest;
      assert CountBelow(ins, r) == (if xs[0] < r then 1 else 0) + CountBelow(rest, r);
      assert CountAtMost(ins, r) == (if xs[0] <= r then 1 else 0) + CountAtMost(rest, r);
    }
  }

  /** Sorting moves elements but does not change how many lie below or at any bound. */
  lemma {:induction false} SortCounts(xs: seq<real>, r: real)
    ensures CountBelow(SortBy(xs, Id), r) == CountBelow(xs, r)
    ensures CountAtMost(SortBy(xs, Id), r) == CountAtMost(xs, r)
  {
    if |xs| > 0 {
      SortCounts(xs[1..], r);
      InsertCounts(xs[0], SortBy(xs[1..], Id), r);
    }
  }

  /** In an ascending sequence, at most `m` elements lie below the element at `m`,
      and at least `m + 1` lie at or below it. */
  lemma {:induction false} AscendingRank(s: seq<real>, m: nat)
    requires Ascending(s) && m < |s|
    ensures CountBelow(s, s[m]) <= m
    ensures CountAtMost(s, s[m]) >= m + 1
  {
    if m == 0 {
      NoneBelow(s, s[0]);
    } else {
      AscendingRank(s[1..], m - 1);
      assert s[1..][m - 1] == s[m];
    }
  }

  lemma {:induction false} NoneBelow(s: seq<real>, r: real)
    requires forall i :: 0 <= i < |s| ==> r <= s[i]
    ensures CountBelow(s, r) == 0
  {
    if |s| > 0 {
      NoneBelow(s[1..], r);
    }
  }

  /** The upper median: the element at index floor(n/2) of the ascending copy, or 0 for
      the empty list. Characterised without sorting: at most n/2 elements lie below it
      and more than n/2 lie at or below it. */
  function MedianOf(xs: seq<real>): (r: real)
    ensures |xs| == 0 ==> r == 0.0
    ensures |xs| > 0 ==> r in xs
    ensures |xs| > 0 ==> CountBelow(xs, r) <= |xs| / 2 < CountAtMost(xs, r)
  {
    if |xs| == 0 then 0.0
    else
      var sorted := SortReals(xs);
      assert |sorted| == |multiset(xs)| == |xs|;
      var m := |xs| / 2;
      var r := sorted[m];
      assert r in multiset(xs);
      AscendingRank(sorted, m);
      SortCounts(xs, r);
      r
  }

  /** How many of 1, 2, 3, 4 lie below or at each of them. */
  lemma CountsOfOneToFour()
    ensures CountAtMost([1.0, 2.0, 3.0, 4.0], 1.0) == 1
    ensures CountAtMost([1.0, 2.0, 3.0, 4.0], 2.0) == 2
    ensures CountBelow([1.0, 2.0, 3.0, 4.0], 4.0) == 3
  {
    var xs := [1.0, 2.0, 3.0, 4.0];
    assert xs[1..] == [2.0, 3.0, 4.0] && xs[1..][1..] == [3.0, 4.0] && xs[1..][1..][1..] == [4.0];
  }

  /** On an even count the median is the upper middle element, not the mean of the two. */
  lemma MedianOfOneToFour()
    ensures MedianOf([1.0, 2.0, 3.0, 4.0]) == 3.0
  {
    CountsOfOneToFour();
  }

  /** The registry: each operator's handler over a list of numbers. */
  function Apply(op: Operator, xs: seq<real>): (r: Number)
    ensures op == Sum ==> r == Finite(SumOf(xs))
    ensures |xs| > 0 ==> r.Finite?
    ensures |xs| == 0 ==> r == match op
      case Min => PosInfinity
      case Max => NegInfinity
      case _ => Finite(0.0)
  {
    match op
    case Sum => Finite(SumOf(xs))
    case Average => Finite(AverageOf(xs))
    case Min => MinOf(xs)
    case Max => MaxOf(xs)
    case Median => Finite(MedianOf(xs))
  }

  /** The non-numbers of a list (`typeof v !== "number"`), in order. */
  function Violations(values: seq<Value>): (r: seq<Value>)
    ensures |r| <= |values|
    ensures forall i :: 0 <= i < |r| ==> !r[i].Num?
    ensures |r| == 0 <==> forall i :: 0 <= i < |values| ==> values[i].Num?
  {
    if |values| == 0 then []
    else if values[0].Num? then Violations(values[1..])
    else [values[0]] + Violations(values[1..])
  }

  /** `assertNumericArray`: `Some(violations)` when it throws, listing every offending value. */
  function AssertNumeric(values: seq<Value>): (r: Option<seq<Value>>)
    ensures r.Some? <==> exists i :: 0 <= i < |values| && !values[i].Num?
    ensures r.Some? ==> r.value == Violations(values) && |r.value| > 0
  {
    var v := Violations(values);
    if |v| > 0 then Some(v) else None
  }

  /** The numbers of a list, in order: the collapse engine's `typeof v === "number"` filter. */
  function Numbers(values: seq<Value>): (r: seq<real>)
    ensures |r| <= |values|
    ensures (forall i :: 0 <= i < |values| ==> values[i].Num?) ==>
      |r| == |values| && forall i :: 0 <= i < |values| ==> r[i] == values[i].x
  {
    if |values| == 0 then []
    else if values[0].Num? then [values[0].x] + Numbers(values[1..])
    else Numbers(values[1..])
  }

  /** The violations are exactly the non-numbers of the list. */
  lemma {:induction false} ViolationsMember(values: seq<Value>, v: Value)
    ensures v in Violations(values) <==> v in values && !v.Num?
  {
    if |values| > 0 {
      ViolationsMember(values[1..], v);
      assert values == [values[0]] + values[1..];
    }
  }

  /** The numbers kept are exactly the numeric values of the list. */
  lemma {:induction false} NumbersMember(values: seq<Value>, x: real)
    ensures x in Numbers(values) <==> Num(x) in values
  {
    if |values| > 0 {
      NumbersMember(values[1..], x);
      assert values == [values[0]] + values[1..];
    }
  }

  lemma {:induction false} NumbersAppend(xs: seq<Value>, ys: seq<Value>)
    ensures Numbers(xs + ys) == Numbers(xs) + Numbers(ys)
  {
    if |xs| > 0 {
      assert (xs + ys)[1..] == xs[1..] + ys;
      NumbersAppend(xs[1..], ys);
    } else {
      assert xs + ys == ys;
    }
  }
}

=== FILE: instructions.dfy ===
/** Folding aggregate instructions into a column -> operators dictionary
    (src/aggregation/instructions.ts). */
module Instructions {
  import opened Wrappers
  import opened Seqs
  import opened JsObjects
  import opened Handlers

  /** One operator applied to one column; summarize instructions have the same shape. */
  datatype Instruction = Instruction(column: string, operator: Operator)

  function Columns(instrs: seq<Instruction>): (r: seq<string>)
    ensures |r| == |instrs|
    ensures forall i :: 0 <= i < |r| ==> r[i] == instrs[i].column
  {
    if |instrs| == 0 then [] else Columns(instrs[..|instrs| - 1]) + [instrs[|instrs| - 1].column]
  }

  /** The operators of the instructions naming `column`, in input order, repeats included. */
  function OperatorsOf(instrs: seq<Instruction>, column: string): (r: seq<Operator>)
    ensures column !in Columns(instrs) ==> r == []
  {
    if |instrs| == 0 then []
    else
      var last := instrs[|instrs| - 1];
      var init := OperatorsOf(instrs[..|instrs| - 1], column);
      assert Columns(instrs) == Columns(instrs[..|instrs| - 1]) + [last.column];
      if last.column == column then init + [last.operator] else init
  }

  /** One step of the `reduce`: create the column's list if missing, push the operator if new. */
  function AddInstruction(acc: Object<seq<Operator>>, instr: Instruction): Object<seq<Operator>> {
    var ops := Get(acc, instr.column).GetOr([]);
    if instr.operator in ops then Set(acc, instr.column, ops)
    else Set(acc, instr.column, ops + [instr.operator])
  }

  /** `groupInstructionsByColumn`. Its keys are the instructed columns in first-appearance
      order, and each column's list holds that column's operators once each, in
      first-appearance order. */
  function GroupByColumn(instrs: seq<Instruction>): (r: Object<seq<Operator>>)
    ensures Valid(r)
    ensures Names(r) == DedupFront(Columns(instrs))
  {
    if |instrs| == 0 then Empty()
    else
      var init := instrs[..|instrs| - 1];
      var last := instrs[|instrs| - 1];
      var acc := GroupByColumn(init);
      assert Columns(instrs) == Columns(init) + [last.column];
      DedupFrontSnoc(Columns(init), last.column);
      DedupFrontMember(Columns(init), last.column);
      var ops := Get(acc, last.column).GetOr([]);
      SetNames(acc, last.column, ops);
      SetNames(acc, last.column, ops + [last.operator]);
      SetValid(acc, last.column, ops);
      SetValid(acc, last.column, ops + [last.operator]);
      AddInstruction(acc, last)
  }

  /** Each column's list holds that column's operators once each, in first-appearance order. */
  lemma {:induction false} GroupedList(instrs: seq<Instruction>, c: string)
    requires Get(GroupByColumn(instrs), c).Some?
    ensures Get(GroupByColumn(instrs), c).value == DedupFront(OperatorsOf(instrs, c))
  {
    var init := instrs[..|instrs| - 1];
    var last := instrs[|instrs| - 1];
    var acc := GroupByColumn(init);
    assert GroupByColumn(instrs) == AddInstruction(acc, last);
    if c != last.column {
      assert OperatorsOf(instrs, c) == OperatorsOf(init, c);
      GroupedList(init, c);
    } else {
      var prev := OperatorsOf(init, c);
      assert OperatorsOf(instrs, c) == prev + [last.operator];
      DedupFrontSnoc(prev, last.operator);
      if Get(acc, c).Some? {
        GroupedList(init, c);
        DedupFrontMember(prev, last.operator);
      } else {
        DedupFrontMember(Columns(init), c);
        assert c !in Columns(init);
        assert prev == [];
      }
    }
  }

  /** A column is a key exactly when some instruction names it. */
  lemma GroupedColumns(instrs: seq<Instruction>, c: string)
    ensures Get(GroupByColumn(instrs), c).Some? <==> exists i :: 0 <= i < |instrs| && instrs[i].column == c
  {
    var cols := Columns(instrs);
    DedupFrontMember(cols, c);
    if c in cols {
      var i :| 0 <= i < |cols| && cols[i] == c;
      assert instrs[i].column == c;
    }
  }

  lemma {:induction false} OperatorsOfMembers(instrs: seq<Instruction>, c: string, op: Operator)
    ensures op in OperatorsOf(instrs, c) <==> Instruction(c, op) in instrs
  {
    if |instrs| > 0 {
      var init := instrs[..|instrs| - 1];
      OperatorsOfMembers(init, c, op);
      assert instrs == init + [instrs[|instrs| - 1]];
    }
  }

  /** Every instruction's operator is listed under its column, and nothing else is. */
  lemma GroupedOperators(instrs: seq<Instruction>, c: string, op: Operator)
    requires Get(GroupByColumn(instrs), c).Some?
    ensures op in Get(GroupByColumn(instrs), c).value <==> Instruction(c, op) in instrs
    ensures NoDup(Get(GroupByColumn(instrs), c).value)
  {
    GroupedList(instrs, c);
    OperatorsOfMembers(instrs, c, op);
    var ops := OperatorsOf(instrs, c);
    DedupFrontMember(ops, op);
  }

  /** Repeating an instruction changes nothing. */
  lemma DuplicateInstructionIgnored(instrs: seq<Instruction>, i: nat)
    requires i < |instrs|
    ensures GroupByColumn(instrs + [instrs[i]]) == GroupByColumn(instrs)
  {
    var x := instrs[i];
    var all := instrs + [x];
    assert all[..|all| - 1] == instrs;
    var acc := GroupByColumn(instrs);
    GroupedColumns(instrs, x.column);
    GroupedOperators(instrs, x.column, x.operator);
    var ops := Get(acc, x.column).value;
    assert x.operator in ops;
    SetExistingSame(acc, x.column, ops);
  }

  lemma SetExistingSame<V>(o: Object<V>, k: string, v: V)
    requires Valid(o) && Get(o, k) == Some(v)
    ensures Set(o, k, v) == o
  {
    SetSameEntries(o.entries, k, v);
  }

  lemma {:induction false} SetSameEntries<V>(es: seq<(string, V)>, k: string, v: V)
    requires Find(es, k) == Some(v)
    ensures SetEntries(es, k, v) == es
  {
    if es[0].0 != k {
      SetSameEntries(es[1..], k, v);
    }
  }
}

=== FILE: jsobjects.dfy ===
/** Plain JavaScript objects used as string-keyed dictionaries (`{} as {[k: string]: V}`).
    Entries are kept in insertion order; enumeration (`Object.keys`, `Object.values`,
    `Object.entries`) follows the language's own-property order: keys that are array
    indices ("0", "7", "2024") come first in ascending numeric order, then every other
    key in insertion order. Prototype properties (`"toString" in {}`) are not modelled. */
module JsObjects {
  import opened Wrappers
  import opened Seqs
  import opened Sorting

  datatype Object<V> = Object(entries: seq<(string, V)>)

  function Empty<V>(): Object<V> {
    Object([])
  }

  function Fst<V>(es: seq<(string, V)>): (r: seq<string>)
    ensures |r| == |es|
    ensures forall i :: 0 <= i < |r| ==> r[i] == es[i].0
  {
    if |es| == 0 then [] else [es[0].0] + Fst(es[1..])
  }

  /** Keys in insertion order. */
  function Names<V>(o: Object<V>): (r: seq<string>)
    ensures |r| == |o.entries|
    ensures forall i :: 0 <= i < |r| ==> r[i] == o.entries[i].0
  {
    Fst(o.entries)
  }

  predicate Valid<V>(o: Object<V>) {
    NoDup(Names(o))
  }

  function Find<V>(es: seq<(string, V)>, k: string): (r: Option<V>)
    ensures r.None? <==> forall i :: 0 <= i < |es| ==> es[i].0 != k
    ensures r.Some? ==> (k, r.value) in es
  {
    if |es| == 0 then None
    else if es[0].0 == k then Some(es[0].1)
    else Find(es[1..], k)
  }

  /** `o[k]`, with `None` for `undefined`. */
  function Get<V>(o: Object<V>, k: string): (r: Option<V>)
    ensures r.Some? <==> k in Names(o)
  {
    Find(o.entries, k)
  }

  lemma GetEntry<V>(o: Object<V>, i: nat)
    requires Valid(o) && i < |o.entries|
    ensures Get(o, o.entries[i].0) == Some(o.entries[i].1)
  {
    FindAt(o.entries, i);
  }

  lemma {:induction false} FindAt<V>(es: seq<(string, V)>, i: nat)
    requires i < |es|
    requires forall a, b :: 0 <= a < b < |es| ==> es[a].0 != es[b].0
    ensures Find(es, es[i].0) == Some(es[i].1)
  {
    if i > 0 {
      FindAt(es[1..], i - 1);
    }
  }

  function SetEntries<V>(es: seq<(string, V)>, k: string, v: V): (r: seq<(string, V)>)
  {
    if |es| == 0 then [(k, v)]
    else if es[0].0 == k then [(k, v)] + es[1..]
    else [es[0]] + SetEntries(es[1..], k, v)
  }

  lemma {:induction false} SetEntriesFind<V>(es: seq<(string, V)>, k: string, v: V)
    ensures Find(SetEntries(es, k, v), k) == Some(v)
    ensures forall k' :: k' != k ==> Find(SetEntries(es, k, v), k') == Find(es, k')
  {
    if |es| > 0 && es[0].0 != k {
      SetEntriesFind(es[1..], k, v);
    }
  }

  lemma {:induction false} SetEntriesNames<V>(es: seq<(string, V)>, k: string, v: V)
    ensures Fst(SetEntries(es, k, v)) == if k in Fst(es) then Fst(es) else Fst(es) + [k]
  {
    if |es| > 0 {
      assert Fst(es) == [es[0].0] + Fst(es[1..]);
      if es[0].0 != k {
        SetEntriesNames(es[1..], k, v);
        assert k in Fst(es) <==> k in Fst(es[1..]);
      }
    }
  }

  /** `o[k] = v`: an existing key keeps its position, a new key is appended. */
  function Set<V>(o: Object<V>, k: string, v: V): (r: Object<V>)
    ensures Get(r, k) == Some(v)
    ensures forall k' :: k' != k ==> Get(r, k') == Get(o, k')
  {
    SetEntriesFind(o.entries, k, v);
    Object(SetEntries(o.entries, k, v))
  }

  /** An existing key keeps its place in insertion order; a new key goes last. */
  lemma SetNames<V>(o: Object<V>, k: string, v: V)
    ensures Names(Set(o, k, v)) == if k in Names(o) then Names(o) else Names(o) + [k]
  {
    SetEntriesNames(o.entries, k, v);
  }

  /** Assignment never creates a second entry for a key. */
  lemma SetValid<V>(o: Object<V>, k: string, v: V)
    requires Valid(o)
    ensures Valid(Set(o, k, v))
  {
    SetNames(o, k, v);
  }

  predicate IsDigit(c: char) {
    '0' <= c <= '9'
  }

  function DigitsValue(s: string): nat
    requires forall i :: 0 <= i < |s| ==> IsDigit(s[i])
  {
    if |s| == 0 then 0
    else
      var d := s[|s| - 1] as int - '0' as int;
      assert IsDigit(s[|s| - 1]);
      10 * DigitsValue(s[..|s| - 1]) + d
  }

  /** An array index is the canonical decimal form of an integer below 2^32 - 1. */
  predicate IsArrayIndex(k: string) {
    && |k| > 0
    && (forall i :: 0 <= i < |k| ==> IsDigit(k[i]))
    && (k[0] != '0' || |k| == 1)
    && DigitsValue(k) < 0xFFFF_FFFF
  }

  /** The numeric value of an array-index key; other keys do not take part in sorting. */
  function IndexValue(k: string): nat {
    if IsArrayIndex(k) then DigitsValue(k) else 0
  }

  /** The entries whose key is an array index, in insertion order. */
  function IndexEntries<V>(es: seq<(string, V)>): (r: seq<(string, V)>)
    ensures forall i :: 0 <= i < |r| ==> IsArrayIndex(r[i].0)
  {
    if |es| == 0 then []
    else if IsArrayIndex(es[0].0) then [es[0]] + IndexEntries(es[1..])
    else IndexEntries(es[1..])
  }

  /** The entries whose key is not an array index, in insertion order. */
  function OtherEntries<V>(es: seq<(string, V)>): (r: seq<(string, V)>)
    ensures forall i :: 0 <= i < |r| ==> !IsArrayIndex(r[i].0)
  {
    if |es| == 0 then []
    else if IsArrayIndex(es[0].0) then OtherEntries(es[1..])
    else [es[0]] + OtherEntries(es[1..])
  }

  lemma {:induction false} EntriesPartition<V>(es: seq<(string, V)>)
    ensures multiset(IndexEntries(es)) + multiset(OtherEntries(es)) == multiset(es)
  {
    if |es| > 0 {
      EntriesPartition(es[1..]);
      assert es == [es[0]] + es[1..];
    }
  }

  /** Entries in enumeration order: array-index keys ascending, then the rest in insertion order. */
  function OrderedEntries<V>(o: Object<V>): (r: seq<(string, V)>)
    ensures multiset(r) == multiset(o.entries)
    ensures |r| == |o.entries|
    ensures forall i, j :: 0 <= i < j < |r| && IsArrayIndex(r[j].0) ==>
      IsArrayIndex(r[i].0) && IndexValue(r[i].0) <= IndexValue(r[j].0)
  {
    var idx := IndexEntries(o.entries);
    var other := OtherEntries(o.entries);
    EntriesPartition(o.entries);
    var sorted := SortBy(idx, (e: (string, V)) => IndexValue(e.0) as real);
    EnumerationOrder(idx, sorted, other);
    assert multiset(sorted + other) == multiset(o.entries);
    assert |sorted + other| == |multiset(sorted + other)|;
    sorted + other
  }

  lemma EnumerationOrder<V>(idx: seq<(string, V)>, sorted: seq<(string, V)>, other: seq<(string, V)>)
    requires forall i :: 0 <= i < |idx| ==> IsArrayIndex(idx[i].0)
    requires forall i :: 0 <= i < |other| ==> !IsArrayIndex(other[i].0)
    requires multiset(sorted) == multiset(idx)
    requires SortedBy(sorted, (e: (string, V)) => IndexValue(e.0) as real)
    ensures var r := sorted + other;
      forall i, j :: 0 <= i < j < |r| && IsArrayIndex(r[j].0) ==>
        IsArrayIndex(r[i].0) && IndexValue(r[i].0) <= IndexValue(r[j].0)
  {
    forall i | 0 <= i < |sorted|
      ensures IsArrayIndex(sorted[i].0)
    {
      assert sorted[i] in multiset(idx);
    }
    var r := sorted + other;
    forall i, j | 0 <= i < j < |r| && IsArrayIndex(r[j].0)
      ensures IsArrayIndex(r[i].0) && IndexValue(r[i].0) <= IndexValue(r[j].0)
    {
      if j < |sorted| {
        assert r[i] == sorted[i] && r[j] == sorted[j];
      }
    }
  }

  /** `Object.keys(o)`. */
  function Keys<V>(o: Object<V>): (r: seq<string>)
    ensures |r| == |o.entries|
    ensures forall i :: 0 <= i < |r| ==> r[i] == OrderedEntries(o)[i].0
  {
    var es := OrderedEntries(o);
    seq(|es|, i requires 0 <= i < |es| => es[i].0)
  }

  /** `Object.values(o)`, aligned with `Keys(o)`. */
  function Values<V>(o: Object<V>): (r: seq<V>)
    ensures |r| == |o.entries|
    ensures forall i :: 0 <= i < |r| ==> r[i] == OrderedEntries(o)[i].1
  {
    var es := OrderedEntries(o);
    seq(|es|, i requires 0 <= i < |es| => es[i].1)
  }

  /** Enumeration lists every key exactly as often as insertion order does. */
  lemma KeysAreNames<V>(o: Object<V>)
    ensures forall k :: k in Keys(o) <==> k in Names(o)
  {
    var es := OrderedEntries(o);
    forall k
      ensures k in Keys(o) <==> k in Names(o)
    {
      if k in Keys(o) {
        var i :| 0 <= i < |es| && es[i].0 == k;
        assert es[i] in multiset(o.entries);
        var j :| 0 <= j < |o.entries| && o.entries[j] == es[i];
        assert Names(o)[j] == k;
      }
      if k in Names(o) {
        var j :| 0 <= j < |o.entries| && o.entries[j].0 == k;
        assert o.entries[j] in multiset(es);
        var i :| 0 <= i < |es| && es[i] == o.entries[j];
        assert Keys(o)[i] == k;
      }
    }
  }

  /** Without array-index keys, enumeration order is insertion order. */
  lemma KeysWithoutIndicesAreNames<V>(o: Object<V>)
    requires forall i :: 0 <= i < |o.entries| ==> !IsArrayIndex(o.entries[i].0)
    ensures OrderedEntries(o) == o.entries
    ensures Keys(o) == Names(o)
  {
    NoIndexEntries(o.entries);
  }

  lemma {:induction false} NoIndexEntries<V>(es: seq<(string, V)>)
    requires forall i :: 0 <= i < |es| ==> !IsArrayIndex(es[i].0)
    ensures IndexEntries(es) == [] && OtherEntries(es) == es
  {
    if |es| > 0 {
      NoIndexEntries(es[1..]);
    }
  }

  /** Every stored value is enumerated by `Object.values`, aligned with its key. */
  lemma ValueListed<V>(o: Object<V>, k: string)
    requires Valid(o) && Get(o, k).Some?
    ensures exists i :: 0 <= i < |Values(o)| && Keys(o)[i] == k && Values(o)[i] == Get(o, k).value
  {
    var j :| 0 <= j < |o.entries| && Names(o)[j] == k;
    GetEntry(o, j);
    var es := OrderedEntries(o);
    assert o.entries[j] in multiset(es);
    var i :| 0 <= i < |es| && es[i] == o.entries[j];
    assert Keys(o)[i] == k && Values(o)[i] == Get(o, k).value;
  }

  /** Every enumerated value is the one stored under its key. */
  lemma ListedValue<V>(o: Object<V>, i: nat)
    requires Valid(o) && i < |Values(o)|
    ensures Get(o, Keys(o)[i]) == Some(Values(o)[i])
  {
    var es := OrderedEntries(o);
    assert es[i] in multiset(o.entries);
    var j :| 0 <= j < |o.entries| && o.entries[j] == es[i];
    GetEntry(o, j);
  }

  /** The entries of a dictionary given two distinct keys, in assignment order. */
  lemma TwoKeyEntries<V>(a: string, va: V, b: string, vb: V)
    requires a != b
    ensures Set(Set(Empty(), a, va), b, vb).entries == [(a, va), (b, vb)]
  {
    assert SetEntries([], a, va) == [(a, va)];
    assert SetEntries([(a, va)], b, vb) == [(a, va)] + SetEntries([], b, vb);
  }

  lemma YearIsArrayIndex()
    ensures IsArrayIndex("2024") && IndexValue("2024") == 2024
  {
    assert "2024"[..3] == "202" && "202"[..2] == "20" && "20"[..1] == "2" && "2"[..0] == "";
  }

  lemma NameIsNotArrayIndex()
    ensures !IsArrayIndex("Name")
  {
    assert !IsDigit("Name"[0]);
  }

  /** Two entries, only the second keyed by an array index, enumerate second-first. */
  lemma IndexEntryFirst<V>(o: Object<V>, a: (string, V), b: (string, V))
    requires o.entries == [a, b]
    requires !IsArrayIndex(a.0) && IsArrayIndex(b.0)
    ensures OrderedEntries(o) == [b, a]
  {
    var r := OrderedEntries(o);
    assert multiset(r) == multiset{a, b};
    assert r == [r[0], r[1]];
    assert r[0] in multiset(r) && r[1] in multiset(r);
    assert r[0] == b;
    assert multiset{r[1]} == multiset(r) - multiset{r[0]};
  }

  /** The keys of such a dictionary list the array index first. */
  lemma IndexKeyFirst<V>(o: Object<V>, a: (string, V), b: (string, V))
    requires o.entries == [a, b]
    requires !IsArrayIndex(a.0) && IsArrayIndex(b.0)
    ensures Keys(o) == [b.0, a.0]
  {
    IndexEntryFirst(o, a, b);
  }

  /** A key inserted after another is still enumerated before it when it is an array
      index and the other is not: "2024" is listed before "Name". */
  lemma NumericKeyEnumeratedFirst()
    ensures Keys(Set(Set(Empty<int>(), "Name", 0), "2024", 1)) == ["2024", "Name"]
  {
    TwoKeyEntries("Name", 0, "2024", 1);
    YearIsArrayIndex();
    NameIsNotArrayIndex();
    IndexKeyFirst(Set(Set(Empty<int>(), "Name", 0), "2024", 1), ("Name", 0), ("2024", 1));
  }
}

=== FILE: seqs.dfy ===
/** Generic sequence helpers: filtering, and de-duplication that keeps first occurrences. */
module Seqs {

  predicate NoDup<T(==)>(xs: seq<T>) {
    forall i, j :: 0 <= i < j < |xs| ==> xs[i] != xs[j]
  }

  /** The elements of `xs` satisfying `p`, in their original order. */
  function Filter<T>(xs: seq<T>, p: T -> bool): (r: seq<T>)
    ensures |r| <= |xs|
    ensures forall i :: 0 <= i < |r| ==> p(r[i])
  {
    if |xs| == 0 then []
    else if p(xs[0]) then [xs[0]] + Filter(xs[1..], p)
    else Filter(xs[1..], p)
  }

  /** Filtering keeps exactly the elements that satisfy the test. */
  lemma {:induction false} FilterMember<T>(xs: seq<T>, p: T -> bool, x: T)
    ensures x in Filter(xs, p) <==> x in xs && p(x)
  {
    if |xs| > 0 {
      FilterMember(xs[1..], p, x);
      assert xs == [xs[0]] + xs[1..];
    }
  }

  lemma FilterAppend<T>(xs: seq<T>, ys: seq<T>, p: T -> bool)
    ensures Filter(xs + ys, p) == Filter(xs, p) + Filter(ys, p)
  {
    if |xs| > 0 {
      assert (xs + ys)[1..] == xs[1..] + ys;
      FilterAppend(xs[1..], ys, p);
    } else {
      assert xs + ys == ys;
    }
  }

  /** Keeps the first occurrence of every element, in order of first appearance:
      the head is kept, and every later copy of it is filtered out before recursing. */
  function DedupFront<T(==)>(xs: seq<T>): (r: seq<T>)
    ensures |r| <= |xs|
    ensures NoDup(r)
    decreases |xs|, 1
  {
    if |xs| == 0 then []
    else
      var x := xs[0];
      var f := Filter(xs[1..], y => y != x);
      var rest := DedupFront(f);
      DedupFrontMember(f, x);
      FilterMember(xs[1..], y => y != x, x);
      [x] + rest
  }

  /** De-duplication keeps exactly the elements of its input. */
  lemma {:induction false} DedupFrontMember<T>(xs: seq<T>, x: T)
    ensures x in DedupFront(xs) <==> x in xs
    decreases |xs|, 2
  {
    if |xs| > 0 {
      var y := xs[0];
      var p := (z: T) => z != y;
      var f := Filter(xs[1..], p);
      DedupFrontMember(f, x);
      FilterMember(xs[1..], p, x);
      assert DedupFront(xs) == [y] + DedupFront(f);
      assert xs == [y] + xs[1..];
    }
  }

  /** Appending to the input either leaves the de-duplication unchanged (the element
      was seen before) or appends it at the end: this is what every left fold in the
      source that "pushes when not already included" computes. */
  lemma {:induction false} DedupFrontSnoc<T>(xs: seq<T>, x: T)
    ensures DedupFront(xs + [x]) == if x in xs then DedupFront(xs) else DedupFront(xs) + [x]
    decreases |xs|
  {
    if |xs| == 0 {
      assert xs + [x] == [x];
      assert Filter([x][1..], y => y != x) == [];
    } else {
      var y := xs[0];
      var p := (z: T) => z != y;
      assert (xs + [x])[0] == y;
      assert (xs + [x])[1..] == xs[1..] + [x];
      FilterAppend(xs[1..], [x], p);
      var f := Filter(xs[1..], p);
      if x == y {
        assert Filter([x], p) == [];
        assert f + [] == f;
      } else {
        assert Filter([x], p) == [x];
        DedupFrontSnoc(f, x);
        FilterMember(xs[1..], p, x);
        assert xs == [y] + xs[1..];
      }
    }
  }

  /** A sequence without repeats is its own de-duplication. */
  lemma {:induction false} DedupFrontNoDup<T>(xs: seq<T>)
    requires NoDup(xs)
    ensures DedupFront(xs) == xs
    decreases |xs|
  {
    if |xs| > 0 {
      var init := xs[..|xs| - 1];
      var last := xs[|xs| - 1];
      assert xs == init + [last];
      assert last !in init;
      DedupFrontNoDup(init);
      DedupFrontSnoc(init, last);
    }
  }

  /** The first index at which `x` occurs in `xs`. */
  function IndexOf<T(==)>(xs: seq<T>, x: T): (i: nat)
    requires x in xs
    ensures i < |xs| && xs[i] == x
    ensures forall j :: 0 <= j < i ==> xs[j] != x
  {
    if xs[0] == x then 0 else 1 + IndexOf(xs[1..], x)
  }

  /** Appending leaves the first index of an element already present unchanged. */
  lemma IndexOfSnoc<T>(xs: seq<T>, y: T, x: T)
    requires x in xs
    ensures IndexOf(xs + [y], x) == IndexOf(xs, x)
  {
    var i := IndexOf(xs + [y], x);
    var j := IndexOf(xs, x);
    assert (xs + [y])[j] == x;
    assert forall l :: 0 <= l < j ==> (xs + [y])[l] == xs[l];
  }

  /** An element appended for the first time is found at the end. */
  lemma IndexOfLast<T>(xs: seq<T>, x: T)
    requires x !in xs
    ensures IndexOf(xs + [x], x) == |xs|
  {
    assert forall l :: 0 <= l < |xs| ==> (xs + [x])[l] == xs[l];
  }

  /** A non-empty sequence is its prefix followed by its last element. */
  lemma SnocSplit<T>(xs: seq<T>)
    requires |xs| > 0
    ensures xs == xs[..|xs| - 1] + [xs[|xs| - 1]]
  {
  }

  /** The last index at which `x` occurs in `xs`. */
  function LastIndexOf<T(==)>(xs: seq<T>, x: T): (i: nat)
    requires x in xs
    ensures i < |xs| && xs[i] == x
    ensures forall j :: i < j < |xs| ==> xs[j] != x
  {
    var n := |xs| - 1;
    if xs[n] == x then n
    else
      assert x in xs[..n] by {
        var k :| 0 <= k < |xs| && xs[k] == x;
        assert xs[..n][k] == x;
      }
      LastIndexOf(xs[..n], x)
  }

  /** The elements of `xs` appear with non-decreasing `key`. */
  predicate MonotoneBy<T>(xs: seq<T>, key: T -> int) {
    forall i, j :: 0 <= i < j < |xs| ==> key(xs[i]) <= key(xs[j])
  }

  /** Filtering keeps the order of what it keeps. */
  lemma {:induction false} FilterMonotone<T>(xs: seq<T>, p: T -> bool, key: T -> int)
    requires MonotoneBy(xs, key)
    ensures MonotoneBy(Filter(xs, p), key)
  {
    if |xs| > 0 {
      FilterMonotone(xs[1..], p, key);
      var f := Filter(xs[1..], p);
      forall j | 0 <= j < |f|
        ensures key(xs[0]) <= key(f[j])
      {
        FilterMember(xs[1..], p, f[j]);
      }
    }
  }

  /** De-duplication keeps the order of what it keeps. */
  lemma {:induction false} DedupFrontMonotone<T>(xs: seq<T>, key: T -> int)
    requires MonotoneBy(xs, key)
    ensures MonotoneBy(DedupFront(xs), key)
    decreases |xs|
  {
    if |xs| > 0 {
      var x := xs[0];
      var p := (z: T) => z != x;
      var f := Filter(xs[1..], p);
      FilterMonotone(xs[1..], p, key);
      DedupFrontMonotone(f, key);
      var d := DedupFront(f);
      assert DedupFront(xs) == [x] + d;
      forall j | 0 <= j < |d|
        ensures key(x) <= key(d[j])
      {
        DedupFrontMember(f, d[j]);
        FilterMember(xs[1..], p, d[j]);
      }
    }
  }

  lemma ConcatAssoc<T>(a: seq<T>, b: seq<T>, c: seq<T>)
    ensures a + (b + c) == (a + b) + c
  {
  }
}

=== FILE: sorting.dfy ===
/** Stable insertion sort by a numeric key: the model of `Array.prototype.sort` with a
    numeric comparator (`(a, b) => a - b`) on arrays whose keys are never NaN. */
module Sorting {

  predicate SortedBy<T>(xs: seq<T>, key: T -> real) {
    forall i, j :: 0 <= i < j < |xs| ==> key(xs[i]) <= key(xs[j])
  }

  /** Stable insertion into a sequence sorted by `key`. */
  function InsertBy<T>(x: T, xs: seq<T>, key: T -> real): (r: seq<T>)
    requires SortedBy(xs, key)
    ensures SortedBy(r, key)
    ensures multiset(r) == multiset(xs) + multiset{x}
  {
    if |xs| == 0 then [x]
    else if key(x) <= key(xs[0]) then
      InsertFront(x, xs, key);
      [x] + xs
    else
      var rest := InsertBy(x, xs[1..], key);
      InsertBehind(x, xs, key, rest);
      [xs[0]] + rest
  }

  lemma InsertFront<T>(x: T, xs: seq<T>, key: T -> real)
    requires SortedBy(xs, key) && |xs| > 0 && key(x) <= key(xs[0])
    ensures SortedBy([x] + xs, key)
  {
    var r := [x] + xs;
    forall i, j | 0 <= i < j < |r|
      ensures key(r[i]) <= key(r[j])
    {
      assert r[j] == xs[j - 1];
      if i > 0 {
        assert r[i] == xs[i - 1];
      } else {
        assert key(xs[0]) <= key(xs[j - 1]);
      }
    }
  }

  lemma InsertBehind<T>(x: T, xs: seq<T>, key: T -> real, rest: seq<T>)
    requires |xs| > 0 && SortedBy(xs, key) && key(xs[0]) < key(x)
    requires SortedBy(rest, key) && multiset(rest) == multiset(xs[1..]) + multiset{x}
    ensures SortedBy([xs[0]] + rest, key)
    ensures multiset([xs[0]] + rest) == multiset(xs) + multiset{x}
  {
    forall i | 0 <= i < |rest|
      ensures key(xs[0]) <= key(rest[i])
    {
      assert rest[i] in multiset(rest);
      if rest[i] != x {
        assert rest[i] in multiset(xs[1..]);
        var k :| 0 <= k < |xs[1..]| && xs[1..][k] == rest[i];
        assert xs[k + 1] == rest[i];
      }
    }
    var r := [xs[0]] + rest;
    forall i, j | 0 <= i < j < |r|
      ensures key(r[i]) <= key(r[j])
    {
      assert r[j] == rest[j - 1];
      if i > 0 {
        assert r[i] == rest[i - 1];
      }
    }
    assert xs == [xs[0]] + xs[1..];
  }

  /** Insertion sort by `key`, as the source's `Array.prototype.sort` with a numeric comparator. */
  function SortBy<T>(xs: seq<T>, key: T -> real): (r: seq<T>)
    ensures SortedBy(r, key)
    ensures multiset(r) == multiset(xs)
  {
    if |xs| == 0 then []
    else
      assert xs == [xs[0]] + xs[1..];
      InsertBy(xs[0], SortBy(xs[1..], key), key)
  }
}

=== FILE: spans.dfy ===
/** Span expansion (`expandColspanRowspan`, src/utils/html/tables.ts): every row of the
    table, header and body alike, is laid into one matrix; each cell takes the first free
    column at or after a running cursor and is copied into every position it spans. Each
    row is then rebuilt from its matrix row, one copy per filled position, in column order.

    A matrix row is a sequence of slots, `None` standing for a hole of the source's
    sparse arrays (which `forEach` skips). */
module Spans {
  import opened Wrappers
  import opened Values

  /** A source cell: its text, and its `colspan` and `rowspan` attributes as numbers
      (`None` when the attribute is absent or empty). Copies keep the attributes. */
  datatype SourceCell = SourceCell(text: string, colspan: Option<nat>, rowspan: Option<nat>)

  /** `Number(attribute || 1)`: an absent attribute counts as 1. */
  function Span(attr: Option<nat>): (n: nat)
    ensures attr.None? ==> n == 1
  {
    match attr
    case None => 1
    case Some(n) => n
  }

  type Slot = Option<SourceCell>
  type Grid = seq<seq<Slot>>

  /** The slot at row `i`, column `j`; outside the grid, a hole. */
  function At(g: Grid, i: nat, j: nat): Slot {
    if i < |g| && j < |g[i]| then g[i][j] else None
  }

  /** The holes a sparse array gains when written past its end. */
  function Holes(n: nat): (r: seq<Slot>)
    ensures |r| == n && forall j :: 0 <= j < n ==> r[j].None?
  {
    seq(n, _ => None)
  }

  /** `matrix[r][c] = cell`, creating the row and padding with holes as needed. */
  function Put(g: Grid, r: nat, c: nat, cell: SourceCell): (g2: Grid)
    ensures |g2| == if r < |g| then |g| else r + 1
  {
    var g1 := Pad(g, r);
    var row := g1[r];
    g1[r := if c < |row| then row[c := Some(cell)] else row + Holes(c - |row|) + [Some(cell)]]
  }

  /** `matrix[r] = matrix[r] || []`, for a row at or past the end. */
  function Pad(g: Grid, r: nat): (g2: Grid)
    ensures |g2| == if r < |g| then |g| else r + 1
    ensures forall i: nat, j: nat :: At(g2, i, j) == At(g, i, j)
    ensures r < |g| ==> g2 == g
  {
    if r < |g| then g else g + seq(r + 1 - |g|, _ => [])
  }

  /** The inner loop over `c < colspan` on row `r`: columns `col .. col + cs - 1`. */
  function PlaceLine(g: Grid, r: nat, col: nat, cs: nat, cell: SourceCell): (g2: Grid)
    ensures |g2| == if cs > 0 && r >= |g| then r + 1 else |g|
  {
    if cs == 0 then g
    else Put(PlaceLine(g, r, col, cs - 1, cell), r, col + cs - 1, cell)
  }

  /** Both loops: rows `row .. row + rs - 1`, each over columns `col .. col + cs - 1`. */
  function PlaceRect(g: Grid, row: nat, col: nat, rs: nat, cs: nat, cell: SourceCell): (g2: Grid)
    ensures |g2| == if rs > 0 && cs > 0 && row + rs > |g| then row + rs else |g|
  {
    if rs == 0 then g
    else PlaceLine(PlaceRect(g, row, col, rs - 1, cs, cell), row + rs - 1, col, cs, cell)
  }

  /** A write changes the one position written and no other. */
  lemma PutAt(g: Grid, r: nat, c: nat, cell: SourceCell, i: nat, j: nat)
    ensures At(Put(g, r, c, cell), i, j) == if i == r && j == c then Some(cell) else At(g, i, j)
  {
    assert At(Pad(g, r), i, j) == At(g, i, j);
  }

  /** A line of copies fills columns `col .. col + cs - 1` of row `r` and nothing else. */
  lemma {:induction false} PlaceLineAt(g: Grid, r: nat, col: nat, cs: nat, cell: SourceCell, i: nat, j: nat)
    ensures At(PlaceLine(g, r, col, cs, cell), i, j) ==
            if i == r && col <= j < col + cs then Some(cell) else At(g, i, j)
  {
    if cs > 0 {
      PlaceLineAt(g, r, col, cs - 1, cell, i, j);
      PutAt(PlaceLine(g, r, col, cs - 1, cell), r, col + cs - 1, cell, i, j);
    }
  }

  /** A spanning cell fills exactly the rectangle it spans; every other position keeps
      what it held. */
  lemma {:induction false} PlaceRectAt(g: Grid, row: nat, col: nat, rs: nat, cs: nat, cell: SourceCell, i: nat, j: nat)
    ensures At(PlaceRect(g, row, col, rs, cs, cell), i, j) ==
            if row <= i < row + rs && col <= j < col + cs then Some(cell) else At(g, i, j)
  {
    if rs > 0 {
      PlaceRectAt(g, row, col, rs - 1, cs, cell, i, j);
      PlaceLineAt(PlaceRect(g, row, col, rs - 1, cs, cell), row + rs - 1, col, cs, cell, i, j);
    }
  }

  /** `while (matrix[rowIdx][colIdx]) colIdx++`: the first free column at or after `c`. */
  function FirstFree(row: seq<Slot>, c: nat): (f: nat)
    ensures c <= f && (f >= |row| || row[f].None?)
    ensures forall j :: c <= j < f ==> j < |row| && row[j].Some?
    decreases |row| - c
  {
    if c < |row| && row[c].Some? then
      var next := FirstFree(row, c + 1);
      assert c + 1 <= next;
      next
    else c
  }

  /** The cells of row `rowIdx` from the cursor `col` on. */
  function PlaceCells(g: Grid, rowIdx: nat, cells: seq<SourceCell>, col: nat): (g2: Grid)
    requires rowIdx < |g|
    ensures |g2| >= |g|
    decreases |cells|
  {
    if |cells| == 0 then g
    else
      var start := FirstFree(g[rowIdx], col);
      var cell := cells[0];
      var g1 := PlaceRect(g, rowIdx, start, Span(cell.rowspan), Span(cell.colspan), cell);
      PlaceCells(g1, rowIdx, cells[1..], start + Span(cell.colspan))
  }

  /** `matrix[rowIdx] = matrix[rowIdx] || []`. */
  function EnsureRow(g: Grid, rowIdx: nat): (g2: Grid)
    requires rowIdx <= |g|
    ensures |g2| == if rowIdx < |g| then |g| else rowIdx + 1
    ensures forall i :: 0 <= i < |g| ==> g2[i] == g[i]
  {
    if rowIdx < |g| then g else g + [[]]
  }

  /** The rows `rowIdx ..` laid into the matrix in order. */
  function BuildFrom(g: Grid, rows: seq<seq<SourceCell>>, rowIdx: nat): (g2: Grid)
    requires rowIdx <= |rows| && rowIdx <= |g|
    ensures |g2| >= |rows| && |g2| >= |g|
    decreases |rows| - rowIdx
  {
    if rowIdx == |rows| then g
    else BuildFrom(PlaceCells(EnsureRow(g, rowIdx), rowIdx, rows[rowIdx], 0), rows, rowIdx + 1)
  }

  /** The matrix of a whole table. */
  function Matrix(rows: seq<seq<SourceCell>>): (m: Grid)
    ensures |m| >= |rows|
  {
    BuildFrom([], rows, 0)
  }

  /** The cells of a matrix row in column order, holes skipped. */
  function Filled(row: seq<Slot>): (r: seq<SourceCell>)
    ensures |r| <= |row|
  {
    if |row| == 0 then []
    else
      var last := row[|row| - 1];
      Filled(row[..|row| - 1]) + (if last.Some? then [last.value] else [])
  }

  /** `expandColspanRowspan(table)`: the rows afterwards. A matrix row below the last
      table row has no row element to rebuild, and the rebuild throws there.
      `ExpandRows` is the source's loops proved equal to it; `ExpandFailsIffOverflow`,
      `ExpandUnitSpans` and `SpillExpand` say what it does. */
  function Expand(rows: seq<seq<SourceCell>>): (r: Result<seq<seq<SourceCell>>, Error>)
    ensures r.Ok? <==> |Matrix(rows)| == |rows|
    ensures r.Ok? ==> |r.value| == |rows| && forall i :: 0 <= i < |rows| ==> r.value[i] == Filled(Matrix(rows)[i])
    ensures r.Err? ==> r.error == RowspanOverflow
  {
    var m := Matrix(rows);
    if |m| > |rows| then Err(RowspanOverflow)
    else Ok(seq(|m|, i requires 0 <= i < |m| => Filled(m[i])))
  }

  /** The cells of a matrix row, in order, are exactly its filled slots. */
  lemma {:induction false} FilledMember(row: seq<Slot>, c: SourceCell)
    ensures c in Filled(row) <==> Some(c) in row
  {
    if |row| > 0 {
      var init := row[..|row| - 1];
      FilledMember(init, c);
      assert row == init + [row[|row| - 1]];
    }
  }

  /** `while (matrix[rowIdx][colIdx]) colIdx++`. */
  method SkipOccupied(row: seq<Slot>, c: nat) returns (f: nat)
    ensures f == FirstFree(row, c)
  {
    f := c;
    while f < |row| && row[f].Some?
      invariant FirstFree(row, f) == FirstFree(row, c)
      decreases |row| - f
    {
      f := f + 1;
    }
  }

  /** The two nested `for` loops copying one cell over the rectangle it spans. */
  method LayCell(matrix: Grid, rowIdx: nat, colIdx: nat, cell: SourceCell) returns (m: Grid)
    ensures m == PlaceRect(matrix, rowIdx, colIdx, Span(cell.rowspan), Span(cell.colspan), cell)
  {
    var colspan := Span(cell.colspan);
    var rowspan := Span(cell.rowspan);
    m := matrix;
    var r := 0;
    while r < rowspan
      invariant r <= rowspan
      invariant m == PlaceRect(matrix, rowIdx, colIdx, r, colspan, cell)
    {
      ghost var above := m;
      var c := 0;
      while c < colspan
        invariant c <= colspan
        invariant m == PlaceLine(above, rowIdx + r, colIdx, c, cell)
      {
        m := Put(m, rowIdx + r, colIdx + c, cell);
        c := c + 1;
      }
      r := r + 1;
    }
  }

  /** `cells.forEach(...)` for one row, the cursor starting at column 0. */
  method LayRow(matrix: Grid, rowIdx: nat, cells: seq<SourceCell>) returns (m: Grid)
    requires rowIdx < |matrix|
    ensures m == PlaceCells(matrix, rowIdx, cells, 0)
  {
    m := matrix;
    var colIdx: nat := 0;
    var k := 0;
    while k < |cells|
      invariant k <= |cells| && rowIdx < |m|
      invariant PlaceCells(m, rowIdx, cells[k..], colIdx) == PlaceCells(matrix, rowIdx, cells, 0)
    {
      var cell := cells[k];
      colIdx := SkipOccupied(m[rowIdx], colIdx);
      m := LayCell(m, rowIdx, colIdx, cell);
      assert cells[k..][1..] == cells[k + 1..];
      colIdx := colIdx + Span(cell.colspan);
      k := k + 1;
    }
    assert cells[k..] == [];
  }

  /** `rowCells.forEach(...)`: one clone per filled slot, holes skipped. */
  method RebuildRow(rowCells: seq<Slot>) returns (row: seq<SourceCell>)
    ensures row == Filled(rowCells)
  {
    row := [];
    var j := 0;
    while j < |rowCells|
      invariant j <= |rowCells| && row == Filled(rowCells[..j])
    {
      assert rowCells[..j + 1][..j] == rowCells[..j];
      if rowCells[j].Some? {
        row := row + [rowCells[j].value];
      }
      j := j + 1;
    }
    assert rowCells[..j] == rowCells;
  }

  /** The source's loops, statement for statement: lay every row into the matrix, then
      rebuild each row from its matrix row. */
  method ExpandRows(rows: seq<seq<SourceCell>>) returns (r: Result<seq<seq<SourceCell>>, Error>)
    ensures r == Expand(rows)
  {
    var matrix: Grid := [];
    var rowIdx := 0;
    while rowIdx < |rows|
      invariant rowIdx <= |rows| && rowIdx <= |matrix|
      invariant BuildFrom(matrix, rows, rowIdx) == Matrix(rows)
    {
      if rowIdx == |matrix| {
        matrix := matrix + [[]];
      }
      matrix := LayRow(matrix, rowIdx, rows[rowIdx]);
      rowIdx := rowIdx + 1;
    }
    var rebuilt: seq<seq<SourceCell>> := [];
    var i := 0;
    while i < |matrix|
      invariant i <= |matrix| && i <= |rows| && matrix == Matrix(rows)
      invariant |rebuilt| == i && forall j :: 0 <= j < i ==> rebuilt[j] == Filled(matrix[j])
    {
      if i >= |rows| {
        return Err(RowspanOverflow);
      }
      var row := RebuildRow(matrix[i]);
      rebuilt := rebuilt + [row];
      i := i + 1;
    }
    assert Expand(rows).Ok? && rebuilt == Expand(rows).value;
    return Ok(rebuilt);
  }

  /** A cell occupying exactly one position. */
  predicate Unit(cell: SourceCell) {
    Span(cell.colspan) == 1 && Span(cell.rowspan) == 1
  }

  function Slots(cells: seq<SourceCell>): (r: seq<Slot>)
    ensures |r| == |cells| && forall i :: 0 <= i < |r| ==> r[i] == Some(cells[i])
  {
    seq(|cells|, i requires 0 <= i < |cells| => Some(cells[i]))
  }

  lemma {:induction false} FilledSlots(cells: seq<SourceCell>)
    ensures Filled(Slots(cells)) == cells
  {
    if |cells| > 0 {
      var init := cells[..|cells| - 1];
      assert Slots(cells)[..|cells| - 1] == Slots(init);
      FilledSlots(init);
      assert cells == init + [cells[|cells| - 1]];
    }
  }

  lemma PutAppend(g: Grid, r: nat, cell: SourceCell)
    requires r < |g|
    ensures Put(g, r, |g[r]|, cell) == g[r := g[r] + [Some(cell)]]
  {
    assert Pad(g, r) == g;
    var row := g[r];
    assert Holes(0) == [];
    assert row + Holes(0) + [Some(cell)] == row + [Some(cell)];
  }

  lemma PlaceLineOne(g: Grid, r: nat, c: nat, cell: SourceCell)
    ensures PlaceLine(g, r, c, 1, cell) == Put(g, r, c, cell)
  {
    assert PlaceLine(g, r, c, 0, cell) == g;
  }

  /** A cell spanning one row and one column is one write. */
  lemma PlaceOne(g: Grid, r: nat, c: nat, cell: SourceCell)
    ensures PlaceRect(g, r, c, 1, 1, cell) == Put(g, r, c, cell)
  {
    assert PlaceRect(g, r, c, 0, 1, cell) == g;
    PlaceLineOne(g, r, c, cell);
  }

  lemma PutNewRow(g: Grid, cell: SourceCell)
    ensures Put(g, |g|, 0, cell) == g + [[Some(cell)]]
  {
    assert Pad(g, |g|) == g + [[]];
    assert [] + Holes(0) + [Some(cell)] == [Some(cell)];
  }

  /** A unit cell at the end of its row extends the row by one copy. */
  lemma PlaceUnitCell(g: Grid, rowIdx: nat, cell: SourceCell)
    requires rowIdx < |g| && Unit(cell)
    ensures PlaceRect(g, rowIdx, |g[rowIdx]|, Span(cell.rowspan), Span(cell.colspan), cell) ==
            g[rowIdx := g[rowIdx] + [Some(cell)]]
  {
    PlaceOne(g, rowIdx, |g[rowIdx]|, cell);
    PutAppend(g, rowIdx, cell);
  }

  /** Laying a unit cell at the end of its row, then the rest after it. */
  lemma PlaceUnitFirst(g: Grid, rowIdx: nat, cells: seq<SourceCell>)
    requires rowIdx < |g| && |cells| > 0 && Unit(cells[0])
    ensures PlaceCells(g, rowIdx, cells, |g[rowIdx]|) ==
            PlaceCells(g[rowIdx := g[rowIdx] + [Some(cells[0])]], rowIdx, cells[1..], |g[rowIdx]| + 1)
  {
    assert FirstFree(g[rowIdx], |g[rowIdx]|) == |g[rowIdx]|;
    PlaceUnitCell(g, rowIdx, cells[0]);
  }

  lemma AppendSlots(row: seq<Slot>, cells: seq<SourceCell>)
    requires |cells| > 0
    ensures (row + [Some(cells[0])]) + Slots(cells[1..]) == row + Slots(cells)
  {
    assert [Some(cells[0])] + Slots(cells[1..]) == Slots(cells);
  }

  /** Unit cells laid at the end of their row simply extend it. */
  lemma {:induction false} PlaceUnitCells(g: Grid, rowIdx: nat, cells: seq<SourceCell>)
    requires rowIdx < |g|
    requires forall k :: 0 <= k < |cells| ==> Unit(cells[k])
    ensures PlaceCells(g, rowIdx, cells, |g[rowIdx]|) == g[rowIdx := g[rowIdx] + Slots(cells)]
    decreases |cells|
  {
    var row := g[rowIdx];
    if |cells| == 0 {
      assert row + Slots(cells) == row;
    } else {
      var g1 := g[rowIdx := row + [Some(cells[0])]];
      calc {
        PlaceCells(g, rowIdx, cells, |row|);
      == { PlaceUnitFirst(g, rowIdx, cells); }
        PlaceCells(g1, rowIdx, cells[1..], |row| + 1);
      == { assert |g1[rowIdx]| == |row| + 1; PlaceUnitCells(g1, rowIdx, cells[1..]); }
        g1[rowIdx := g1[rowIdx] + Slots(cells[1..])];
      == { AppendSlots(row, cells); }
        g[rowIdx := row + Slots(cells)];
      }
    }
  }

  /** With unit cells only, matrix row `i` holds exactly the cells of row `i`. */
  lemma {:induction false} BuildUnit(g: Grid, rows: seq<seq<SourceCell>>, rowIdx: nat)
    requires rowIdx <= |rows| && |g| == rowIdx
    requires forall i, k :: 0 <= i < |rows| && 0 <= k < |rows[i]| ==> Unit(rows[i][k])
    requires forall i :: 0 <= i < rowIdx ==> g[i] == Slots(rows[i])
    ensures var m := BuildFrom(g, rows, rowIdx);
      |m| == |rows| && forall i :: 0 <= i < |rows| ==> m[i] == Slots(rows[i])
    decreases |rows| - rowIdx
  {
    if rowIdx < |rows| {
      var g0 := EnsureRow(g, rowIdx);
      assert g0 == g + [[]];
      PlaceUnitCells(g0, rowIdx, rows[rowIdx]);
      assert Slots(rows[rowIdx]) == [] + Slots(rows[rowIdx]);
      BuildUnit(PlaceCells(g0, rowIdx, rows[rowIdx], 0), rows, rowIdx + 1);
    }
  }

  /** A table without `colspan` or `rowspan` greater than one is left as it is. */
  lemma ExpandUnitSpans(rows: seq<seq<SourceCell>>)
    requires forall i, k :: 0 <= i < |rows| && 0 <= k < |rows[i]| ==> Unit(rows[i][k])
    ensures Expand(rows) == Ok(rows)
  {
    BuildUnit([], rows, 0);
    forall i | 0 <= i < |rows|
      ensures Expand(rows).value[i] == rows[i]
    {
      FilledSlots(rows[i]);
    }
    assert Expand(rows).value == rows;
  }

  /** A cell of row `rowIdx` that fills at least one column and whose rowspan reaches
      past the `n` rows of the table. */
  predicate Overruns(cell: SourceCell, rowIdx: nat, n: nat) {
    Span(cell.colspan) > 0 && rowIdx + Span(cell.rowspan) > n
  }

  predicate Overflows(rows: seq<seq<SourceCell>>) {
    exists i, k :: 0 <= i < |rows| && 0 <= k < |rows[i]| && Overruns(rows[i][k], i, |rows|)
  }

  /** Laying a row makes the matrix reach down to the last row each cell spans. */
  lemma {:induction false} PlaceCellsReach(g: Grid, rowIdx: nat, cells: seq<SourceCell>, col: nat, k: nat)
    requires rowIdx < |g| && k < |cells| && Span(cells[k].colspan) > 0
    ensures |PlaceCells(g, rowIdx, cells, col)| >= rowIdx + Span(cells[k].rowspan)
    decreases |cells|
  {
    var start := FirstFree(g[rowIdx], col);
    var cell := cells[0];
    var g1 := PlaceRect(g, rowIdx, start, Span(cell.rowspan), Span(cell.colspan), cell);
    if k > 0 {
      assert cells[1..][k - 1] == cells[k];
      PlaceCellsReach(g1, rowIdx, cells[1..], start + Span(cell.colspan), k - 1);
    }
  }

  /** Laying a row whose cells stay within `n` rows keeps the matrix within `n` rows. */
  lemma {:induction false} PlaceCellsWithin(g: Grid, rowIdx: nat, cells: seq<SourceCell>, col: nat, n: nat)
    requires rowIdx < |g| <= n
    requires forall k :: 0 <= k < |cells| ==> !Overruns(cells[k], rowIdx, n)
    ensures |PlaceCells(g, rowIdx, cells, col)| <= n
    decreases |cells|
  {
    if |cells| > 0 {
      var start := FirstFree(g[rowIdx], col);
      var cell := cells[0];
      var g1 := PlaceRect(g, rowIdx, start, Span(cell.rowspan), Span(cell.colspan), cell);
      PlaceCellsWithin(g1, rowIdx, cells[1..], start + Span(cell.colspan), n);
    }
  }

  lemma {:induction false} BuildReach(g: Grid, rows: seq<seq<SourceCell>>, rowIdx: nat, i: nat, k: nat)
    requires rowIdx <= i < |rows| && rowIdx <= |g| && k < |rows[i]| && Overruns(rows[i][k], i, |rows|)
    ensures |BuildFrom(g, rows, rowIdx)| > |rows|
    decreases |rows| - rowIdx
  {
    var g0 := EnsureRow(g, rowIdx);
    var g1 := PlaceCells(g0, rowIdx, rows[rowIdx], 0);
    if rowIdx == i {
      PlaceCellsReach(g0, rowIdx, rows[rowIdx], 0, k);
    } else {
      BuildReach(g1, rows, rowIdx + 1, i, k);
    }
  }

  lemma {:induction false} BuildWithin(g: Grid, rows: seq<seq<SourceCell>>, rowIdx: nat)
    requires rowIdx <= |g| <= |rows| && rowIdx <= |rows|
    requires forall i, k :: rowIdx <= i < |rows| && 0 <= k < |rows[i]| ==> !Overruns(rows[i][k], i, |rows|)
    ensures |BuildFrom(g, rows, rowIdx)| == |rows|
    decreases |rows| - rowIdx
  {
    if rowIdx < |rows| {
      var g0 := EnsureRow(g, rowIdx);
      PlaceCellsWithin(g0, rowIdx, rows[rowIdx], 0, |rows|);
      BuildWithin(PlaceCells(g0, rowIdx, rows[rowIdx], 0), rows, rowIdx + 1);
    }
  }

  /** Expansion throws exactly when some cell spans at least one column and its rowspan
      reaches below the last row of the table (the rebuild then finds no row there). */
  lemma ExpandFailsIffOverflow(rows: seq<seq<SourceCell>>)
    ensures Expand(rows).Err? <==> Overflows(rows)
  {
    if Overflows(rows) {
      var i, k :| 0 <= i < |rows| && 0 <= k < |rows[i]| && Overruns(rows[i][k], i, |rows|);
      BuildReach([], rows, 0, i, k);
    } else {
      BuildWithin([], rows, 0);
    }
  }

  lemma SpillFirstRow(a: SourceCell, b: SourceCell)
    requires Span(a.rowspan) == 2 && Span(a.colspan) == 1 && Unit(b)
    ensures PlaceCells([[]], 0, [a, b], 0) == [[Some(a), Some(b)], [Some(a)]]
  {
    var g0: Grid := [[]];
    var top := [[Some(a)]];
    var ga := [[Some(a)], [Some(a)]];
    var g1 := [[Some(a), Some(b)], [Some(a)]];
    assert g0[0] + [Some(a)] == [Some(a)];
    assert g0[0 := g0[0] + [Some(a)]] == top;
    assert ga[0] + [Some(b)] == [Some(a), Some(b)];
    assert ga[0 := ga[0] + [Some(b)]] == g1;
    calc {
      PlaceRect(g0, 0, 0, 2, 1, a);
      PlaceLine(PlaceRect(g0, 0, 0, 1, 1, a), 1, 0, 1, a);
    == { PlaceOne(g0, 0, 0, a); }
      PlaceLine(Put(g0, 0, 0, a), 1, 0, 1, a);
    == { PutAppend(g0, 0, a); assert |g0[0]| == 0; }
      PlaceLine(top, 1, 0, 1, a);
    == { PlaceLineOne(top, 1, 0, a); }
      Put(top, 1, 0, a);
    == { PutNewRow(top, a); }
      ga;
    }
    calc {
      PlaceCells(g0, 0, [a, b], 0);
    == { assert FirstFree(g0[0], 0) == 0; assert [a, b][1..] == [b]; }
      PlaceCells(ga, 0, [b], 1);
    == { assert FirstFree(ga[0], 1) == 1; PlaceUnitCell(ga, 0, b); }
      PlaceCells(g1, 0, [], 2);
      g1;
    }
  }

  lemma SpillSecondRow(a: SourceCell, b: SourceCell, c: SourceCell)
    requires Unit(c)
    ensures PlaceCells([[Some(a), Some(b)], [Some(a)]], 1, [c], 0) ==
            [[Some(a), Some(b)], [Some(a), Some(c)]]
  {
    var g1 := [[Some(a), Some(b)], [Some(a)]];
    var g2 := [[Some(a), Some(b)], [Some(a), Some(c)]];
    assert g1[1] + [Some(c)] == [Some(a), Some(c)];
    assert g1[1 := g1[1] + [Some(c)]] == g2;
    calc {
      PlaceCells(g1, 1, [c], 0);
    == { assert FirstFree(g1[1], 0) == 1; PlaceUnitCell(g1, 1, c); }
      PlaceCells(g2, 1, [], 1);
      g2;
    }
  }

  /** A cell spanning two rows is copied into the first column of the row below, and
      that row's own cell moves one column to the right. */
  lemma SpillExpand(a: SourceCell, b: SourceCell, c: SourceCell)
    requires Span(a.rowspan) == 2 && Span(a.colspan) == 1 && Unit(b) && Unit(c)
    ensures Expand([[a, b], [c]]) == Ok([[a, b], [a, c]])
  {
    var rows := [[a, b], [c]];
    var g1 := [[Some(a), Some(b)], [Some(a)]];
    var g2 := [[Some(a), Some(b)], [Some(a), Some(c)]];
    calc {
      Matrix(rows);
      BuildFrom([], rows, 0);
    == { assert EnsureRow([], 0) == [[]]; SpillFirstRow(a, b); }
      BuildFrom(g1, rows, 1);
    == { assert EnsureRow(g1, 1) == g1; SpillSecondRow(a, b, c); }
      BuildFrom(g2, rows, 2);
      g2;
    }
    FilledSlots([a, b]);
    FilledSlots([a, c]);
    assert Slots([a, b]) == g2[0] && Slots([a, c]) == g2[1];
    assert Expand(rows).value == [[a, b], [a, c]];
  }

  /** For instance, a header cell "A" with `rowspan="2"` above a body row holding only "C"
      makes that body row read "A", "C". */
  lemma RowspanSpillsDown()
    ensures var a := SourceCell("A", None, Some(2));
            var b := SourceCell("B", None, None);
            var c := SourceCell("C", None, None);
            Expand([[a, b], [c]]) == Ok([[a, b], [a, c]])
  {
    SpillExpand(SourceCell("A", None, Some(2)), SourceCell("B", None, None), SourceCell("C", None, None));
  }
}

=== FILE: strings.dfy ===
/** The JavaScript string operations the core relies on, written out over `seq<char>`:
    `trim`, `startsWith`/`endsWith`, `Array.prototype.join`, `split` by a one-character
    separator, the line split `/<br>|\r?\n/`, and a global literal `replace`. */
module Strings {

  /** JavaScript's WhiteSpace and LineTerminator code points, the set `String.prototype.trim` removes. */
  predicate IsSpace(c: char) {
    || c == '\t' || c == '\U{000B}' || c == '\U{000C}' || c == ' ' || c == '\U{00A0}' || c == '\U{FEFF}'
    || c == '\n' || c == '\r' || c == '\U{2028}' || c == '\U{2029}'
    || c == '\U{1680}' || ('\U{2000}' <= c <= '\U{200A}') || c == '\U{202F}' || c == '\U{205F}' || c == '\U{3000}'
  }

  /** Characters that the regular-expression `.` does not match. */
  predicate IsLineTerminator(c: char) {
    c == '\n' || c == '\r' || c == '\U{2028}' || c == '\U{2029}'
  }

  /** The end of the run of whitespace that starts at `i`. */
  function SpaceRunEnd(s: string, i: nat): (j: nat)
    requires i <= |s|
    ensures i <= j <= |s|
    ensures forall k :: i <= k < j ==> IsSpace(s[k])
    ensures j == |s| || !IsSpace(s[j])
    decreases |s| - i
  {
    if i < |s| && IsSpace(s[i]) then SpaceRunEnd(s, i + 1) else i
  }

  /** The start of the run of whitespace that ends at `j`, not going below `lo`. */
  function SpaceRunStart(s: string, lo: nat, j: nat): (i: nat)
    requires lo <= j <= |s|
    ensures lo <= i <= j
    ensures forall k :: i <= k < j ==> IsSpace(s[k])
    ensures i == lo || !IsSpace(s[i - 1])
    decreases j
  {
    if lo < j && IsSpace(s[j - 1]) then SpaceRunStart(s, lo, j - 1) else j
  }

  /** Where the trimmed text starts: after the leading whitespace. */
  function TrimFrom(s: string): nat {
    SpaceRunEnd(s, 0)
  }

  /** Where the trimmed text ends: before the trailing whitespace, never before `TrimFrom`. */
  function TrimTo(s: string): (b: nat)
    ensures TrimFrom(s) <= b <= |s|
  {
    SpaceRunStart(s, TrimFrom(s), |s|)
  }

  /** `String.prototype.trim`: leading whitespace is removed, then trailing whitespace. */
  function Trim(s: string): string {
    s[TrimFrom(s)..TrimTo(s)]
  }

  predicate IsTrimmed(s: string) {
    |s| == 0 || (!IsSpace(s[0]) && !IsSpace(s[|s| - 1]))
  }

  /** The result of `trim` starts and ends with a non-space, and everything cut away
      on either side is whitespace. */
  lemma TrimIsSlice(s: string)
    ensures IsTrimmed(Trim(s))
    ensures forall k :: 0 <= k < TrimFrom(s) ==> IsSpace(s[k])
    ensures forall k :: TrimTo(s) <= k < |s| ==> IsSpace(s[k])
  {
    var a, b := TrimFrom(s), TrimTo(s);
    if a < b {
      assert Trim(s)[0] == s[a];
      assert Trim(s)[b - a - 1] == s[b - 1];
    }
  }

  lemma TrimIdempotent(s: string)
    ensures Trim(Trim(s)) == Trim(s)
  {
    TrimIsSlice(s);
    TrimmedIsFixpoint(Trim(s));
  }

  /** A string that starts and ends with a non-space is its own trim. */
  lemma TrimmedIsFixpoint(s: string)
    requires IsTrimmed(s)
    ensures Trim(s) == s
  {
    if |s| > 0 {
      assert TrimFrom(s) == 0;
      assert TrimTo(s) == |s|;
    }
  }

  predicate StartsWith(s: string, prefix: string) {
    |prefix| <= |s| && s[..|prefix|] == prefix
  }

  predicate EndsWith(s: string, suffix: string) {
    |suffix| <= |s| && s[|s| - |suffix|..] == suffix
  }

  /** `Array.prototype.join(sep)`: the empty array joins to "". */
  function Join(parts: seq<string>, sep: string): string {
    if |parts| == 0 then ""
    else if |parts| == 1 then parts[0]
    else parts[0] + sep + Join(parts[1..], sep)
  }

  /** The last part is joined on after the others. */
  lemma {:induction false} JoinSnoc(parts: seq<string>, sep: string)
    requires |parts| > 1
    ensures Join(parts, sep) == Join(parts[..|parts| - 1], sep) + sep + parts[|parts| - 1]
  {
    var n := |parts| - 1;
    if |parts| > 2 {
      JoinSnoc(parts[1..], sep);
      assert parts[1..][..n - 1] == parts[..n][1..];
      assert parts[1..][n - 1] == parts[n];
    } else {
      assert parts[..n] == [parts[0]];
    }
  }

  /** Prepending text to the first part prepends it to the joined string. */
  lemma JoinConsFirst(c: string, parts: seq<string>, sep: string)
    requires |parts| > 0
    ensures Join([c + parts[0]] + parts[1..], sep) == c + Join(parts, sep)
  {
    var ps := [c + parts[0]] + parts[1..];
    assert ps[1..] == parts[1..];
  }

  /** `s.split(c)` for a one-character separator: the pieces between separators,
      at least one (possibly empty) piece, none containing the separator. */
  function SplitChar(s: string, c: char): (r: seq<string>)
    ensures |r| >= 1
    ensures forall i :: 0 <= i < |r| ==> c !in r[i]
  {
    if |s| == 0 then [""]
    else
      var rest := SplitChar(s[1..], c);
      if s[0] == c then [""] + rest else [[s[0]] + rest[0]] + rest[1..]
  }

  /** Joining the pieces back with the separator gives the original string. */
  lemma {:induction false} SplitCharJoin(s: string, c: char)
    ensures Join(SplitChar(s, c), [c]) == s
  {
    if |s| > 0 {
      var rest := SplitChar(s[1..], c);
      SplitCharJoin(s[1..], c);
      if s[0] == c {
        assert ([""] + rest)[1..] == rest;
        if |rest| == 1 {
          assert Join([""] + rest, [c]) == "" + [c] + rest[0];
        }
      } else {
        JoinConsFirst([s[0]], rest, [c]);
      }
    }
  }

  /** A string without the separator is one piece. */
  lemma {:induction false} SplitCharNone(s: string, c: char)
    requires c !in s
    ensures SplitChar(s, c) == [s]
  {
    if |s| > 0 {
      SplitCharNone(s[1..], c);
      assert [s[0]] + s[1..] == s;
    }
  }

  /** The first separator ends the first piece. */
  lemma {:induction false} SplitCharFirst(a: string, b: string, c: char)
    requires c !in a
    ensures SplitChar(a + [c] + b, c) == [a] + SplitChar(b, c)
  {
    var s := a + [c] + b;
    if |a| > 0 {
      assert s[1..] == a[1..] + [c] + b;
      SplitCharFirst(a[1..], b, c);
      assert [a[0]] + a[1..] == a;
    } else {
      assert s[1..] == b;
    }
  }

  /** Length of the line separator `/<br>|\r?\n/` matching at the start of `s`, or 0. */
  function LineBreakAt(s: string): nat {
    if StartsWith(s, "<br>") then 4
    else if StartsWith(s, "\r\n") then 2
    else if StartsWith(s, "\n") then 1
    else 0
  }

  /** `text.split(/<br>|\r?\n/)`: every newline is consumed by a separator. */
  function SplitLines(s: string): (r: seq<string>)
    ensures |r| >= 1
    ensures forall i :: 0 <= i < |r| ==> '\n' !in r[i]
    decreases |s|
  {
    if |s| == 0 then [""]
    else if LineBreakAt(s) > 0 then [""] + SplitLines(s[LineBreakAt(s)..])
    else
      var rest := SplitLines(s[1..]);
      [[s[0]] + rest[0]] + rest[1..]
  }

  /** `s.replace(/pat/g, rep)` for a pattern without metacharacters: one left-to-right
      pass replacing non-overlapping occurrences; replaced text is never rescanned. */
  function ReplaceAll(s: string, pat: string, rep: string): string
    requires |pat| > 0
    decreases |s|
  {
    if |s| == 0 then ""
    else if StartsWith(s, pat) then rep + ReplaceAll(s[|pat|..], pat, rep)
    else [s[0]] + ReplaceAll(s[1..], pat, rep)
  }

  /** `s.split(pat)` for a non-empty string separator, scanning left to right. */
  function SplitOn(s: string, pat: string): (r: seq<string>)
    requires |pat| > 0
    ensures |r| >= 1
    decreases |s|
  {
    if |s| == 0 then [""]
    else if StartsWith(s, pat) then [""] + SplitOn(s[|pat|..], pat)
    else
      var rest := SplitOn(s[1..], pat);
      [[s[0]] + rest[0]] + rest[1..]
  }

  predicate Occurs(s: string, pat: string) {
    exists i :: 0 <= i <= |s| && StartsWith(s[i..], pat)
  }

  /** Global replacement is splitting at every occurrence and joining with the
      replacement: every occurrence the scan meets is replaced. */
  lemma {:induction false} ReplaceAllIsSplitJoin(s: string, pat: string, rep: string)
    requires |pat| > 0
    ensures ReplaceAll(s, pat, rep) == Join(SplitOn(s, pat), rep)
    decreases |s|
  {
    if |s| > 0 {
      if StartsWith(s, pat) {
        var rest := SplitOn(s[|pat|..], pat);
        ReplaceAllIsSplitJoin(s[|pat|..], pat, rep);
        assert ([""] + rest)[1..] == rest;
        if |rest| == 1 {
          assert Join([""] + rest, rep) == "" + rep + rest[0];
        }
      } else {
        ReplaceAllIsSplitJoin(s[1..], pat, rep);
        JoinConsFirst([s[0]], SplitOn(s[1..], pat), rep);
      }
    }
  }

  /** A string without an occurrence of the pattern is left unchanged. */
  lemma {:induction false} ReplaceAllWithoutOccurrence(s: string, pat: string, rep: string)
    requires |pat| > 0
    requires !Occurs(s, pat)
    ensures ReplaceAll(s, pat, rep) == s
    decreases |s|
  {
    if |s| > 0 {
      assert s[0..] == s;
      assert !StartsWith(s, pat);
      forall i | 0 <= i <= |s[1..]|
        ensures !StartsWith(s[1..][i..], pat)
      {
        assert s[1..][i..] == s[i + 1..];
      }
      ReplaceAllWithoutOccurrence(s[1..], pat, rep);
    }
  }

  /** Replacing a pattern by itself is the identity. */
  lemma {:induction false} ReplaceAllBySelf(s: string, pat: string)
    requires |pat| > 0
    ensures ReplaceAll(s, pat, pat) == s
    decreases |s|
  {
    if |s| > 0 {
      if StartsWith(s, pat) {
        ReplaceAllBySelf(s[|pat|..], pat);
        assert s == s[..|pat|] + s[|pat|..];
      } else {
        ReplaceAllBySelf(s[1..], pat);
        assert s == [s[0]] + s[1..];
      }
    }
  }
}

=== FILE: summarization.dfy ===
/** Summarization (src/aggregation/summarization.ts): without grouping, one summary row
    is appended holding, under every instructed column, the labelled results of its
    operators over the whole column, and "" under every other column.

    Reading a cell caches its value in the source. Resolution is a function of the row's
    texts, so the model reads every column from the rows as they came from the external
    table; the cache changes no value and no error. */
module Summarization {
  import opened Wrappers
  import opened Seqs
  import opened Strings
  import opened JsObjects
  import opened Values
  import opened Handlers
  import opened Cells
  import opened Instructions
  import opened Tables

  /** A handler result as a template literal shows it. */
  function ShowNumber(h: Host, n: Number): string {
    match n
    case Finite(x) => h.show(x)
    case PosInfinity => "Infinity"
    case NegInfinity => "-Infinity"
  }

  /** One operator's part of a summary cell: "<label>: <result>". */
  function SummaryPart(h: Host, op: Operator, xs: seq<real>): (r: string)
    ensures StartsWith(r, Label(op) + ": ")
  {
    Label(op) + ": " + ShowNumber(h, Apply(op, xs))
  }

  /** A summary cell: the parts of the column's operators, in order, joined by ", ".
      Every part is non-empty, so the `.filter(Boolean)` of the source drops none. */
  function SummaryText(h: Host, ops: seq<Operator>, xs: seq<real>): (r: string)
    ensures |ops| == 1 ==> r == SummaryPart(h, ops[0], xs)
    ensures |ops| > 0 ==> StartsWith(r, Label(ops[0]) + ": ")
  {
    var parts := seq(|ops|, i requires 0 <= i < |ops| => SummaryPart(h, ops[i], xs));
    Join(parts, ", ")
  }

  /** The parts follow the operator list: the last operator's part comes last, after ", ". */
  lemma SummaryTextSnoc(h: Host, ops: seq<Operator>, xs: seq<real>)
    requires |ops| > 1
    ensures SummaryText(h, ops, xs) ==
      SummaryText(h, ops[..|ops| - 1], xs) + ", " + SummaryPart(h, ops[|ops| - 1], xs)
  {
    var n := |ops| - 1;
    var parts := seq(|ops|, i requires 0 <= i < |ops| => SummaryPart(h, ops[i], xs));
    var init := seq(n, i requires 0 <= i < n => SummaryPart(h, ops[..n][i], xs));
    assert parts[..n] == init;
    JoinSnoc(parts, ", ");
  }

  /** The cell of column `idx` in every row, resolved, in row order; a row too short to
      have that cell throws, like `getValue()` on `undefined`. */
  function ColumnRead(h: Host, columns: Object<nat>, rows: seq<Row>, idx: nat): (r: Result<seq<Value>, Error>)
    ensures r.Ok? ==> |r.value| == |rows|
    ensures r.Ok? ==> forall k :: 0 <= k < |rows| ==>
      idx < |rows[k]| && ResolveAt(h, columns, rows[k], idx, {}).Ok? &&
      ResolveAt(h, columns, rows[k], idx, {}).value.0 == r.value[k]
  {
    if |rows| == 0 then Ok([])
    else if idx >= |rows[0]| then Err(MissingCell)
    else
      var cell :- ResolveAt(h, columns, rows[0], idx, {});
      var rest :- ColumnRead(h, columns, rows[1..], idx);
      Ok([cell.0] + rest)
  }

  /** Reading a column fails exactly when some row lacks the cell or cannot resolve it. */
  lemma {:induction false} ColumnReadSucceeds(h: Host, columns: Object<nat>, rows: seq<Row>, idx: nat)
    ensures ColumnRead(h, columns, rows, idx).Ok? <==>
      forall k :: 0 <= k < |rows| ==> idx < |rows[k]| && ResolveAt(h, columns, rows[k], idx, {}).Ok?
  {
    if |rows| > 0 {
      ColumnReadSucceeds(h, columns, rows[1..], idx);
      assert forall k :: 1 <= k < |rows| ==> rows[k] == rows[1..][k - 1];
    }
  }

  /** The cell under one column (`name`, position `idx`) in the summary row. */
  function SummaryCell(h: Host, grouped: Object<seq<Operator>>, columns: Object<nat>, rows: seq<Row>, name: string, idx: nat)
    : (r: Result<Cell, Error>)
    ensures Get(grouped, name).None? ==> r == Ok(Resolved(Text("")))
    ensures r.Ok? ==> r.value.Resolved? && r.value.value.Text?
    ensures Get(grouped, name).Some? && ColumnRead(h, columns, rows, idx).Ok? ==>
      var values := ColumnRead(h, columns, rows, idx).value;
      if Violations(values) != [] then r == Err(NonNumericColumn(name, Violations(values)))
      else r == Ok(Resolved(Text(SummaryText(h, Get(grouped, name).value, Numbers(values)))))
    ensures Get(grouped, name).Some? && ColumnRead(h, columns, rows, idx).Err? ==>
      r == Err(ColumnRead(h, columns, rows, idx).error)
  {
    match Get(grouped, name)
    case None => Ok(Resolved(Text("")))
    case Some(ops) =>
      var values :- ColumnRead(h, columns, rows, idx);
      match AssertNumeric(values)
      case Some(violations) => Err(NonNumericColumn(name, violations))
      case None => Ok(Resolved(Text(SummaryText(h, ops, Numbers(values)))))
  }

  /** The summary row: one cell per column entry, in the order the entries are given;
      the first failing column decides the error. */
  function SummaryCells(h: Host, grouped: Object<seq<Operator>>, columns: Object<nat>, rows: seq<Row>, entries: seq<(string, nat)>)
    : (r: Result<seq<Cell>, Error>)
    ensures r.Ok? ==> |r.value| == |entries| && AllResolved(r.value)
    ensures r.Ok? ==> forall j :: 0 <= j < |r.value| ==> r.value[j].value.Text?
    ensures r.Ok? ==> forall j :: 0 <= j < |entries| ==>
      SummaryCell(h, grouped, columns, rows, entries[j].0, entries[j].1) == Ok(r.value[j])
  {
    if |entries| == 0 then Ok([])
    else
      var first :- SummaryCell(h, grouped, columns, rows, entries[0].0, entries[0].1);
      var rest :- SummaryCells(h, grouped, columns, rows, entries[1..]);
      Ok([first] + rest)
  }

  /** The summary row is built exactly when every column's cell can be built. */
  lemma {:induction false} SummaryCellsSucceed(h: Host, grouped: Object<seq<Operator>>, columns: Object<nat>, rows: seq<Row>, entries: seq<(string, nat)>)
    ensures SummaryCells(h, grouped, columns, rows, entries).Ok? <==>
      forall j :: 0 <= j < |entries| ==> SummaryCell(h, grouped, columns, rows, entries[j].0, entries[j].1).Ok?
  {
    if |entries| > 0 {
      SummaryCellsSucceed(h, grouped, columns, rows, entries[1..]);
      assert forall j :: 1 <= j < |entries| ==> entries[j] == entries[1..][j - 1];
    }
  }

  /** The instructed columns the table lacks, in key order. */
  function MissingColumnsOf(grouped: Object<seq<Operator>>, columns: Object<nat>): (r: seq<string>) {
    Filter(Keys(grouped), c => Get(columns, c).None?)
  }

  /** `summarize(table, instructions)`: the table's content afterwards. */
  function Summarize(h: Host, html: Html, instrs: seq<Instruction>): (r: Result<Html, Error>)
    ensures r.Ok? ==> r.value.head == Keys(FromHtml(html).columns)
    ensures r.Ok? ==> |r.value.body| == |html.body| + 1
    ensures r.Ok? ==> |r.value.body[|html.body|]| == |Keys(FromHtml(html).columns)|
    ensures MissingColumnsOf(GroupByColumn(instrs), FromHtml(html).columns) != [] ==>
      r == Err(MissingColumns(MissingColumnsOf(GroupByColumn(instrs), FromHtml(html).columns)))
  {
    var t := FromHtml(html);
    var grouped := GroupByColumn(instrs);
    var missing := MissingColumnsOf(grouped, t.columns);
    if |missing| > 0 then Err(MissingColumns(missing))
    else
      var cells :- SummaryCells(h, grouped, t.columns, t.rows, OrderedEntries(t.columns));
      Render(h, Table(t.columns, t.rows + [cells]))
  }

  /** The summary throws for missing columns exactly when an instruction names a column
      the header lacks, and lists exactly those columns. */
  lemma MissingColumnsReported(instrs: seq<Instruction>, columns: Object<nat>, c: string)
    ensures c in MissingColumnsOf(GroupByColumn(instrs), columns) <==>
      (exists i :: 0 <= i < |instrs| && instrs[i].column == c) && Get(columns, c).None?
  {
    var grouped := GroupByColumn(instrs);
    FilterMember(Keys(grouped), c => Get(columns, c).None?, c);
    KeysAreNames(grouped);
    GroupedColumns(instrs, c);
  }

  /** Appending a resolved row to the rows read resolves it to itself. */
  lemma {:induction false} ResolveRowsSnoc(h: Host, columns: Object<nat>, rows: seq<Row>, last: Row)
    requires AllResolved(last)
    ensures ResolveRows(h, columns, rows + [last]) ==
      match ResolveRows(h, columns, rows)
      case Ok(rs) => Ok(rs + [last])
      case Err(e) => Err(e)
  {
    if |rows| == 0 {
      assert rows + [last] == [last];
      ResolvedRowsAreFixed(h, columns, [last]);
    } else {
      var all := rows + [last];
      assert all[0] == rows[0];
      assert all[1..] == rows[1..] + [last];
      ResolveRowsSnoc(h, columns, rows[1..], last);
      var first := ResolveFrom(h, columns, rows[0], 0);
      var rest := ResolveRows(h, columns, rows[1..]);
      if first.Ok? && rest.Ok? {
        assert ResolveRows(h, columns, rows) == Ok([first.value] + rest.value);
        assert ResolveRows(h, columns, all) == Ok([first.value] + (rest.value + [last]));
        assert [first.value] + (rest.value + [last]) == [first.value] + rest.value + [last];
      }
    }
  }

  /** Rendering a table with one more, fully resolved row renders the table as before,
      followed by that row. */
  lemma RenderSnoc(h: Host, t: Table, last: Row)
    requires AllResolved(last)
    ensures Render(h, Table(t.columns, t.rows + [last])).Ok? <==> Render(h, t).Ok?
    ensures Render(h, t).Ok? ==>
      Render(h, Table(t.columns, t.rows + [last])).value.body[..|t.rows|] == Render(h, t).value.body
  {
    ResolveRowsSnoc(h, t.columns, t.rows, last);
    var t2 := Table(t.columns, t.rows + [last]);
    if Render(h, t).Ok? {
      var rs := ResolveAll(h, t).value.rows;
      assert ResolveAll(h, t2).value.rows == rs + [last];
      var body := Render(h, t).value.body;
      var body2 := Render(h, t2).value.body;
      forall k | 0 <= k < |t.rows|
        ensures body2[k] == body[k]
      {
        assert (rs + [last])[k] == rs[k];
      }
    }
  }

  /** A summary that succeeds found every instructed column and built every cell. */
  lemma SummarizeSucceeded(h: Host, html: Html, instrs: seq<Instruction>)
    requires Summarize(h, html, instrs).Ok?
    ensures var t := FromHtml(html);
      var cells := SummaryCells(h, GroupByColumn(instrs), t.columns, t.rows, OrderedEntries(t.columns));
      && MissingColumnsOf(GroupByColumn(instrs), t.columns) == []
      && cells.Ok?
      && Summarize(h, html, instrs) == Render(h, Table(t.columns, t.rows + [cells.value]))
  {
  }

  /** The existing rows render as they would without the summary; the summary row
      renders its texts. */
  lemma SummaryRowAppended(h: Host, html: Html, instrs: seq<Instruction>)
    requires Summarize(h, html, instrs).Ok?
    ensures Render(h, FromHtml(html)).Ok?
    ensures Summarize(h, html, instrs).value.body[..|html.body|] == Render(h, FromHtml(html)).value.body
    ensures var t := FromHtml(html);
      var cells := SummaryCells(h, GroupByColumn(instrs), t.columns, t.rows, OrderedEntries(t.columns));
      cells.Ok? && forall j :: 0 <= j < |cells.value| ==>
        Summarize(h, html, instrs).value.body[|html.body|][j] == cells.value[j].value.s
  {
    SummarizeSucceeded(h, html, instrs);
    var t := FromHtml(html);
    var cells := SummaryCells(h, GroupByColumn(instrs), t.columns, t.rows, OrderedEntries(t.columns)).value;
    RenderSnoc(h, t, cells);
    SummaryRowRendered(h, t, cells);
  }

  /** A resolved row of texts renders as those texts. */
  lemma SummaryRowRendered(h: Host, t: Table, cells: Row)
    requires AllResolved(cells) && forall j :: 0 <= j < |cells| ==> cells[j].value.Text?
    requires Render(h, Table(t.columns, t.rows + [cells])).Ok?
    ensures forall j :: 0 <= j < |cells| ==>
      Render(h, Table(t.columns, t.rows + [cells])).value.body[|t.rows|][j] == cells[j].value.s
  {
    var t2 := Table(t.columns, t.rows + [cells]);
    assert t2.rows[|t.rows|] == cells;
  }

  /** Under a column no instruction names, the summary row holds "". */
  lemma UninstructedColumnEmpty(h: Host, html: Html, instrs: seq<Instruction>, j: nat)
    requires Summarize(h, html, instrs).Ok?
    requires j < |Keys(FromHtml(html).columns)|
    requires forall i :: 0 <= i < |instrs| ==> instrs[i].column != Keys(FromHtml(html).columns)[j]
    ensures Summarize(h, html, instrs).value.body[|html.body|][j] == ""
  {
    var t := FromHtml(html);
    var grouped := GroupByColumn(instrs);
    var entries := OrderedEntries(t.columns);
    SummaryRowAppended(h, html, instrs);
    GroupedColumns(instrs, entries[j].0);
  }

  /** Under an instructed column whose cells all resolve to numbers, the summary row
      holds the labelled results of the column's operators over those numbers. */
  lemma InstructedColumnSummarized(h: Host, html: Html, instrs: seq<Instruction>, j: nat)
    requires Summarize(h, html, instrs).Ok?
    requires j < |Keys(FromHtml(html).columns)|
    requires Get(GroupByColumn(instrs), Keys(FromHtml(html).columns)[j]).Some?
    ensures var t := FromHtml(html);
      var values := ColumnRead(h, t.columns, t.rows, JsObjects.Values(t.columns)[j]);
      && values.Ok?
      && (forall k :: 0 <= k < |values.value| ==> values.value[k].Num?)
      && Summarize(h, html, instrs).value.body[|html.body|][j] ==
           SummaryText(h, Get(GroupByColumn(instrs), Keys(t.columns)[j]).value, Numbers(values.value))
  {
    var t := FromHtml(html);
    var grouped := GroupByColumn(instrs);
    var entries := OrderedEntries(t.columns);
    SummaryRowAppended(h, html, instrs);
    var cells := SummaryCells(h, grouped, t.columns, t.rows, entries).value;
    InstructedCell(h, grouped, t.columns, t.rows, entries[j].0, entries[j].1, cells[j]);
  }

  /** A built cell of an instructed column: the column read into numbers only, and the
      cell holds their summary. */
  lemma InstructedCell(h: Host, grouped: Object<seq<Operator>>, columns: Object<nat>, rows: seq<Row>, name: string, idx: nat, c: Cell)
    requires Get(grouped, name).Some? && SummaryCell(h, grouped, columns, rows, name, idx) == Ok(c)
    ensures var values := ColumnRead(h, columns, rows, idx);
      && values.Ok?
      && (forall k :: 0 <= k < |values.value| ==> values.value[k].Num?)
      && c == Resolved(Text(SummaryText(h, Get(grouped, name).value, Numbers(values.value))))
  {
  }

  /** A summarized column holding a value that is not a number makes the summary throw,
      naming the column and every offending value. */
  lemma NonNumericColumnThrows(h: Host, grouped: Object<seq<Operator>>, columns: Object<nat>, rows: seq<Row>, name: string, idx: nat, k: nat)
    requires Get(grouped, name).Some? && ColumnRead(h, columns, rows, idx).Ok?
    requires k < |rows| && !ColumnRead(h, columns, rows, idx).value[k].Num?
    ensures SummaryCell(h, grouped, columns, rows, name, idx) ==
      Err(NonNumericColumn(name, Violations(ColumnRead(h, columns, rows, idx).value)))
  {
    var values := ColumnRead(h, columns, rows, idx).value;
    ViolationsMember(values, values[k]);
  }

  /** Summing the numbers 100, 200 and 49 shows "Sum: 349" when the host prints 349 as
      "349": the summary of a single operator is its part alone. */
  lemma SumSummaryExample(h: Host)
    requires h.show(349.0) == "349"
    ensures SummaryText(h, [Sum], [100.0, 200.0, 49.0]) == "Sum: 349"
  {
    var xs := [100.0, 200.0, 49.0];
    assert xs[..2] == [100.0, 200.0] && xs[..2][..1] == [100.0] && [100.0][..0] == [];
    assert SumOf(xs) == 349.0;
  }
}

=== FILE: tables.dfy ===
/** The table model of src/models/TableData.ts: a column-name -> index dictionary and rows
    of lazily resolved cells. A cell read from the external table keeps its trimmed text
    and resolves `${name}` references against the cells of its own row, through the
    column dictionary, resolving (and caching) those cells on demand.

    In src/models/TableData.ts:60-67 the substitute reads `arr[idx].getValue()`, where
    `arr` holds the row's `td` elements; as written that throws a `TypeError`. The model
    reads `arr` as the row's cell objects. References then resolve by plain recursion,
    so a cell that reaches itself through references recurses until the engine's stack
    overflows. The model tracks the cells whose resolution is in progress (`visiting`)
    and reports re-entry into one of them as `StackOverflow`; this is also what makes
    resolution terminate. */
module Tables {
  import opened Wrappers
  import opened Seqs
  import opened Strings
  import opened JsObjects
  import opened Values
  import opened Templates
  import opened Cells
  import opened Columns

  type Row = seq<Cell>

  datatype Table = Table(columns: Object<nat>, rows: seq<Row>)

  /** Indices below `n` whose resolution is not in progress: the termination measure. */
  function Pending(n: nat, visiting: set<nat>): set<nat> {
    set j: nat | j < n && j !in visiting
  }

  /** Cells under resolution are still unresolved, have a substitute and hold a reference. */
  predicate InProgress(row: Row, visiting: set<nat>) {
    forall j :: j in visiting ==>
      j < |row| && row[j].Unresolved? && row[j].linked && HasToken(row[j].raw)
  }

  /** `after` is `before` with some unresolved cells resolved; nothing else changes. */
  predicate Refines(before: Row, after: Row) {
    && |after| == |before|
    && forall j :: 0 <= j < |before| ==>
         after[j] == before[j] || (before[j].Unresolved? && after[j].Resolved?)
  }

  lemma RefinesTransitive(a: Row, b: Row, c: Row)
    requires Refines(a, b) && Refines(b, c)
    ensures Refines(a, c)
  {
  }

  /** The column a `${name}` reference designates: `this.columns[name.trim()]`. */
  function ColumnOf(columns: Object<nat>, name: string): Option<nat> {
    Get(columns, Trim(name))
  }

  /** The text a reference reads from `row` once the cell it designates is resolved:
      `String(value)`, or "" for an unknown column. */
  function ReferenceText(h: Host, columns: Object<nat>, row: Row, name: string): string {
    match ColumnOf(columns, name)
    case None => ""
    case Some(j) => if j < |row| && row[j].Resolved? then Str(row[j].value, h) else ""
  }

  /** The reference `name` designates an unknown column, or a resolved cell outside `visiting`. */
  predicate Settled(columns: Object<nat>, row: Row, name: string, visiting: set<nat>) {
    match ColumnOf(columns, name)
    case None => true
    case Some(j) => j < |row| && j !in visiting && row[j].Resolved?
  }

  /** Every reference in `s` is settled. */
  predicate ReferencesResolved(columns: Object<nat>, row: Row, s: string, visiting: set<nat>) {
    forall name :: name in Tokens(s) ==> Settled(columns, row, name, visiting)
  }

  /** `row[i].getValue()`, threading the row's cache: the value and the row afterwards.
      A linked cell with references runs the substitute of TableData.ts:63-68 on its text. */
  function ResolveAt(h: Host, columns: Object<nat>, row: Row, i: nat, visiting: set<nat>)
    : (r: Result<(Value, Row), Error>)
    requires i < |row| && InProgress(row, visiting)
    ensures r.Ok? ==> Refines(row, r.value.1) && r.value.1[i] == Resolved(r.value.0)
    ensures r.Ok? ==> i !in visiting && forall j :: j in visiting ==> r.value.1[j] == row[j]
    ensures row[i].Resolved? ==> r == Ok((row[i].value, row))
    decreases Pending(|row|, visiting), 0, 0
  {
    match row[i]
    case Resolved(v) => Ok((v, row))
    case Unresolved(raw, linked) =>
      if !HasToken(raw) || !linked then
        var v := Resolve(h, raw, if linked then None else DefaultSubstitute(raw));
        Ok((v, row[i := Resolved(v)]))
      else if i in visiting then Err(StackOverflow)
      else
        assert i in Pending(|row|, visiting) - Pending(|row|, visiting + {i});
        var sub :- SubstRow(h, columns, row, raw, visiting + {i});
        var v := Coerce(h, sub.0);
        ResolveInPlace(row, sub.1, i, v, visiting);
        Ok((v, sub.1[i := Resolved(v)]))
  }

  /** Resolving cell `i` in a row that refines `row` and kept `i` and the cells in
      progress as they were. */
  lemma ResolveInPlace(row: Row, mid: Row, i: nat, v: Value, visiting: set<nat>)
    requires i < |row| && row[i].Unresolved? && i !in visiting
    requires forall j :: j in visiting ==> j < |row|
    requires Refines(row, mid) && forall j :: j in visiting + {i} ==> mid[j] == row[j]
    ensures Refines(row, mid[i := Resolved(v)]) && mid[i := Resolved(v)][i] == Resolved(v)
    ensures forall j :: j in visiting ==> mid[i := Resolved(v)][j] == row[j]
  {
  }

  /** The replacement loop of TableData.ts:64-67 over the text `s`: every reference is
      replaced by the value of the cell it designates, resolved first; an unknown column
      gives "", and a column index past the end of a short row throws. */
  function SubstRow(h: Host, columns: Object<nat>, row: Row, s: string, visiting: set<nat>)
    : (r: Result<(string, Row), Error>)
    requires InProgress(row, visiting)
    ensures r.Ok? ==> Refines(row, r.value.1) && forall j :: j in visiting ==> r.value.1[j] == row[j]
    decreases Pending(|row|, visiting), 1, |s|
  {
    if |s| == 0 then Ok(("", row))
    else
      match TokenPrefix(s)
      case Some((name, n)) =>
        (match ColumnOf(columns, name)
         case None =>
           var rest :- SubstRow(h, columns, row, s[n..], visiting);
           Ok((rest.0, rest.1))
         case Some(j) =>
           if j >= |row| then Err(MissingCell)
           else
             var cell :- ResolveAt(h, columns, row, j, visiting);
             var rest :- SubstRow(h, columns, cell.1, s[n..], visiting);
             RefinesTransitive(row, cell.1, rest.1);
             Ok((Str(cell.0, h) + rest.0, rest.1)))
      case None =>
        var rest :- SubstRow(h, columns, row, s[1..], visiting);
        Ok(([s[0]] + rest.0, rest.1))
  }

  /** `ReferenceText` as the replacement callback. */
  function Lookup(h: Host, columns: Object<nat>, row: Row): string -> string {
    name => ReferenceText(h, columns, row, name)
  }

  /** Every reference `SubstRow` meets is resolved in the row it returns. */
  lemma {:induction false} SubstRowResolves(h: Host, columns: Object<nat>, row: Row, s: string, visiting: set<nat>)
    requires InProgress(row, visiting)
    requires SubstRow(h, columns, row, s, visiting).Ok?
    ensures ReferencesResolved(columns, SubstRow(h, columns, row, s, visiting).value.1, s, visiting)
    decreases |s|
  {
    var after := SubstRow(h, columns, row, s, visiting).value.1;
    if |s| > 0 {
      match TokenPrefix(s)
      case Some((name, n)) =>
        assert Tokens(s) == [name] + Tokens(s[n..]);
        match ColumnOf(columns, name) {
          case None =>
            SubstRowResolves(h, columns, row, s[n..], visiting);
          case Some(j) =>
            var cell := ResolveAt(h, columns, row, j, visiting).value;
            SubstRowResolves(h, columns, cell.1, s[n..], visiting);
            assert Settled(columns, after, name, visiting);
        }
      case None =>
        assert Tokens(s) == Tokens(s[1..]);
        SubstRowResolves(h, columns, row, s[1..], visiting);
    }
  }

  /** The text `SubstRow` returns is the template replacement reading from the row it
      returns. */
  lemma {:induction false} SubstRowMeaning(h: Host, columns: Object<nat>, row: Row, s: string, visiting: set<nat>)
    requires InProgress(row, visiting)
    requires SubstRow(h, columns, row, s, visiting).Ok?
    ensures var (t, after) := SubstRow(h, columns, row, s, visiting).value;
      t == Substitute(s, Lookup(h, columns, after))
    decreases |s|
  {
    var (t, after) := SubstRow(h, columns, row, s, visiting).value;
    if |s| > 0 {
      match TokenPrefix(s)
      case Some((name, n)) =>
        match ColumnOf(columns, name) {
          case None =>
            SubstRowMeaning(h, columns, row, s[n..], visiting);
          case Some(j) =>
            var cell := ResolveAt(h, columns, row, j, visiting).value;
            SubstRowMeaning(h, columns, cell.1, s[n..], visiting);
            assert after[j] == cell.1[j];
            assert Lookup(h, columns, after)(name) == Str(cell.0, h);
        }
      case None =>
        SubstRowMeaning(h, columns, row, s[1..], visiting);
    }
  }

  /** What `ResolveAt` computes for an unresolved cell: `resolve()` of its text, where the
      substitute's result is the template replacement reading from the final row. */
  lemma ResolveAtMeaning(h: Host, columns: Object<nat>, row: Row, i: nat, visiting: set<nat>)
    requires i < |row| && InProgress(row, visiting) && row[i].Unresolved?
    requires ResolveAt(h, columns, row, i, visiting).Ok?
    ensures var (v, after) := ResolveAt(h, columns, row, i, visiting).value;
      v == Resolve(h, row[i].raw,
                   if row[i].linked then Some(Substitute(row[i].raw, Lookup(h, columns, after)))
                   else DefaultSubstitute(row[i].raw))
  {
    var raw := row[i].raw;
    var (v, after) := ResolveAt(h, columns, row, i, visiting).value;
    if HasToken(raw) && row[i].linked {
      var (t, mid) := SubstRow(h, columns, row, raw, visiting + {i}).value;
      SubstRowMeaning(h, columns, row, raw, visiting + {i});
      SubstRowResolves(h, columns, row, raw, visiting + {i});
      assert after == mid[i := Resolved(v)];
      forall name | name in Tokens(raw)
        ensures Lookup(h, columns, mid)(name) == Lookup(h, columns, after)(name)
      {
        assert Settled(columns, mid, name, visiting + {i});
      }
      SubstituteCongruence(raw, Lookup(h, columns, mid), Lookup(h, columns, after));
    }
  }

  /** A cell whose whole text is one reference fails when resolving the referenced cell
      (with this one marked in progress) fails. */
  lemma ReferenceFailure(h: Host, columns: Object<nat>, row: Row, i: nat, name: string, j: nat, visiting: set<nat>)
    requires i < |row| && j < |row| && i !in visiting && InProgress(row, visiting)
    requires |name| > 0 && '}' !in name
    requires row[i] == Unresolved("${" + name + "}", true) && HasToken(row[i].raw)
    requires ColumnOf(columns, name) == Some(j)
    requires ResolveAt(h, columns, row, j, visiting + {i}) == Err(StackOverflow)
    ensures ResolveAt(h, columns, row, i, visiting) == Err(StackOverflow)
  {
    InProgressAdd(row, visiting, i);
    SingleTokenFailure(h, columns, row, name, j, visiting + {i});
  }

  /** A linked cell holding a reference may join the cells in progress. */
  lemma InProgressAdd(row: Row, visiting: set<nat>, i: nat)
    requires InProgress(row, visiting) && i < |row|
    requires row[i].Unresolved? && row[i].linked && HasToken(row[i].raw)
    ensures InProgress(row, visiting + {i})
  {
  }

  lemma SingleTokenFailure(h: Host, columns: Object<nat>, row: Row, name: string, j: nat, visiting: set<nat>)
    requires j < |row| && InProgress(row, visiting)
    requires |name| > 0 && '}' !in name
    requires ColumnOf(columns, name) == Some(j)
    requires ResolveAt(h, columns, row, j, visiting) == Err(StackOverflow)
    ensures SubstRow(h, columns, row, "${" + name + "}", visiting) == Err(StackOverflow)
  {
    SingleToken(name);
  }

  /** A whole-text reference is a reference. */
  lemma ReferenceHasToken(name: string)
    requires |name| > 0 && '}' !in name
    ensures HasToken("${" + name + "}")
  {
    SingleToken(name);
    HasTokenIffTokens("${" + name + "}");
  }

  /** A cell that refers to itself never resolves (`RangeError` in the source). */
  lemma SelfReferenceOverflows(h: Host, columns: Object<nat>, row: Row, i: nat, name: string)
    requires i < |row| && |name| > 0 && '}' !in name
    requires row[i] == Unresolved("${" + name + "}", true)
    requires ColumnOf(columns, name) == Some(i)
    ensures ResolveAt(h, columns, row, i, {}) == Err(StackOverflow)
  {
    ReferenceHasToken(name);
    var none: set<nat> := {};
    assert none + {i} == {i};
    ReferenceFailure(h, columns, row, i, name, i, {});
  }

  /** Two linked cells holding references may both be in progress. */
  lemma PairInProgress(row: Row, a: nat, b: nat)
    requires a < |row| && b < |row|
    requires row[a].Unresolved? && row[a].linked && HasToken(row[a].raw)
    requires row[b].Unresolved? && row[b].linked && HasToken(row[b].raw)
    ensures InProgress(row, {a}) && InProgress(row, {a, b})
  {
  }

  /** Two cells that refer to each other never resolve. */
  lemma MutualReferenceOverflows(h: Host, columns: Object<nat>, row: Row, a: nat, b: nat, nameA: string, nameB: string)
    requires a < |row| && b < |row| && a != b
    requires |nameA| > 0 && '}' !in nameA && |nameB| > 0 && '}' !in nameB
    requires row[a] == Unresolved("${" + nameB + "}", true)
    requires row[b] == Unresolved("${" + nameA + "}", true)
    requires ColumnOf(columns, nameA) == Some(a) && ColumnOf(columns, nameB) == Some(b)
    ensures ResolveAt(h, columns, row, a, {}) == Err(StackOverflow)
  {
    ReferenceHasToken(nameA);
    ReferenceHasToken(nameB);
    PairInProgress(row, a, b);
    ReentryThroughPartner(h, columns, row, a, b, nameA);
    var none: set<nat> := {};
    assert none + {a} == {a};
    ReferenceFailure(h, columns, row, a, nameB, b, none);
  }

  /** With `a` in progress, resolving a cell that refers back to `a` fails. */
  lemma ReentryThroughPartner(h: Host, columns: Object<nat>, row: Row, a: nat, b: nat, nameA: string)
    requires a < |row| && b < |row| && a != b
    requires |nameA| > 0 && '}' !in nameA
    requires row[b] == Unresolved("${" + nameA + "}", true) && HasToken(row[b].raw)
    requires ColumnOf(columns, nameA) == Some(a)
    requires InProgress(row, {a}) && InProgress(row, {a, b})
    ensures ResolveAt(h, columns, row, b, {a}) == Err(StackOverflow)
  {
    assert {a} + {b} == {a, b};
    ReentryFails(h, columns, row, a, {a, b});
    ReferenceFailure(h, columns, row, b, nameA, a, {a});
  }

  /** Re-entering a cell whose resolution is in progress fails. */
  lemma ReentryFails(h: Host, columns: Object<nat>, row: Row, i: nat, visiting: set<nat>)
    requires i < |row| && InProgress(row, visiting) && i in visiting
    ensures ResolveAt(h, columns, row, i, visiting) == Err(StackOverflow)
  {
  }

  /** A cell without references resolves by evaluation alone, touching no other cell. */
  lemma PlainCellResolves(h: Host, columns: Object<nat>, row: Row, i: nat)
    requires i < |row| && row[i].Unresolved? && Tokens(row[i].raw) == []
    ensures ResolveAt(h, columns, row, i, {}) ==
      Ok((Coerce(h, row[i].raw), row[i := Resolved(Coerce(h, row[i].raw))]))
  {
    HasTokenIffTokens(row[i].raw);
  }

  /** A cell built without the row's substitute evaluates its own text, even when the
      text holds a reference, and touches no other cell. */
  lemma UnlinkedCellResolves(h: Host, columns: Object<nat>, row: Row, i: nat)
    requires i < |row| && row[i].Unresolved? && !row[i].linked
    ensures ResolveAt(h, columns, row, i, {}) ==
      Ok((Coerce(h, row[i].raw), row[i := Resolved(Coerce(h, row[i].raw))]))
  {
  }

  predicate AllResolved(row: Row) {
    forall k :: 0 <= k < |row| ==> row[k].Resolved?
  }

  function ValuesOf(row: Row): (r: seq<Value>)
    requires AllResolved(row)
    ensures |r| == |row| && forall k :: 0 <= k < |r| ==> row[k] == Resolved(r[k])
  {
    seq(|row|, k requires 0 <= k < |row| => row[k].value)
  }

  /** Reads the cells `from..` of a row in order, caching as it goes. */
  function ResolveFrom(h: Host, columns: Object<nat>, row: Row, from: nat): (r: Result<Row, Error>)
    requires from <= |row|
    ensures r.Ok? ==> Refines(row, r.value) && forall k :: from <= k < |row| ==> r.value[k].Resolved?
    decreases |row| - from
  {
    if from == |row| then Ok(row)
    else
      var cell :- ResolveAt(h, columns, row, from, {});
      var rest :- ResolveFrom(h, columns, cell.1, from + 1);
      RefinesTransitive(row, cell.1, rest);
      Ok(rest)
  }

  /** What an unresolved cell's text denotes in `row`: `resolve()` of the text, where the
      row substitute replaces each reference by what the designated cell holds in `row`. */
  function Denotation(h: Host, columns: Object<nat>, c: Cell, row: Row): Value
    requires c.Unresolved?
  {
    Resolve(h, c.raw, if c.linked then Some(Substitute(c.raw, Lookup(h, columns, row)))
                      else DefaultSubstitute(c.raw))
  }

  /** Every reference the row substitute of `c` would replace is settled in `row`. */
  predicate Grounded(columns: Object<nat>, c: Cell, row: Row)
    requires c.Unresolved?
  {
    c.linked && HasToken(c.raw) ==> ReferencesResolved(columns, row, c.raw, {})
  }

  /** `after` refines `before`, and every cell it resolved holds the denotation of its
      text in `after`, with the cells that text refers to resolved. */
  predicate Sound(h: Host, columns: Object<nat>, before: Row, after: Row) {
    && Refines(before, after)
    && forall j :: 0 <= j < |before| && before[j].Unresolved? && after[j].Resolved? ==>
         Grounded(columns, before[j], after) && after[j].value == Denotation(h, columns, before[j], after)
  }

  /** Resolving more cells leaves a grounded denotation as it was. */
  lemma DenotationStable(h: Host, columns: Object<nat>, c: Cell, a: Row, b: Row)
    requires c.Unresolved? && Refines(a, b) && Grounded(columns, c, a)
    ensures Grounded(columns, c, b) && Denotation(h, columns, c, a) == Denotation(h, columns, c, b)
  {
    if c.linked && HasToken(c.raw) {
      forall name | name in Tokens(c.raw)
        ensures Settled(columns, b, name, {})
        ensures Lookup(h, columns, a)(name) == Lookup(h, columns, b)(name)
      {
        assert Settled(columns, a, name, {});
      }
      SubstituteCongruence(c.raw, Lookup(h, columns, a), Lookup(h, columns, b));
    }
  }

  lemma SoundTransitive(h: Host, columns: Object<nat>, a: Row, b: Row, c: Row)
    requires Sound(h, columns, a, b) && Sound(h, columns, b, c)
    ensures Sound(h, columns, a, c)
  {
    forall j | 0 <= j < |a| && a[j].Unresolved? && c[j].Resolved?
      ensures Grounded(columns, a[j], c) && c[j].value == Denotation(h, columns, a[j], c)
    {
      if b[j].Resolved? {
        DenotationStable(h, columns, a[j], b, c);
      }
    }
  }

  /** Every cell `ResolveAt` resolves, the requested one and the ones it reads through
      references, ends up holding the denotation of its text. */
  lemma {:induction false} ResolveAtSound(h: Host, columns: Object<nat>, row: Row, i: nat, visiting: set<nat>)
    requires i < |row| && InProgress(row, visiting)
    requires ResolveAt(h, columns, row, i, visiting).Ok?
    ensures Sound(h, columns, row, ResolveAt(h, columns, row, i, visiting).value.1)
    decreases Pending(|row|, visiting), 0, 0
  {
    if row[i].Unresolved? && HasToken(row[i].raw) && row[i].linked {
      var raw := row[i].raw;
      var (v, after) := ResolveAt(h, columns, row, i, visiting).value;
      assert i in Pending(|row|, visiting) - Pending(|row|, visiting + {i});
      InProgressAdd(row, visiting, i);
      var mid := SubstRow(h, columns, row, raw, visiting + {i}).value.1;
      SubstRowSound(h, columns, row, raw, visiting + {i});
      SubstRowResolves(h, columns, row, raw, visiting + {i});
      ResolveAtMeaning(h, columns, row, i, visiting);
      assert after == mid[i := Resolved(v)];
      LastStepSound(h, columns, mid, i, v, visiting + {i});
      SoundTransitive(h, columns, row, mid, after);
    }
  }

  /** Resolving one linked cell whose references are settled to its denotation is sound. */
  lemma LastStepSound(h: Host, columns: Object<nat>, mid: Row, i: nat, v: Value, visiting: set<nat>)
    requires i < |mid| && mid[i].Unresolved? && mid[i].linked
    requires ReferencesResolved(columns, mid, mid[i].raw, visiting)
    requires v == Denotation(h, columns, mid[i], mid[i := Resolved(v)])
    ensures Sound(h, columns, mid, mid[i := Resolved(v)])
  {
    var after := mid[i := Resolved(v)];
    forall name | name in Tokens(mid[i].raw)
      ensures Settled(columns, after, name, {})
    {
      assert Settled(columns, mid, name, visiting);
    }
  }

  /** The same for the cells `SubstRow` reads. */
  lemma {:induction false} SubstRowSound(h: Host, columns: Object<nat>, row: Row, s: string, visiting: set<nat>)
    requires InProgress(row, visiting)
    requires SubstRow(h, columns, row, s, visiting).Ok?
    ensures Sound(h, columns, row, SubstRow(h, columns, row, s, visiting).value.1)
    decreases Pending(|row|, visiting), 1, |s|
  {
    if |s| > 0 {
      match TokenPrefix(s)
      case Some((name, n)) =>
        match ColumnOf(columns, name) {
          case None =>
            SubstRowSound(h, columns, row, s[n..], visiting);
          case Some(j) =>
            var cell := ResolveAt(h, columns, row, j, visiting).value;
            ResolveAtSound(h, columns, row, j, visiting);
            SubstRowSound(h, columns, cell.1, s[n..], visiting);
            SoundTransitive(h, columns, row, cell.1, SubstRow(h, columns, cell.1, s[n..], visiting).value.1);
        }
      case None =>
        SubstRowSound(h, columns, row, s[1..], visiting);
    }
  }

  /** Reading the cells `from..` leaves every cell it resolved holding its denotation. */
  lemma {:induction false} ResolveFromSound(h: Host, columns: Object<nat>, row: Row, from: nat)
    requires from <= |row| && ResolveFrom(h, columns, row, from).Ok?
    ensures Sound(h, columns, row, ResolveFrom(h, columns, row, from).value)
    decreases |row| - from
  {
    if from < |row| {
      var mid := ResolveAt(h, columns, row, from, {}).value.1;
      var rest := ResolveFrom(h, columns, mid, from + 1).value;
      assert ResolveFrom(h, columns, row, from).value == rest;
      ResolveAtSound(h, columns, row, from, {});
      ResolveFromSound(h, columns, mid, from + 1);
      SoundTransitive(h, columns, row, mid, rest);
    }
  }

  /** A reference read from a row's values: `String(value)` of the designated cell, ""
      for an unknown column. */
  function ValueLookup(h: Host, columns: Object<nat>, vals: seq<Value>): string -> string {
    name => match ColumnOf(columns, name)
            case None => ""
            case Some(j) => if j < |vals| then Str(vals[j], h) else ""
  }

  /** `vals` solves the reference equations of `row`: a cell read earlier keeps its value,
      and every other cell holds its text evaluated with each reference replaced by the
      value in `vals` of the cell it designates. */
  predicate Solves(h: Host, columns: Object<nat>, row: Row, vals: seq<Value>) {
    && |vals| == |row|
    && forall k :: 0 <= k < |row| ==>
         && (row[k].Resolved? ==> vals[k] == row[k].value)
         && (row[k].Unresolved? ==> vals[k] == Resolve(h, row[k].raw,
               if row[k].linked then Some(Substitute(row[k].raw, ValueLookup(h, columns, vals)))
               else DefaultSubstitute(row[k].raw)))
  }

  /** A fully read row that is sound for `row` gives values that solve its equations. */
  lemma SoundSolves(h: Host, columns: Object<nat>, row: Row, after: Row)
    requires Sound(h, columns, row, after) && AllResolved(after)
    ensures Solves(h, columns, row, ValuesOf(after))
  {
    var vals := ValuesOf(after);
    forall k | 0 <= k < |row| && row[k].Unresolved?
      ensures vals[k] == Resolve(h, row[k].raw,
               if row[k].linked then Some(Substitute(row[k].raw, ValueLookup(h, columns, vals)))
               else DefaultSubstitute(row[k].raw))
    {
      forall name | name in Tokens(row[k].raw)
        ensures Lookup(h, columns, after)(name) == ValueLookup(h, columns, vals)(name)
      {
      }
      SubstituteCongruence(row[k].raw, Lookup(h, columns, after), ValueLookup(h, columns, vals));
    }
  }

  /** Reading a row whose cells are all resolved changes nothing and cannot fail. */
  lemma {:induction false} ResolvedRowIsFixed(h: Host, columns: Object<nat>, row: Row, from: nat)
    requires from <= |row| && AllResolved(row)
    ensures ResolveFrom(h, columns, row, from) == Ok(row)
    decreases |row| - from
  {
    if from < |row| {
      ResolvedRowIsFixed(h, columns, row, from + 1);
    }
  }

  /** `getValues({rowIdx})`: the row's values, one per cell in order, and the table with
      that row's cells cached. Other rows are untouched: references never leave a row. */
  function GetValues(h: Host, t: Table, rowIdx: nat): (r: Result<(seq<Value>, Table), Error>)
    requires rowIdx < |t.rows|
    ensures r.Ok? ==> var (vals, t2) := r.value;
      && t2.columns == t.columns && |t2.rows| == |t.rows|
      && (forall k :: 0 <= k < |t.rows| && k != rowIdx ==> t2.rows[k] == t.rows[k])
      && Refines(t.rows[rowIdx], t2.rows[rowIdx])
      && |vals| == |t.rows[rowIdx]|
      && (forall k :: 0 <= k < |vals| ==> t2.rows[rowIdx][k] == Resolved(vals[k]))
      && Solves(h, t.columns, t.rows[rowIdx], vals)
  {
    var row :- ResolveFrom(h, t.columns, t.rows[rowIdx], 0);
    ResolveFromSound(h, t.columns, t.rows[rowIdx], 0);
    SoundSolves(h, t.columns, t.rows[rowIdx], row);
    Ok((ValuesOf(row), Table(t.columns, t.rows[rowIdx := row])))
  }

  /** Every row read in order; the first failure wins. */
  function ResolveRows(h: Host, columns: Object<nat>, rows: seq<Row>): (r: Result<seq<Row>, Error>)
    ensures r.Ok? ==> |r.value| == |rows|
    ensures r.Ok? ==> forall k :: 0 <= k < |rows| ==> Refines(rows[k], r.value[k]) && AllResolved(r.value[k])
    ensures r.Ok? ==> forall k :: 0 <= k < |rows| ==> Solves(h, columns, rows[k], ValuesOf(r.value[k]))
  {
    if |rows| == 0 then Ok([])
    else
      var first :- ResolveFrom(h, columns, rows[0], 0);
      ResolveFromSound(h, columns, rows[0], 0);
      SoundSolves(h, columns, rows[0], first);
      var rest :- ResolveRows(h, columns, rows[1..]);
      Ok([first] + rest)
  }

  function ResolveAll(h: Host, t: Table): (r: Result<Table, Error>)
    ensures r.Ok? ==> r.value.columns == t.columns && |r.value.rows| == |t.rows|
    ensures r.Ok? ==> forall k :: 0 <= k < |t.rows| ==>
      Refines(t.rows[k], r.value.rows[k]) && AllResolved(r.value.rows[k])
    ensures r.Ok? ==> forall k :: 0 <= k < |t.rows| ==> Solves(h, t.columns, t.rows[k], ValuesOf(r.value.rows[k]))
  {
    var rows :- ResolveRows(h, t.columns, t.rows);
    Ok(Table(t.columns, rows))
  }

  /** `getInnerHtml()`: one header per `columns` key in enumeration order, and per row one
      cell per stored cell holding `String(getValue())`: the text of the value reading the
      rows gives, which solves the row's reference equations (`ResolveAll`). */
  function Render(h: Host, t: Table): (r: Result<Html, Error>)
    ensures r.Ok? ==> r.value.head == Keys(t.columns) && |r.value.body| == |t.rows|
    ensures r.Ok? ==> forall k :: 0 <= k < |t.rows| ==> |r.value.body[k]| == |t.rows[k]|
    ensures r.Ok? ==> forall k, j :: 0 <= k < |t.rows| && 0 <= j < |t.rows[k]| && t.rows[k][j].Resolved? ==>
      r.value.body[k][j] == Str(t.rows[k][j].value, h)
    ensures r.Ok? <==> ResolveAll(h, t).Ok?
    ensures r.Ok? ==> forall k, j :: 0 <= k < |t.rows| && 0 <= j < |t.rows[k]| ==>
      r.value.body[k][j] == Str(ValuesOf(ResolveAll(h, t).value.rows[k])[j], h)
  {
    var done :- ResolveAll(h, t);
    var rows := done.rows;
    Ok(Html(Keys(t.columns),
            seq(|rows|, k requires 0 <= k < |rows| =>
              seq(|rows[k]|, j requires 0 <= j < |rows[k]| && rows[k][j].Resolved? => Str(rows[k][j].value, h)))))
  }

  lemma {:induction false} ResolvedRowsAreFixed(h: Host, columns: Object<nat>, rows: seq<Row>)
    requires forall k :: 0 <= k < |rows| ==> AllResolved(rows[k])
    ensures ResolveRows(h, columns, rows) == Ok(rows)
  {
    if |rows| > 0 {
      ResolvedRowIsFixed(h, columns, rows[0], 0);
      ResolvedRowsAreFixed(h, columns, rows[1..]);
      assert rows == [rows[0]] + rows[1..];
    }
  }

  /** A fully resolved table always renders, each cell as `String(value)`. */
  lemma RenderResolved(h: Host, t: Table)
    requires forall k, j :: 0 <= k < |t.rows| && 0 <= j < |t.rows[k]| ==> t.rows[k][j].Resolved?
    ensures Render(h, t).Ok?
    ensures forall k, j :: 0 <= k < |t.rows| && 0 <= j < |t.rows[k]| ==>
      Render(h, t).value.body[k][j] == Str(t.rows[k][j].value, h)
  {
    ResolvedRowsAreFixed(h, t.columns, t.rows);
  }

  function TrimAll(texts: seq<string>): (r: seq<string>)
    ensures |r| == |texts| && forall i :: 0 <= i < |r| ==> r[i] == Trim(texts[i])
  {
    seq(|texts|, i requires 0 <= i < |texts| => Trim(texts[i]))
  }

  /** The cells of one body row: trimmed text, unresolved, with the row substitute. */
  function RowFromHtml(texts: seq<string>): (row: Row)
    ensures |row| == |texts|
    ensures forall j :: 0 <= j < |row| ==> row[j] == Unresolved(Trim(texts[j]), true)
  {
    seq(|texts|, j requires 0 <= j < |texts| => Unresolved(Trim(texts[j]), true))
  }

  /** `new TableData(table)`: trimmed header names indexed by position, and one row of
      unresolved cells per body row. Short rows are not padded. */
  function FromHtml(html: Html): (t: Table)
    ensures t.columns == ColumnIndex(TrimAll(html.head))
    ensures |t.rows| == |html.body|
    ensures forall k :: 0 <= k < |t.rows| ==> t.rows[k] == RowFromHtml(html.body[k])
  {
    Table(ColumnIndex(TrimAll(html.head)),
          seq(|html.body|, k requires 0 <= k < |html.body| => RowFromHtml(html.body[k])))
  }

  /** Header names that are already trimmed are kept as they are. */
  lemma TrimAllTrimmed(texts: seq<string>)
    requires forall k :: 0 <= k < |texts| ==> IsTrimmed(texts[k])
    ensures TrimAll(texts) == texts
  {
    forall k | 0 <= k < |texts|
      ensures TrimAll(texts)[k] == texts[k]
    {
      TrimmedIsFixpoint(texts[k]);
    }
  }

  /** With distinct, trimmed header names, every name maps to its own position. */
  lemma DistinctHeaderIndex(html: Html, i: nat)
    requires i < |html.head| && NoDup(html.head)
    requires forall k :: 0 <= k < |html.head| ==> IsTrimmed(html.head[k])
    ensures Get(FromHtml(html).columns, html.head[i]) == Some(i)
  {
    TrimAllTrimmed(html.head);
    DistinctIndex(html.head, i);
  }

  /** With distinct, trimmed header names none of which is an array index, rendering
      gives the header back in its original order. */
  lemma HeaderRoundTrip(html: Html)
    requires NoDup(html.head)
    requires forall k :: 0 <= k < |html.head| ==> IsTrimmed(html.head[k]) && !IsArrayIndex(html.head[k])
    ensures Keys(FromHtml(html).columns) == html.head
  {
    TrimAllTrimmed(html.head);
    var o := ColumnIndex(html.head);
    ColumnIndexNames(html.head);
    DedupFrontNoDup(html.head);
    KeysWithoutIndicesAreNames(o);
  }

  /** A numeric header name moves to the front when the table is rendered, while the
      cells stay in place: a table headed "Name", "2024" renders as "2024", "Name". */
  lemma NumericHeaderMovesFirst()
    ensures Keys(ColumnIndex(["Name", "2024"])) == ["2024", "Name"]
  {
    ColumnIndexTwo("Name", "2024");
    YearIsArrayIndex();
    NameIsNotArrayIndex();
    IndexKeyFirst(ColumnIndex(["Name", "2024"]), ("Name", 0), ("2024", 1));
  }

  /** How `getCell` designates a column: by name through `columns`, or by position. A
      name absent from `columns` designates no column. */
  datatype ColumnRef = ByName(name: string) | ByIndex(index: nat)

  function ColumnPosition(t: Table, col: ColumnRef): Option<nat> {
    match col
    case ByName(name) => Get(t.columns, name)
    case ByIndex(i) => Some(i)
  }

  /** `getCell({rowIdx, col})`; `None` is the `undefined` an unknown column or a short
      row yields. */
  function GetCell(t: Table, rowIdx: nat, col: ColumnRef): (r: Option<Cell>)
    requires rowIdx < |t.rows|
    ensures r.Some? ==> r.value in t.rows[rowIdx]
    ensures r.Some? <==> ColumnPosition(t, col).Some? && ColumnPosition(t, col).value < |t.rows[rowIdx]|
    ensures r.Some? ==> r.value == t.rows[rowIdx][ColumnPosition(t, col).value]
  {
    match ColumnPosition(t, col)
    case Some(i) => if i < |t.rows[rowIdx]| then Some(t.rows[rowIdx][i]) else None
    case None => None
  }

  /** Looking a cell up by a header name finds the cell under that header. */
  lemma GetCellByHeader(html: Html, rowIdx: nat, i: nat)
    requires rowIdx < |html.body| && i < |html.head| && NoDup(html.head)
    requires forall k :: 0 <= k < |html.head| ==> IsTrimmed(html.head[k])
    ensures GetCell(FromHtml(html), rowIdx, ByName(html.head[i])) == GetCell(FromHtml(html), rowIdx, ByIndex(i))
  {
    DistinctHeaderIndex(html, i);
  }

  /** With distinct trimmed headers, looking a cell up by the i-th header name gives the
      row's i-th cell, or `undefined` when the row is shorter than that. */
  lemma GetCellUnderHeader(html: Html, rowIdx: nat, i: nat)
    requires rowIdx < |html.body| && i < |html.head| && NoDup(html.head)
    requires forall k :: 0 <= k < |html.head| ==> IsTrimmed(html.head[k])
    ensures var t := FromHtml(html);
      GetCell(t, rowIdx, ByName(html.head[i]))
        == if i < |t.rows[rowIdx]| then Some(t.rows[rowIdx][i]) else None
  {
    GetCellByHeader(html, rowIdx, i);
  }
}

=== FILE: templates.dfy ===
/** `${name}` variable references inside cell text: the pattern `\$\{([^}]+)\}` used by
    src/models/ExtendedCellValue.ts:33 to detect references and by
    src/models/TableData.ts:64 to replace them. A reference is "${", at least one
    character other than "}", then the first "}". Matches are found left to right and
    never overlap; text between them is copied unchanged. */
module Templates {
  import opened Wrappers

  /** The first "}" at or after position `from`. */
  function CloseIndex(t: string, from: nat): (r: Option<nat>)
    ensures r.Some? ==> from <= r.value < |t| && t[r.value] == '}'
    ensures r.Some? ==> forall k :: from <= k < r.value ==> t[k] != '}'
    ensures r.None? ==> forall k :: from <= k < |t| ==> t[k] != '}'
    decreases |t| - from
  {
    if from >= |t| then None
    else if t[from] == '}' then Some(from)
    else CloseIndex(t, from + 1)
  }

  /** A reference at the very start of `t`: its name and the length it spans. */
  function TokenPrefix(t: string): (r: Option<(string, nat)>)
    ensures r.Some? ==> 3 < r.value.1 <= |t|
    ensures r.Some? ==> t[..r.value.1] == "${" + r.value.0 + "}"
    ensures r.Some? ==> |r.value.0| > 0 && '}' !in r.value.0
    ensures r.Some? <==> |t| > 3 && t[0] == '$' && t[1] == '{' && t[2] != '}' && '}' in t[3..]
  {
    if |t| >= 2 && t[0] == '$' && t[1] == '{' then
      match CloseIndex(t, 2)
      case Some(j) =>
        if j > 2 then
          assert t[..j + 1] == "${" + t[2..j] + "}";
          Some((t[2..j], j + 1))
        else None
      case None => None
    else None
  }

  /** Some reference starts somewhere in `s` (the `String.match` test). */
  predicate HasToken(s: string) {
    exists i :: 0 <= i < |s| && TokenPrefix(s[i..]).Some?
  }

  /** The names of the references a left-to-right global match finds, in order. */
  function Tokens(s: string): seq<string>
    decreases |s|
  {
    if |s| == 0 then []
    else match TokenPrefix(s)
      case Some((name, n)) => [name] + Tokens(s[n..])
      case None => Tokens(s[1..])
  }

  /** `s.replace(/\$\{([^}]+)\}/g, (_, name) => f(name))`. */
  function Substitute(s: string, f: string -> string): string
    decreases |s|
  {
    if |s| == 0 then ""
    else match TokenPrefix(s)
      case Some((name, n)) => f(name) + Substitute(s[n..], f)
      case None => [s[0]] + Substitute(s[1..], f)
  }

  /** The detection test and the global replacement agree: a string has a reference
      exactly when the replacement finds one. */
  lemma {:induction false} HasTokenIffTokens(s: string)
    ensures HasToken(s) <==> |Tokens(s)| > 0
    decreases |s|
  {
    if |s| > 0 {
      match TokenPrefix(s)
      case Some(_) =>
        assert s[0..] == s;
      case None =>
        HasTokenIffTokens(s[1..]);
        if HasToken(s) {
          var i :| 0 <= i < |s| && TokenPrefix(s[i..]).Some?;
          assert i > 0 && s[1..][i - 1..] == s[i..];
        }
        if HasToken(s[1..]) {
          var i :| 0 <= i < |s[1..]| && TokenPrefix(s[1..][i..]).Some?;
          assert s[i + 1..] == s[1..][i..];
        }
    }
  }

  /** Text without references is left as it is. */
  lemma {:induction false} SubstituteWithoutTokens(s: string, f: string -> string)
    requires Tokens(s) == []
    ensures Substitute(s, f) == s
    decreases |s|
  {
    if |s| > 0 {
      SubstituteWithoutTokens(s[1..], f);
      assert s == [s[0]] + s[1..];
    }
  }

  /** The replacement only consults `f` on the names of the references found. */
  lemma {:induction false} SubstituteCongruence(s: string, f: string -> string, g: string -> string)
    requires forall name :: name in Tokens(s) ==> f(name) == g(name)
    ensures Substitute(s, f) == Substitute(s, g)
    decreases |s|
  {
    if |s| > 0 {
      match TokenPrefix(s)
      case Some((name, n)) =>
        assert Tokens(s) == [name] + Tokens(s[n..]);
        SubstituteCongruence(s[n..], f, g);
      case None =>
        assert Tokens(s) == Tokens(s[1..]);
        SubstituteCongruence(s[1..], f, g);
    }
  }

  /** A text that starts with a reference is that reference's text followed by the rest. */
  lemma TokenPrefixSplits(s: string)
    requires TokenPrefix(s).Some?
    ensures s == "${" + TokenPrefix(s).value.0 + "}" + s[TokenPrefix(s).value.1..]
  {
    var n := TokenPrefix(s).value.1;
    assert s == s[..n] + s[n..];
  }

  /** Replacing every reference by its own text gives the input back. */
  lemma {:induction false} SubstituteRestores(s: string, f: string -> string)
    requires forall name :: name in Tokens(s) ==> f(name) == "${" + name + "}"
    ensures Substitute(s, f) == s
    decreases |s|
  {
    if |s| > 0 {
      match TokenPrefix(s)
      case Some((name, n)) =>
        assert Tokens(s) == [name] + Tokens(s[n..]);
        SubstituteRestores(s[n..], f);
        TokenPrefixSplits(s);
      case None =>
        assert Tokens(s) == Tokens(s[1..]);
        SubstituteRestores(s[1..], f);
        assert s == [s[0]] + s[1..];
    }
  }

  /** `CloseIndex` finds the first "}" from `from`, so it finds any "}" that has none before it. */
  lemma CloseIndexAt(t: string, from: nat, j: nat)
    requires from <= j < |t| && t[j] == '}'
    requires forall k :: from <= k < j ==> t[k] != '}'
    ensures CloseIndex(t, from) == Some(j)
  {
  }

  /** The pieces of the text `${name}`: the opening, the name, and the "}" that closes it. */
  lemma BracedName(name: string)
    requires '}' !in name
    ensures var s := "${" + name + "}";
      && |s| == |name| + 3 && s[0] == '$' && s[1] == '{' && s[2..|name| + 2] == name
      && CloseIndex(s, 2) == Some(|name| + 2)
  {
    var s := "${" + name + "}";
    var j := |name| + 2;
    var open := "${" + name;
    assert s == open + "}";
    forall k | 2 <= k < j
      ensures s[k] != '}'
    {
      assert s[k] == open[k] == name[k - 2];
    }
    CloseIndexAt(s, 2, j);
  }

  /** A single whole-text reference. */
  lemma SingleToken(name: string)
    requires |name| > 0 && '}' !in name
    ensures TokenPrefix("${" + name + "}") == Some((name, |name| + 3))
    ensures Tokens("${" + name + "}") == [name]
  {
    var s := "${" + name + "}";
    BracedName(name);
    assert s[|name| + 3..] == [];
  }
}

=== FILE: values.dfy ===
/** Cell values, the abstract host environment, the error taxonomy and the external
    (rendered) table shape shared by every component. */
module Values {

  /** A JavaScript value as it can appear in a cell: a number, a string, or `undefined`
      (what a cell holding a `${...}` token resolves to when it has no substitution). */
  datatype Value = Num(x: real) | Text(s: string) | Undefined

  /** The outcome of `eval(text)`: it throws, or it yields a value. */
  datatype Evaluation = Threw | Returned(v: Value)

  /** Behaviour of the JavaScript engine that the model does not define:
      - `eval`: the general expression evaluator,
      - `show`: `String(x)` for a finite number,
      - `fixed2`: `x.toFixed(2)`,
      - `isNumeric`: `!isNaN(Number(s))` for a string,
      - `isColor`: `tinycolor(s).isValid()`. */
  datatype Host = Host(
    eval: string -> Evaluation,
    show: real -> string,
    fixed2: real -> string,
    isNumeric: string -> bool,
    isColor: string -> bool)

  /** `Number("")` is 0, so the empty string passes the numeric test. */
  predicate EmptyIsNumeric(h: Host) {
    h.isNumeric("")
  }

  /** `String(v)`, also what a template literal and a `replace` callback produce. */
  function Str(v: Value, h: Host): string {
    match v
    case Num(x) => h.show(x)
    case Text(s) => s
    case Undefined => "undefined"
  }

  /** How `Array.prototype.join` renders one element: `undefined` becomes "". */
  function JoinPiece(v: Value, h: Host): string {
    match v
    case Undefined => ""
    case _ => Str(v, h)
  }

  /** `typeof v`. */
  function TypeOf(v: Value): string {
    match v
    case Num(_) => "number"
    case Text(_) => "string"
    case Undefined => "undefined"
  }

  /** The exceptions the core throws. */
  datatype Error =
    | StackOverflow                         // a cell reaches itself through `${...}` references
    | MissingCell                           // `getValue()` called on a cell that does not exist
    | MissingPivotGroups                    // aggregation requested without pivot groups
    | MissingColumns(columns: seq<string>)  // summarization names columns the table lacks
    | NonNumericColumn(column: string, violations: seq<Value>)
    | NonNumericVariable(column: string, value: string)
    | EvaluationThrew(equation: string)
    | InvalidComputation(equation: string)
    | InvalidTarget(target: string)
    | InvalidSort(sort: string)
    | InvalidColor(color: string)
    | MissingGradientColor
    | RowspanOverflow                       // a rowspan reaches past the last table row

  /** The external table: header texts and, per body row, its data-cell texts. */
  datatype Html = Html(head: seq<string>, body: seq<seq<string>>)
}

=== FILE: wrappers.dfy ===
/** Failure-compatible wrappers used throughout the model: `Option` for a value that
    may be absent, `Result` for an operation that may throw. */
module Wrappers {

  datatype Option<+T> = None | Some(value: T) {

    predicate IsFailure() {
      None?
    }

    function PropagateFailure<U>(): Option<U>
      requires None?
    {
      None
    }

    function Extract(): T
      requires Some?
    {
      value
    }

    function GetOr(default: T): T {
      match this
      case Some(v) => v
      case None => default
    }
  }

  /** `Err` stands for an exception thrown by the source; `E` describes it. */
  datatype Result<+R, +E> = Ok(value: R) | Err(error: E) {

    predicate IsFailure() {
      Err?
    }

    function PropagateFailure<U>(): Result<U, E>
      requires Err?
    {
      Err(error)
    }

    function Extract(): R
      requires Ok?
    {
      value
    }
  }
}
